=== FILE: README.md ===
# Monasca agent: metric mapping and four checks, in Dafny

This project models the parts of the Monasca monitoring agent that turn
third-party data into Monasca measurements, and proves properties of them.

- **`DynamicCheckHelper`** (collector/checks/utils.py) is the configurable
  mapper shared by the Kubernetes and Prometheus checks. Each instance's
  `mapping` declares gauge and rate patterns, dimension rules and groups.
  The helper classifies every input metric as GAUGE, RATE or SKIP and
  memoises the answer. It normalises metric names and dimension values. It
  resolves the group of a metric, maps labels to dimensions, and walks
  nested dictionaries and lists to push one measurement per number.
  - Modules: `DimValue`, `MetricName`, `MetricSpecs`, `DimMappings`, `Engine`
    (what the helper computes, as values) and `CheckHelper` (the class, with
    its caches as fields, proved against `Engine`).
  - Shared vocabulary: `Config` (the mapping configuration) and `Json`
    (decoded documents).
- **Elasticsearch check** (module `Elastic`):
  - the metric tables;
  - `_define_params`, which merges the tables that apply to a server
    version and chooses the URLs;
  - `_process_metric`, `_process_health_data` and `_process_task_data`;
  - the `cluster_status` lambda.

  Python 2's list comparison, which decides the version tests, is in
  `ListOrder`.
- **Network connections check** (module `NetworkConnections`): classifies the
  lines of an `ss -nuta4`/`-nuta6` listing and counts them into six gauges.
- **Swift dispersion check** (module `SwiftDispersion`):
  - drops the leading non-JSON lines of `swift-dispersion-report -j`;
  - computes the eight dispersion gauges, including `copies_missing`.
- **InfluxDB detection plugin** (module `InfluxVersion`): `_compare_versions`
  with its `normalize`, Python 2's `int` on a `str` (`ParseInt`), and the
  0.9.5 threshold of `_connection_test`.

Regular expressions chosen by the user are an abstract `Matcher`. A
`Matcher` maps a pattern and a subject to the capture groups of a match
anchored at the start, or to nothing. The patterns the source writes itself
are modelled by hand:
- `(?!^)([A-Z]+)`, `__+`, `^_` and `_$`;
- `(\.0+)*$`;
- the character classes of `_normalize_dim_value`.

Python dictionaries the source iterates are sequences of pairs in iteration
order. Exceptions the source raises on malformed input (`KeyError`,
`TypeError`, `IndexError`, `AttributeError`, `ValueError`,
`CheckException`, a failed `assert`) are the `Failure` side of a `Result`.
Two exceptions are preconditions instead, listed under "Left out": the
`KeyError` for a group passed for an instance without groups, and unique
instance names.

Where the code and its docstrings or comments disagree, the model follows
the code:
- `_normalize_dim_value`'s docstring lists `)` among the illegal
  characters. The character classes never replace it (the class `[(}>]`
  names `(` a second time), so `)` passes through
  (`DimValue.CloseParenKept`).
- The `DimMapping` docstring says a regex without match groups passes the
  value through. `map_value` joins the (empty) tuple of groups, so such a
  rule yields the empty string (`DimMappings.NoGroupsYieldEmpty`).
- `_define_params` comments the `version <= [0, 90, 0]` branch as the
  pre-0.90.10 layout. The following `if version < [5, 0, 0] ... else`
  always overwrites its URLs and its JVM table, so `JVM_METRICS_PRE_0_90_10`
  is never merged (`Elastic.ElasticSearch.DefineUrls`,
  `Elastic.OldUrlsOverwritten`).

## Model

| member | source | states |
|---|---|---|
| DimValue.Truncate | monasca_agent/collector/checks/utils.py:96-97 | `[:255]` gives the prefix of the value that is 255 characters long, or the whole value when it is shorter |
| DimValue.NormalizeDimValue | monasca_agent/collector/checks/utils.py:85-97 | the sanitised value is the first 255 characters of the substituted value (all of it when shorter), none from the three replaced classes |
| DimValue.SanitisedClean | monasca_agent/collector/checks/utils.py:96-97 | after the three class substitutions no opening, closing or dashed character is left |
| DimValue.SanitisedKeeps | monasca_agent/collector/checks/utils.py:96-97 | the class substitutions keep the length and every character outside the classes |
| DimValue.SanitisedEach | monasca_agent/collector/checks/utils.py:96-97 | the class substitutions work character by character: `(` `{` `<` become `[`, `}` `>` become `]`, the dashed class becomes `-`, every other character stays |
| DimValue.NormalizeDimValueEach | monasca_agent/collector/checks/utils.py:85-97 | a value without backslashes keeps its first 255 characters, each replaced as its class says |
| DimValue.NormalizeDimValueKeeps | monasca_agent/collector/checks/utils.py:85-97 | a value is returned unchanged if and only if it has at most 255 characters and no forbidden character |
| DimValue.NormalizeDimValueIdempotent | monasca_agent/collector/checks/utils.py:85-97 | sanitising twice equals sanitising once |
| DimValue.CloseParenKept | monasca_agent/collector/checks/utils.py:96-97 | a `)` within the first 255 characters of a value without backslashes survives sanitising |
| DimValue.EscapesDecoded | monasca_agent/collector/checks/utils.py:96-97 | the escaped hyphen `\x2d` is decoded to `-` before backslashes are replaced |
| DimValue.ParensExample | monasca_agent/collector/checks/utils.py:96-97 | `(a)` becomes `[a)` |
| MetricName.NormalizeMetricName | monasca_agent/collector/checks/utils.py:660-676 | every normalised name is lower-case, has no `.`, no special character, no `__` and no `_` at either end |
| MetricName.CanonicalIsCanonical | monasca_agent/collector/checks/utils.py:665-674 | the substitution pipeline always ends in such a canonical name |
| MetricName.SnakeCaseChars | monasca_agent/collector/checks/utils.py:665 | snake-casing adds only `_` characters |
| MetricName.CollapseFacts | monasca_agent/collector/checks/utils.py:668 | collapsing `__+` keeps the first character, adds nothing and leaves no `__` |
| MetricName.StripTrailingFacts | monasca_agent/collector/checks/utils.py:670-671 | stripping the end `_` of a collapsed name leaves no `__` and no `_` at either end |
| MetricName.CleanupCanonical | monasca_agent/collector/checks/utils.py:666-671 | special-character replacement, collapsing and stripping turn a dotless lower-case string into a canonical one |
| MetricName.CanonicalFixesCanonical | monasca_agent/collector/checks/utils.py:665-674 | a canonical name not ending in `_` plus newline passes the pipeline unchanged |
| MetricName.NormalizeIdempotent | monasca_agent/collector/checks/utils.py:660-676 | normalising a normalised name again changes nothing, unless it ends in `_` plus newline |
| MetricName.TrailingNewlineNotIdempotent | monasca_agent/collector/checks/utils.py:671 | `_$` also strips a `_` before a final newline: `a_\n_` gives `a_\n`, which a second pass turns into `a\n` |
| MetricName.TwoWordsNormalize | monasca_agent/collector/checks/utils.py:665 | two capitalised lower-case words normalise to the lower-case words joined by `_` |
| MetricName.FilesystemUsageExample | monasca_agent/collector/checks/utils.py:174 | `FilesystemUsage` is reported as `filesystem_usage`, as the docstring promises |
| MetricName.GroupsReplaceName | monasca_agent/collector/checks/utils.py:662-663 | with capture groups, their `_`-join replaces the input name, which plays no further part |
| MetricName.CanonicalGroupsKept | monasca_agent/collector/checks/utils.py:662-676 | capture groups whose `_`-join is already canonical (and does not end in `_` and a newline) are reported as that join |
| MetricName.TwoWordsSuffixNormalize | monasca_agent/collector/checks/utils.py:665-676 | two capitalised lower-case words, `_` and a lower-case word normalise to the three lower-case words joined by `_` |
| MetricName.DiskUsageTotalExample | monasca_agent/collector/checks/utils.py:182 | capture groups `DiskUsage` and `total` report the metric as `disk_usage_total`, as the docstring's `..._usage_total` promises |
| MetricSpecs.FirstMatch | monasca_agent/collector/checks/utils.py:632-651 | the position found is the first pattern that matches, with its groups; nothing is found if and only if no pattern matches |
| MetricSpecs.LookupMetric | monasca_agent/collector/checks/utils.py:621-657 | a cached entry is returned and the cache is unchanged; otherwise the classification is returned and stored under the metric |
| MetricSpecs.LookupAgrees | monasca_agent/collector/checks/utils.py:621-657 | through a cache that agrees with the configuration, a lookup yields the classification and the cache keeps agreeing |
| MetricSpecs.SkipIffNoMatch | monasca_agent/collector/checks/utils.py:630-657 | a metric is SKIP if and only if no gauge pattern and no rate pattern matches it |
| MetricSpecs.GaugeFirst | monasca_agent/collector/checks/utils.py:632-641 | a metric some gauge pattern matches is a gauge named from the first such pattern's groups, whatever the rates say |
| MetricSpecs.RateWhenNoGauge | monasca_agent/collector/checks/utils.py:642-651 | without a matching gauge pattern, the first matching rate pattern makes it a rate |
| MetricSpecs.LookupTwice | monasca_agent/collector/checks/utils.py:630-657 | a second lookup of the same metric returns the same entry |
| DimMappings.MapValue | monasca_agent/collector/checks/utils.py:114-127 | a mapped value is sanitised; `(.*)` always maps; there is no match if and only if a custom regex does not match |
| DimMappings.IdentityRuleCopies | monasca_agent/collector/checks/utils.py:111-127 | a `(.*)` rule yields the sanitised source value |
| DimMappings.NoGroupsYieldEmpty | monasca_agent/collector/checks/utils.py:119-123 | a matching regex without groups yields the empty value |
| DimMappings.SimpleEntryCopies | monasca_agent/collector/checks/utils.py:138-146 | a simple `dimension: key` entry reads `key` and copies its sanitised value |
| DimMappings.RulesForExactly | monasca_agent/collector/checks/utils.py:137-151 | the rules of a label are exactly the rules of the entries whose source key is that label (`None` for `source_key: null`) |
| DimMappings.BuildDimensionMap | monasca_agent/collector/checks/utils.py:104-153 | fails (`TypeError` from `re.compile(None)`) exactly when some entry has `regex: null`; otherwise the map has exactly the read labels as keys, `None` among them for a `source_key: null` entry, each with its entries' rules in declaration order |
| DimMappings.DimMapOf | monasca_agent/collector/checks/utils.py:130-153 | the built table's keys are the labels some entry reads, `None` for a `source_key: null` entry |
| DimMappings.RulesForUnread | monasca_agent/collector/checks/utils.py:137-151 | a label no entry reads has no rules |
| DimMappings.NullSourceKeyUnread | monasca_agent/collector/checks/utils.py:137-151 | a `source_key: null` entry is filed under `None`, and its rule is among a label's rules only when an entry that reads that label stands for the same rule |
| DimMappings.DimMapOfLookup | monasca_agent/collector/checks/utils.py:130-153 | looking a label up in the built table gives its entries' rules |
| DimMappings.MappingsForParts | monasca_agent/collector/checks/utils.py:610-619 | the rules end with the global ones; without a group (or with `""`) they are the global ones; a declared group's own rules come first |
| DimMappings.ApplyRulesLoop | monasca_agent/collector/checks/utils.py:590-606 | the inner loop of `_map_dimensions` computes `ApplyRules` |
| DimMappings.MapLabelsLoop | monasca_agent/collector/checks/utils.py:575-608 | the outer loop of `_map_dimensions` computes `MapLabels` |
| DimMappings.ApplyRulesStuck | monasca_agent/collector/checks/utils.py:590-606 | once a rule has filtered the value out, later rules cannot bring it back |
| DimMappings.MapLabelsStuck | monasca_agent/collector/checks/utils.py:586-606 | once a label has filtered the measurement out, later labels cannot bring it back |
| DimMappings.ApplyRulesKeeps | monasca_agent/collector/checks/utils.py:590-600 | a successful mapping has exactly the given dimensions plus the rules' targets, and every given dimension keeps its value |
| DimMappings.ApplyRulesNoneIff | monasca_agent/collector/checks/utils.py:590-606 | filtered out if and only if some reached rule has a target not yet present and does not map |
| DimMappings.FailureFilters | monasca_agent/collector/checks/utils.py:590-606 | a failing rule filters the measurement out |
| DimMappings.FailureWitness | monasca_agent/collector/checks/utils.py:590-606 | a filtered measurement has a failing rule |
| DimMappings.LastRuleDecides | monasca_agent/collector/checks/utils.py:590-606 | when the earlier rules succeed, the last one fails exactly when it is reached unset and does not map |
| DimMappings.FirstRuleWins | monasca_agent/collector/checks/utils.py:593-600 | the first rule for a target that is not given sets the target's value ("do not overwrite") |
| DimMappings.RepeatedTargetsIgnored | monasca_agent/collector/checks/utils.py:595 | extra rules whose targets are already set change neither the result nor whether there is one |
| DimMappings.DefaultsKept | monasca_agent/collector/checks/utils.py:584-600 | every default dimension survives `_map_dimensions` with its value |
| DimMappings.GetMappingsAsWritten | monasca_agent/collector/checks/utils.py:610-619 | the source's `_get_mappings`: returns the rules `MappingsFor` gives and rewrites the group rule store in place |
| DimMappings.StoredRulesGrow | monasca_agent/collector/checks/utils.py:613-619 | after `k` calls the stored list holds the group rules followed by `k` copies of the global rules; the next call returns `k + 1` copies |
| DimMappings.SecondCallDiffers | monasca_agent/collector/checks/utils.py:613-619 | when the label has global rules, the second call already returns a different list from the first |
| DimMappings.GrownSplit | monasca_agent/collector/checks/utils.py:613-619 | a grown list is the intended list followed by rules that only repeat global targets |
| DimMappings.GrownRulesMapAlike | monasca_agent/collector/checks/utils.py:586-619 | a grown list maps every value exactly as the intended list does, and is non-empty exactly when it is |
| Engine.BuildAll | monasca_agent/collector/checks/utils.py:241-267 | every recorded instance keeps its mapping, with the tables derived from it |
| Engine.ConfigureFails | monasca_agent/collector/checks/utils.py:241-270 | construction fails if and only if some instance has neither a mapping nor a default, or has a `dimensions` entry, global or in a group, with `regex: null` |
| Engine.ConfigureNamesFirst | monasca_agent/collector/checks/utils.py:241-270 | a failure is the exception of the first instance that cannot be recorded (`CheckException` naming it, or `TypeError`), every earlier one being recorded |
| Engine.ConfigureFailureSticks | monasca_agent/collector/checks/utils.py:241-270 | once an instance fails, later instances do not change the outcome |
| Engine.ConfigureSucceeds | monasca_agent/collector/checks/utils.py:241-270 | construction succeeds when every instance has a mapping and none of its `dimensions` entries has `regex: null` |
| Engine.InstanceFails | monasca_agent/collector/checks/utils.py:104-151 | an instance cannot be recorded exactly when it has no mapping (`CheckException` naming it) or a `dimensions` entry of its mapping, global or in a group, has `regex: null` (`TypeError`); otherwise its mapping is recorded |
| Engine.ConfigureNoneFails | monasca_agent/collector/checks/utils.py:241-270 | one instance without a mapping, or with a `regex: null` entry, makes construction fail |
| Engine.ConfigureKeys | monasca_agent/collector/checks/utils.py:241-247 | a successful construction records exactly the instance names |
| Engine.ConfigureLastWins | monasca_agent/collector/checks/utils.py:241-247 | each recorded mapping is that of the last instance with the name |
| Engine.PseudoGroupIsGlobal | monasca_agent/collector/checks/utils.py:263-267 | the pseudo group `""` classifies in the global scope and uses the global dimension rules |
| Engine.DeclaredGroupScope | monasca_agent/collector/checks/utils.py:300-305 | a declared group classifies in its own scope; an undeclared group of an instance with groups classifies in an empty scope |
| Engine.FirstClaimingAt | monasca_agent/collector/checks/utils.py:282-286 | the search settles on the first group that does not skip the metric |
| Engine.FirstClaimingFinds | monasca_agent/collector/checks/utils.py:282-286 | the search finds nothing if and only if every group skips the metric; what it finds is the first group that does not |
| Engine.NoGroupsNoGroup | monasca_agent/collector/checks/utils.py:253-288 | an instance without groups never resolves a group |
| Engine.GlobalMatchResolves | monasca_agent/collector/checks/utils.py:264-286 | with groups, a metric a global pattern matches always resolves, since the pseudo group is tried last |
| Engine.PushOutcomeResolved | monasca_agent/collector/checks/utils.py:503-553 | `push_metric` is decided by the effective group, the classification and the mapped dimensions |
| Engine.PushedIffNotSkip | monasca_agent/collector/checks/utils.py:519-553 | `push_metric` returns True if and only if the metric is not SKIP, and emits at most one measurement |
| Engine.PushedMeasurement | monasca_agent/collector/checks/utils.py:519-553 | a measurement goes out if and only if the metric is not SKIP and no rule filters it; it is named `[prefix.][group.]name`, is a rate or gauge as classified, and its dimensions are exactly those `_map_dimensions` computes from the labels and defaults, with the fixed ones added on top and winning |
| Engine.EntriesStep | monasca_agent/collector/checks/utils.py:445-474 | one more dictionary entry appends its own emissions |
| Engine.ItemsStep | monasca_agent/collector/checks/utils.py:458-474 | one more list element appends its own emissions |
| Engine.CollectedNone | monasca_agent/collector/checks/utils.py:488-494 | nothing is collected if and only if no string attribute has a rule |
| Engine.CollectedKeeps | monasca_agent/collector/checks/utils.py:488-494 | collected labels keep every given label |
| Engine.CollectedHolds | monasca_agent/collector/checks/utils.py:488-494 | a mapped string attribute becomes a label with its value |
| Engine.DistLabelsFacts | monasca_agent/collector/checks/utils.py:476-501 | an element is skipped if and only if no string attribute is mapped and `index` is unmapped; otherwise, without mapped attributes, `index` holds the position |
| Engine.SkippedElementSilent | monasca_agent/collector/checks/utils.py:433-440 | a skipped array element emits nothing |
| Engine.DepthLimitSilent | monasca_agent/collector/checks/utils.py:447-449 | at the depth limit a nested dictionary emits nothing |
| Engine.NumbersNeedIndex | monasca_agent/collector/checks/utils.py:464-472 | numeric list items emit nothing when `index` has no rule |
| Engine.FlatDictPushesEach | monasca_agent/collector/checks/utils.py:445-454 | a flat dictionary emits one `push_metric` per numeric entry, in entry order |
| Engine.TablePatternsHas | monasca_agent/collector/checks/utils.py:569-571 | a pattern is reported if and only if some group's scope lists it |
| Engine.MappedMetricsHas | monasca_agent/collector/checks/utils.py:555-573 | the global patterns are reported, and every declared group's patterns |
| CheckHelper.GroupedInstances | monasca_agent/collector/checks/utils.py:254-258 | group tables exist exactly for the instances that declare groups |
| CheckHelper.OwnGroups | monasca_agent/collector/checks/utils.py:259-266 | the groups with a cache of their own are the declared ones, not the pseudo group |
| CheckHelper.InitialTablesValid | monasca_agent/collector/checks/utils.py:230-262 | the empty caches and memo tables agree with any configuration |
| CheckHelper.GlobalCacheStep | monasca_agent/collector/checks/utils.py:307-310 | a lookup in an instance's global cache yields the classification and keeps the caches valid |
| CheckHelper.GroupCacheStep | monasca_agent/collector/checks/utils.py:300-305 | a lookup in a group cache yields that group's classification and keeps the caches valid |
| CheckHelper.GroupCachesUpdate | monasca_agent/collector/checks/utils.py:300-305 | replacing an instance's group caches with valid ones keeps all group caches valid |
| CheckHelper.GroupLookupStep | monasca_agent/collector/checks/utils.py:300-305 | a group-cache lookup returns `_fetch_metric_spec`'s answer and keeps every group cache valid |
| CheckHelper.LookupGroupCache | monasca_agent/collector/checks/utils.py:300-305 | looks up and stores in the cache of a declared group, returning `_fetch_metric_spec`'s answer |
| CheckHelper.MemoStep | monasca_agent/collector/checks/utils.py:283-286 | remembering the group the search settles on keeps `_metric_to_group` valid |
| CheckHelper.DynamicCheckHelper.Init | monasca_agent/collector/checks/utils.py:230-267 | empty caches for every instance and for every declared group, and nothing emitted |
| CheckHelper.DynamicCheckHelper.Create | monasca_agent/collector/checks/utils.py:155-270 | fails with the exception of the first instance that cannot be recorded (`CheckException` for a missing mapping, `TypeError` for `regex: null`), exactly when `Configure` does; otherwise records every instance's tables |
| CheckHelper.DynamicCheckHelper.FetchMetricSpec | monasca_agent/collector/checks/utils.py:290-310 | returns the classification in the global, group or empty scope, and updates only the cache consulted; no cache loses an entry |
| CheckHelper.DynamicCheckHelper.LookupGlobal | monasca_agent/collector/checks/utils.py:307-310 | classifies globally and stores the entry in the instance's global cache |
| CheckHelper.DynamicCheckHelper.LookupInGroup | monasca_agent/collector/checks/utils.py:300-305 | classifies in the group and stores the entry in the group's cache |
| CheckHelper.DynamicCheckHelper.IsEnabledMetric | monasca_agent/collector/checks/utils.py:312-313 | true if and only if the metric is not SKIP; the metric caches only gain entries |
| CheckHelper.DynamicCheckHelper.GetGroup | monasca_agent/collector/checks/utils.py:272-288 | returns the first group that does not skip the metric; remembers it only when it was not remembered before; the caches and `_metric_to_group` only gain entries |
| CheckHelper.DynamicCheckHelper.TryGroup | monasca_agent/collector/checks/utils.py:283-284 | true if and only if the group claims the metric; the metric caches only gain entries |
| CheckHelper.DynamicCheckHelper.SearchGroups | monasca_agent/collector/checks/utils.py:282-286 | the loop returns the first group, in declaration order with the pseudo group last, that does not skip the metric; the metric caches only gain entries |
| CheckHelper.DynamicCheckHelper.SearchStep | monasca_agent/collector/checks/utils.py:282-286 | one pass of the search ends at the group at its position exactly when that group claims the metric, and the caches keep growing |
| CheckHelper.DynamicCheckHelper.MapDimensions | monasca_agent/collector/checks/utils.py:575-608 | returns the mapped dimensions `DimensionsOf` defines, or nothing when a rule filters the labels out |
| CheckHelper.DynamicCheckHelper.PushMetric | monasca_agent/collector/checks/utils.py:503-553 | returns and emits what `PushOutcome` says; the caches and `_metric_to_group` only gain entries |
| CheckHelper.DynamicCheckHelper.EmitResolved | monasca_agent/collector/checks/utils.py:526-553 | once group and classification are known, returns and emits what `PushResolved` says |
| CheckHelper.DynamicCheckHelper.ResolveGroup | monasca_agent/collector/checks/utils.py:519-520 | the given group, else the one `_get_group` settles on; the caches and `_metric_to_group` only gain entries |
| CheckHelper.DynamicCheckHelper.ExtractDistLabels | monasca_agent/collector/checks/utils.py:476-501 | returns the distinguishing labels `DistLabels` defines |
| CheckHelper.DynamicCheckHelper.PushMetricDict | monasca_agent/collector/checks/utils.py:315-474 | appends exactly the emissions `DictEmissions` defines for the dictionary; the caches and `_metric_to_group` only gain entries |
| CheckHelper.DynamicCheckHelper.PushEntries | monasca_agent/collector/checks/utils.py:445-474 | appends the emissions of every entry, in order; the caches and `_metric_to_group` only gain entries |
| CheckHelper.DynamicCheckHelper.PushEntry | monasca_agent/collector/checks/utils.py:446-474 | appends the emissions of one more entry; the caches and `_metric_to_group` only gain entries |
| CheckHelper.DynamicCheckHelper.PushChild | monasca_agent/collector/checks/utils.py:446-474 | appends the emissions of one dictionary entry, number or list; the caches and `_metric_to_group` only gain entries |
| CheckHelper.DynamicCheckHelper.PushList | monasca_agent/collector/checks/utils.py:458-474 | appends the emissions of every list element, in order; the caches and `_metric_to_group` only gain entries |
| CheckHelper.DynamicCheckHelper.PushElement | monasca_agent/collector/checks/utils.py:458-474 | appends the emissions of one more list element; the caches and `_metric_to_group` only gain entries |
| CheckHelper.DynamicCheckHelper.PushItem | monasca_agent/collector/checks/utils.py:459-474 | appends the emissions of one list element: a nested dictionary, or a number with an `index` label; the caches and `_metric_to_group` only gain entries |
| CheckHelper.DynamicCheckHelper.GetMappedMetrics | monasca_agent/collector/checks/utils.py:555-573 | the global gauge and rate patterns, then those of every group |
| ListOrder.Cmp | monasca_agent/collector/checks_d/elastic.py:324 | Python 2 `cmp` on lists is -1, 0 or 1, and 0 exactly for equal lists |
| ListOrder.CmpLexicographic | monasca_agent/collector/checks_d/elastic.py:324 | `cmp` is negative exactly when the first list is lexicographically smaller |
| ListOrder.CmpAntisymmetric | monasca_agent/collector/checks_d/elastic.py:333-341 | swapping the arguments negates `cmp` |
| ListOrder.CmpTransitive | monasca_agent/collector/checks_d/elastic.py:333-341 | the order on lists is transitive |
| Elastic.StatusCodeOf | monasca_agent/collector/checks_d/elastic.py:150 | red, yellow and green give 0, 1 and 2; any other hashable value gives -1; a list or an object raises `TypeError` |
| Elastic.Thousandth | monasca_agent/collector/checks_d/elastic.py:18-19 | `div1000` succeeds exactly on numbers and gives the value divided by 1000 |
| Elastic.MetricOutcome | monasca_agent/collector/checks_d/elastic.py:500-526 | not found exactly when the path walk ends at `None`; otherwise one sample named by the metric, a gauge exactly when `METRICS` says "gauge", carrying the transformed value |
| Elastic.PathComposes | monasca_agent/collector/checks_d/elastic.py:510-515 | walking a path is walking its first part, then the rest |
| Elastic.NullStays | monasca_agent/collector/checks_d/elastic.py:510-515 | once the walk reaches `None` it stays there |
| Elastic.MissingKeyNotFound | monasca_agent/collector/checks_d/elastic.py:507-526 | a missing key on the way means the metric is not found |
| Elastic.PrioritiesCount | monasca_agent/collector/checks_d/elastic.py:549-552 | counting by priority counts every task once, under its own priority |
| Elastic.PendingCounts | monasca_agent/collector/checks_d/elastic.py:549-558 | `node_data` holds the number of tasks and the counts of `high` and `urgent` tasks |
| Elastic.PrioritiesFail | monasca_agent/collector/checks_d/elastic.py:551-552 | once a task raises, the whole count raises the same exception |
| Elastic.NodeDataFields | monasca_agent/collector/checks_d/elastic.py:554-558 | the three `node_data` fields are the total and the `high` and `urgent` counts |
| Elastic.TopLevelGauge | monasca_agent/collector/checks_d/elastic.py:507-522 | a one-key path present in the document sends a gauge with that key's value |
| Elastic.PendingSamples | monasca_agent/collector/checks_d/elastic.py:548-568 | the pending-task gauges carry the task total and the `high` and `urgent` counts |
| Elastic.CommonMetricsListPendingTasks | monasca_agent/collector/checks_d/elastic.py:114-116 | `METRICS` lists the three pending-task metrics as gauges |
| Elastic.ElasticSearch.constructor | monasca_agent/collector/checks_d/elastic.py:245-249 | the common metrics, no URL yet, an empty cluster status |
| Elastic.ElasticSearch.Merge | monasca_agent/collector/checks_d/elastic.py:331 | one `METRICS.update` adds one table to the merged sequence and changes nothing else |
| Elastic.ElasticSearch.MergeIf | monasca_agent/collector/checks_d/elastic.py:363-364 | a guarded `METRICS.update` merges the table exactly when the version test holds |
| Elastic.ElasticSearch.DefineParams | monasca_agent/collector/checks_d/elastic.py:319-387 | `METRICS` becomes the old one updated with the version's tables in the source's order; the URLs are the 0.90.10 ones, with the stats URL losing `?all=true` from 5.0.0 |
| Elastic.ElasticSearch.MergeVersionTables | monasca_agent/collector/checks_d/elastic.py:363-379 | merges the post-1.0.0, pre-2.0.0, post-1.3.0 and post-1.4.0 tables whose tests hold, in order |
| Elastic.ElasticSearch.DefineUrls | monasca_agent/collector/checks_d/elastic.py:333-359 | whatever the version, the JVM table chosen is the post-0.90.10 one and the URLs are the 0.90.10 layout's |
| Elastic.ElasticSearch.ProcessMetric | monasca_agent/collector/checks_d/elastic.py:500-526 | the loop over the path computes `MetricOutcome` |
| Elastic.ElasticSearch.ProcessTable | monasca_agent/collector/checks_d/elastic.py:540-543 | raises only what some entry raises; otherwise exactly one sample per entry found |
| Elastic.ElasticSearch.ProcessHealthData | monasca_agent/collector/checks_d/elastic.py:528-543 | the URL's cluster status becomes `data['status']` (a `KeyError` or `TypeError` without it), then every `METRICS` entry is processed; nothing else changes |
| Elastic.ElasticSearch.ProcessTaskData | monasca_agent/collector/checks_d/elastic.py:548-568 | raises what counting raises; otherwise processes the pending-task entries against `node_data`, without transforms |
| Elastic.MetricsOnlyGrow | monasca_agent/collector/checks_d/elastic.py:319-387 | merging never removes a key, and a key no table has keeps its entry |
| Elastic.MergedKeys | monasca_agent/collector/checks_d/elastic.py:319-387 | every merged table's keys end up in `METRICS` |
| Elastic.LastHolderWins | monasca_agent/collector/checks_d/elastic.py:319-387 | the last merged table holding a key decides its entry |
| Elastic.PrimaryShardMetricsPresent | monasca_agent/collector/checks_d/elastic.py:381-387 | every primary-shard key is present afterwards, and from 1.0.0 every post-1.0 key with that table's entry |
| Elastic.PrimaryShardEntryKept | monasca_agent/collector/checks_d/elastic.py:381-387 | a primary-shard key that no post-1.0 table redefines keeps its primary-shard entry, for every version |
| Elastic.ClusterStatusEntry | monasca_agent/collector/checks_d/elastic.py:118-151 | the primary-shard table maps `elasticsearch.cluster_status` to a `status` gauge read through the `cluster_status` lambda, and no post-1.0 table redefines it |
| Elastic.ClusterStatusMapped | monasca_agent/collector/checks_d/elastic.py:118-151 | for every version, `elasticsearch.cluster_status` reads `status` through the `cluster_status` lambda |
| Elastic.OldUrlsOverwritten | monasca_agent/collector/checks_d/elastic.py:333-346 | up to 0.90.0 the stats URL is still `/_nodes/stats?all=true` |
| NetworkConnections.TcpGauge | monasca_agent/collector/checks_d/network_connections.py:17-25 | a TCP gauge found for a state name is a `tcp` gauge ending in that name |
| NetworkConnections.Counters.Bump | monasca_agent/collector/checks_d/network_connections.py:71 | one counter goes up by one and the others stay |
| NetworkConnections.Initial | monasca_agent/collector/checks_d/network_connections.py:63-64 | every counter starts at zero |
| NetworkConnections.Step | monasca_agent/collector/checks_d/network_connections.py:66-77 | a line fails exactly when classifying it fails; otherwise only its counter goes up by one |
| NetworkConnections.CollectMetrics | monasca_agent/collector/checks_d/network_connections.py:51-83 | fails exactly when some line fails; otherwise reports every counter under its name and returns 6 |
| NetworkConnections.CountLine | monasca_agent/collector/checks_d/network_connections.py:67-77 | classifying and counting one line computes `Step` |
| NetworkConnections.CountLines | monasca_agent/collector/checks_d/network_connections.py:66-77 | the loop over the lines, from counters at zero, computes `Counts` and stops at the first failing line |
| NetworkConnections.FailureStays | monasca_agent/collector/checks_d/network_connections.py:66-75 | once a line fails, the whole listing fails with the same error |
| NetworkConnections.TcpStatesNameGauges | monasca_agent/collector/checks_d/network_connections.py:17-39 | every value of `TCP_STATES` names a TCP gauge |
| NetworkConnections.NamesDiffer | monasca_agent/collector/checks_d/network_connections.py:17-25 | different gauges have different names |
| NetworkConnections.NamedCount | monasca_agent/collector/checks_d/network_connections.py:63-83 | six gauges are reported, so `len(metrics)` is 6 |
| NetworkConnections.UdpLineCounted | monasca_agent/collector/checks_d/network_connections.py:68-71 | a `udp` line adds one to `net.udp{v}.connections` only |
| NetworkConnections.TcpLineCounted | monasca_agent/collector/checks_d/network_connections.py:72-75 | a `tcp` line in a known state adds one to `net.tcp{v}.<mapped state>` only |
| NetworkConnections.TcpGaugeName | monasca_agent/collector/checks_d/network_connections.py:74 | a TCP gauge is named `net.tcp<version>.<state name>` |
| NetworkConnections.OtherLinesIgnored | monasca_agent/collector/checks_d/network_connections.py:76-77 | the header and `tcp` lines in unknown states change no counter |
| NetworkConnections.TotalIsCounted | monasca_agent/collector/checks_d/network_connections.py:66-77 | the counters add up to the number of `udp` lines and known-state `tcp` lines |
| SwiftDispersion.AfterFirstLine | monasca_agent/collector/checks_d/swift_dispersion.py:39 | `split("\n", 1).pop()` is the proper suffix after the first newline |
| SwiftDispersion.SkipToJson | monasca_agent/collector/checks_d/swift_dispersion.py:37-39 | the result is a suffix of the output that begins a line and either starts the JSON report or has no newline left |
| SwiftDispersion.StripLeadingLines | monasca_agent/collector/checks_d/swift_dispersion.py:37-41 | the loop computes `SkipToJson` |
| SwiftDispersion.OnlyLeadingLinesDropped | monasca_agent/collector/checks_d/swift_dispersion.py:37-39 | no dropped line starts the JSON report or is the last line |
| SwiftDispersion.HeaderLineDropped | monasca_agent/collector/checks_d/swift_dispersion.py:34-39 | a header line such as "Using storage policy: default" is dropped, and nothing more |
| SwiftDispersion.SplitFirst | monasca_agent/collector/checks_d/swift_dispersion.py:52 | `split('.', 1)` has one or two parts |
| SwiftDispersion.SplitsAtDot | monasca_agent/collector/checks_d/swift_dispersion.py:52 | a gauge name splits into its section and its field |
| SwiftDispersion.Index | monasca_agent/collector/checks_d/swift_dispersion.py:55-58 | indexing succeeds exactly on an object holding the key; `KeyError` or `TypeError` otherwise |
| SwiftDispersion.Minus | monasca_agent/collector/checks_d/swift_dispersion.py:55-56 | subtraction succeeds exactly on numbers and gives their difference |
| SwiftDispersion.Check | monasca_agent/collector/checks_d/swift_dispersion.py:43-65 | the raw output loses its leading lines; an empty result fails the assertion, otherwise the gauges `Emitted` defines for `GAUGES` are sent |
| SwiftDispersion.SendAll | monasca_agent/collector/checks_d/swift_dispersion.py:50-65 | the loop over the gauges computes `Emitted` |
| SwiftDispersion.GatherStep | monasca_agent/collector/checks_d/swift_dispersion.py:50-65 | one more value either raises or appends its gauge |
| SwiftDispersion.GatherSucceeds | monasca_agent/collector/checks_d/swift_dispersion.py:50-65 | gathering succeeds if and only if every value does |
| SwiftDispersion.GatherSent | monasca_agent/collector/checks_d/swift_dispersion.py:50-65 | one gauge per name, in order, with the name's value |
| SwiftDispersion.FailureStays | monasca_agent/collector/checks_d/swift_dispersion.py:50-65 | a failed value fails the whole check with the same exception |
| SwiftDispersion.EmittedSucceeds | monasca_agent/collector/checks_d/swift_dispersion.py:50-65 | the gauges are sent if and only if every entry has a value |
| SwiftDispersion.EmittedSent | monasca_agent/collector/checks_d/swift_dispersion.py:50-65 | on success, one gauge per entry with its lower-cased name and value |
| SwiftDispersion.MissingIsDifference | monasca_agent/collector/checks_d/swift_dispersion.py:54-56 | `copies_missing` is expected minus found copies, and is defined exactly when both are numbers |
| SwiftDispersion.OtherFieldsRead | monasca_agent/collector/checks_d/swift_dispersion.py:57-61 | any other field is sent as it is, and only when it is a number |
| InfluxVersion.ParseDigits | monasca_setup/detection/plugins/influxdb.py:68 | a value exactly for a non-empty run of digits |
| InfluxVersion.ParseIntAccepts | monasca_setup/detection/plugins/influxdb.py:68 | `int` reads blanks, an optional sign, blanks, digits and blanks as the signed value of the digits (`int("+ 1")` is 1) |
| InfluxVersion.ParseIntOnlyAccepts | monasca_setup/detection/plugins/influxdb.py:68 | `int` reads nothing else: every string it accepts has that shape, and its value is the signed digits |
| InfluxVersion.ParseIntRoundTrip | monasca_setup/detection/plugins/influxdb.py:68 | `int(str(n)) == n` |
| InfluxVersion.TrailingZeros | monasca_setup/detection/plugins/influxdb.py:68 | the number of zeros that end a string |
| InfluxVersion.TrimZeroBlocks | monasca_setup/detection/plugins/influxdb.py:68 | `(\.0+)*$` removes the longest run of zero blocks that ends the string |
| InfluxVersion.ZeroBlocksShape | monasca_setup/detection/plugins/influxdb.py:68 | a run of zero blocks holds only dots and zeros, and ends in a zero |
| InfluxVersion.DashesToDots | monasca_setup/detection/plugins/influxdb.py:68 | every `-` becomes `.` and every other character stays |
| InfluxVersion.ParseAll | monasca_setup/detection/plugins/influxdb.py:68 | all parts parse with `int`, or there is no result; each result is its part's value |
| InfluxVersion.BlankAfterSignCompares | monasca_setup/detection/plugins/influxdb.py:66-70 | blanks after a component's sign are skipped: `"a.+ b"` normalises to the values of `a` and `b` and compares equal to `"a.b"` (so `"1.+ 1"` equals `"1.1"`) |
| InfluxVersion.CompareVersions | monasca_setup/detection/plugins/influxdb.py:66-70 | fails exactly when either version does not normalise; 0 exactly when both normalise alike |
| InfluxVersion.DashIsDot | monasca_setup/detection/plugins/influxdb.py:67-68 | a dash separates components as a dot does |
| InfluxVersion.TrailingZeroComponentDropped | monasca_setup/detection/plugins/influxdb.py:67-68 | a trailing `.0`, `.00`, … component does not change the normalised version |
| InfluxVersion.NormalizeDotted | monasca_setup/detection/plugins/influxdb.py:67-68 | a dotted version whose last component is not zero normalises back to its components |
| InfluxVersion.OnePointZeroPointZero | monasca_setup/detection/plugins/influxdb.py:66-70 | `1.0.0` and `1` compare equal |
| InfluxVersion.MinSupportedComponents | monasca_setup/detection/plugins/influxdb.py:83 | the threshold normalises to `[0, 9, 5]` |
| InfluxVersion.SupportedIff | monasca_setup/detection/plugins/influxdb.py:77-91 | a version is supported exactly when the header is non-empty, normalises, and is not lexicographically below 0.9.5 |
| InfluxVersion.TenIsNewerThanNine | monasca_setup/detection/plugins/influxdb.py:83 | 0.10.0 is supported: components compare as numbers, not text |

## Left out

- HTTP requests, `subprocess` runs of `ss` and `swift-dispersion-report`, and `json.loads` are left out. Their results (the listing, the report text, the decoded document, the version header) are inputs.
- The samples themselves are values: the check's `gauge`/`rate` sinks and their rate computation are not part of this model.
- `AgentCheck.normalize`, which `swift_dispersion` applies to each lower-cased name, is not part of this model. monasca_agent/collector/checks/check.py is not part of this model either.
- Dimensions (`_set_dimensions`), logging, and the timestamps the sinks add are left out.
- Floating point is modelled as `real`, so rounding is not modelled.
- Regular expressions from the configuration are the abstract `Matcher`. Its capture groups are strings, so a group that does not take part in a match (`None` in `groups()`) is not modelled.
- Python 2 dictionary iteration order is unspecified.
  - Configuration and labels are sequences in one chosen order.
  - Elasticsearch tables are processed in any order (`ProcessTable` picks entries with `:|`). Its contract holds for every order.
- Python's equality across types (`1 == 1.0 == True` as dictionary keys) is not modelled. Decoded values are compared structurally, so a task priority `1` and `True` count apart.
- An empty but present `mapping` dictionary (false in Python) is not distinguished from a non-empty one. Only an absent mapping and `null` are.
- Samples already sent before an exception are not returned. A failed run yields only the exception (`Elastic`, `SwiftDispersion`).
- Parts of the Elasticsearch check are not part of this model:
  - `_process_stats_data` and its host-name matching;
  - `_get_es_version` and the network calls of `check`;
  - event creation.
- The network connections check's `check()` loop over IP versions 4 and 6, and its `OSError` handling, are left out. `CollectMetrics` is one call for one version.
- CheckHelper.DynamicCheckHelper.FetchMetricSpec: passing a group (the pseudo group `""` included) for an instance that declares no groups raises `KeyError` in the source, because `_grp_metric_cache[instance]` does not exist (utils.py:300-301, 254-258). The model makes this a precondition (`GroupAllowed`) instead of a `Failure`. The same precondition, and so the same missing `KeyError`, holds for `IsEnabledMetric` (utils.py:312-313), `LookupInGroup`, `ResolveGroup`, `MapDimensions`, `PushMetric`, `EmitResolved`, `ExtractDistLabels`, `PushMetricDict` and the `Push*` helpers (`_get_mappings` would raise it too, at utils.py:614).
- Engine.Configure: instance names are assumed distinct. A repeated name keeps the last instance, with tables derived from it alone. In the source, a later same-named instance without groups resets `_metric_map`, `_metric_cache`, `_dimension_map`, `_metric_to_group` and `_groups` (utils.py:246-253), but leaves the earlier instance's `_grp_metric_map`, `_grp_metric_cache` and `_grp_dimension_map` in place (utils.py:254-262). So `get_mapped_metrics` would still report the earlier groups' patterns and the old global patterns, and an explicit group would still resolve. The same assumption holds for `Engine.BuildAll`, `CheckHelper.DynamicCheckHelper.Create` and `CheckHelper.DynamicCheckHelper.GetMappedMetrics`.
- DimMappings.BuildDimensionMap: a `regex` string that is not a valid pattern makes `re.compile` raise `re.error` during construction. Patterns are the abstract `Matcher`, so every string is taken as a pattern. The same holds for `Engine.ConfigureFails` and `CheckHelper.DynamicCheckHelper.Create`.
- Engine.Collected: a `JStr` stands for a Python 2 byte `str`, as in the docstring examples (utils.py:317-424). Python 2's `json.loads` yields `unicode` strings instead. `extract_dist_labels` tests `isinstance(child, str)` (utils.py:491), which is false for `unicode`, so in the source a string attribute of a document decoded by `json.loads` never becomes a label. The model collects every `JStr` attribute that has a rule, and so do `Engine.CollectedHolds`, `Engine.DistLabelsFacts` and `CheckHelper.DynamicCheckHelper.ExtractDistLabels`. `unicode` values are not modelled.
- Text.Lower: only ASCII letters are lowered. `unicode.lower()`, which the metric name of a `unicode` dictionary key goes through in `_normalize_metricname`, also folds non-ASCII letters. That folding is not modelled.
- Elastic.Thousandth: `float("12")` succeeds in Python; the model makes every string raise `ValueError`, because decoded documents carry numbers as numbers.
- Elastic.ElasticSearch.DefineParams: the model keeps the metric tables per object. In the source, `METRICS` is a class attribute, so `update` also changes it for every other instance.
- Elastic.ElasticSearch.DefineParams: the module's tables are the `t` parameter. `Elastic.Tables` holds them, and `ClusterStatusMapped` is stated for `Tables`.
- InfluxVersion.TrailingZeroComponentDropped: requires that the version does not end in a newline, before which Python's `$` also matches.
- MetricName.NormalizeIdempotent: requires that the name does not end in `_` followed by a newline. `TrailingNewlineNotIdempotent` shows the exception.

## Findings

| source | as written | input that shows it | evidently intended | confidence | as-written member | corrected member |
|---|---|---|---|---|---|---|
| monasca_agent/collector/checks/utils.py:613-619 | `_get_mappings` extends the group's stored rule list in place with the global rules, so the stored list grows by the global rules on every call | a group `g` with a rule for label `pod` and a global rule for `pod`: the second call returns three rules, the first two | return the group rules followed by the global ones, leaving the stored list alone | not executed | DimMappings.StoredRulesGrow | DimMappings.MappingsForParts |

`DimMappings.GrownRulesMapAlike` shows the growth does not change the dimensions computed, because repeated rules only repeat targets that are already set. The harm is the unbounded growth of the stored lists, and the cost of the mapping loop, which grows with them. The rest of the model uses the corrected `MappingsFor`.

=== FILE: check_helper.dfy ===
/**
 * `DynamicCheckHelper`: the configurable engine that filters, classifies and
 * renames the metrics of a check, maps their labels to dimensions and hands
 * them to the check's `rate` and `gauge` sinks, which are modelled as an
 * appended trace of emitted measurements. Its configuration is the mapping
 * of every instance; the tables `__init__` derives from it (`_groups`,
 * `_grp_metric_map`, `_dimension_map`, `_grp_dimension_map`) are the
 * functions of module Engine. Its memo tables are fields the methods update.
 */
module CheckHelper {
  import opened Wrappers
  import opened Text
  import opened Config
  import opened Json
  import opened MetricSpecs
  import opened DimMappings
  import opened Engine

  /** A declared group with a metric cache of its own (the pseudo group shares the global cache). */
  predicate OwnCache(mc: MappingConfig, g: string)
  {
    g != DefaultGroup && g in Keys(mc.groups)
  }

  /** Every instance has a global cache, and it agrees with its global scope. */
  ghost predicate GlobalCachesValid(m: Matcher, cfg: map<string, Instance>, cache: map<string, map<string, MetricSpec>>)
  {
    && cache.Keys == cfg.Keys
    && forall i :: i in cache ==> CacheAgrees(m, cfg[i].config.global, cache[i])
  }

  /** Each of some caches agrees with the scope of its group. */
  ghost predicate ScopesAgree(m: Matcher, mc: MappingConfig, caches: map<string, map<string, MetricSpec>>)
  {
    forall g :: g in caches ==> CacheAgrees(m, ScopeOf(mc, Some(g)), caches[g])
  }

  /** The instances that declare groups: those `_grp_metric_cache` has tables for. */
  function GroupedInstances(cfg: map<string, Instance>): (r: set<string>)
    ensures forall i :: i in r <==> i in cfg && cfg[i].config.groups != []
  {
    set i | i in cfg && cfg[i].config.groups != []
  }

  /** The groups of an instance that have a cache of their own. */
  function OwnGroups(mc: MappingConfig): (r: set<string>)
    ensures forall g :: g in r <==> OwnCache(mc, g)
  {
    set g | g in Keys(mc.groups) && g != DefaultGroup
  }

  /** An instance has a cache per declared group, and each agrees with its group's scope. */
  ghost predicate InstanceCachesValid(m: Matcher, mc: MappingConfig, caches: map<string, map<string, MetricSpec>>)
  {
    caches.Keys == OwnGroups(mc) && ScopesAgree(m, mc, caches)
  }

  /** Every instance with groups has valid group caches. */
  ghost predicate GroupCachesValid(m: Matcher, cfg: map<string, Instance>, cache: map<string, map<string, map<string, MetricSpec>>>)
  {
    && cache.Keys == GroupedInstances(cfg)
    && forall i :: i in cache ==> i in cfg && InstanceCachesValid(m, cfg[i].config, cache[i])
  }

  /** A memo table remembers, for a metric of an instance, only the group `_get_group` settles on. */
  ghost predicate MemoAgrees(m: Matcher, cfg: map<string, Instance>, memo: map<string, map<string, string>>)
  {
    forall i, x :: i in memo && x in memo[i] ==> i in cfg && FirstGroup(m, cfg[i].config, x) == Some(memo[i][x])
  }

  /** Every instance has a memo table, and it remembers only the groups `FirstGroup` determines. */
  ghost predicate MemoHolds(m: Matcher, cfg: map<string, Instance>, memo: map<string, map<string, string>>)
  {
    memo.Keys == cfg.Keys && MemoAgrees(m, cfg, memo)
  }

  /** Memo tables that only gained entries: the same tables, each keeping every key it had. */
  ghost predicate Grows<V>(before: map<string, map<string, V>>, after: map<string, map<string, V>>)
  {
    && before.Keys == after.Keys
    && forall i :: i in before ==> before[i].Keys <= after[i].Keys
  }

  /** Group caches that only gained entries: the same instances and groups, each cache keeping every key it had. */
  ghost predicate GroupsGrow(before: map<string, map<string, map<string, MetricSpec>>>,
                             after: map<string, map<string, map<string, MetricSpec>>>)
  {
    && before.Keys == after.Keys
    && forall i :: i in before ==> Grows(before[i], after[i])
  }

  /** Storing one entry grows the memo tables. */
  lemma GrowsByEntry<V>(c: map<string, map<string, V>>, i: string, x: string, v: V)
    requires i in c
    ensures Grows(c, c[i := c[i][x := v]])
  {
  }

  /** Storing one entry in a group cache grows the group caches. */
  lemma GroupsGrowByEntry(c: map<string, map<string, map<string, MetricSpec>>>, i: string, g: string, x: string, v: MetricSpec)
    requires i in c && g in c[i]
    ensures GroupsGrow(c, c[i := c[i][g := c[i][g][x := v]]])
  {
    GrowsByEntry(c[i], g, x, v);
  }

  /** Growth accumulates. */
  lemma GrowsTrans<V>(a: map<string, map<string, V>>, b: map<string, map<string, V>>, c: map<string, map<string, V>>)
    requires Grows(a, b) && Grows(b, c)
    ensures Grows(a, c)
  {
  }

  /** Growth of the group caches accumulates. */
  lemma GroupsGrowTrans(a: map<string, map<string, map<string, MetricSpec>>>, b: map<string, map<string, map<string, MetricSpec>>>,
                        c: map<string, map<string, map<string, MetricSpec>>>)
    requires GroupsGrow(a, b) && GroupsGrow(b, c)
    ensures GroupsGrow(a, c)
  {
    forall i | i in a ensures Grows(a[i], c[i]) {
      GrowsTrans(a[i], b[i], c[i]);
    }
  }

  /** A lookup keeps the global caches valid. */
  lemma GlobalCacheStep(m: Matcher, cfg: map<string, Instance>, cache: map<string, map<string, MetricSpec>>,
                        i: string, metric: string, entry: MetricSpec, cache': map<string, MetricSpec>)
    requires GlobalCachesValid(m, cfg, cache) && i in cfg
    requires metric in cache[i] ==> entry == cache[i][metric] && cache' == cache[i]
    requires metric !in cache[i] ==> entry == Classify(m, cfg[i].config.global, metric) && cache' == cache[i][metric := entry]
    ensures entry == Classify(m, cfg[i].config.global, metric)
    ensures cache' == cache[i][metric := entry]
    ensures GlobalCachesValid(m, cfg, cache[i := cache'])
  {
    LookupAgrees(m, cfg[i].config.global, cache[i], metric, entry);
  }

  /** A lookup keeps the caches of an instance's groups valid. */
  lemma GroupCacheStep(m: Matcher, mc: MappingConfig, caches: map<string, map<string, MetricSpec>>,
                       g: string, metric: string, entry: MetricSpec, cache': map<string, MetricSpec>)
    requires ScopesAgree(m, mc, caches) && g in caches
    requires metric in caches[g] ==> entry == caches[g][metric] && cache' == caches[g]
    requires metric !in caches[g] ==> entry == Classify(m, ScopeOf(mc, Some(g)), metric) && cache' == caches[g][metric := entry]
    ensures entry == Classify(m, ScopeOf(mc, Some(g)), metric)
    ensures cache' == caches[g][metric := entry]
    ensures ScopesAgree(m, mc, caches[g := cache'])
  {
    LookupAgrees(m, ScopeOf(mc, Some(g)), caches[g], metric, entry);
  }

  /** Replacing an instance's group caches by valid ones keeps the group caches valid. */
  lemma GroupCachesUpdate(m: Matcher, cfg: map<string, Instance>, cache: map<string, map<string, map<string, MetricSpec>>>,
                          i: string, caches': map<string, map<string, MetricSpec>>)
    requires GroupCachesValid(m, cfg, cache) && i in cache
    requires InstanceCachesValid(m, cfg[i].config, caches')
    ensures GroupCachesValid(m, cfg, cache[i := caches'])
  {
  }

  /** A lookup in the cache of a declared group keeps the group caches valid. */
  lemma GroupLookupStep(m: Matcher, cfg: map<string, Instance>, cache: map<string, map<string, map<string, MetricSpec>>>,
                        i: string, g: string, metric: string, spec: MetricSpec, entry: map<string, MetricSpec>)
    requires GroupCachesValid(m, cfg, cache) && i in cache && g in cache[i]
    requires metric in cache[i][g] ==> spec == cache[i][g][metric] && entry == cache[i][g]
    requires metric !in cache[i][g] ==> spec == Classify(m, ScopeOf(cfg[i].config, Some(g)), metric) && entry == cache[i][g][metric := spec]
    ensures spec == SpecOf(m, cfg[i].config, metric, Some(g))
    ensures entry == cache[i][g][metric := spec]
    ensures GroupCachesValid(m, cfg, cache[i := cache[i][g := entry]])
  {
    var caches := cache[i];
    GroupCacheStep(m, cfg[i].config, caches, g, metric, spec, entry);
    assert caches[g := entry].Keys == caches.Keys;
    GroupCachesUpdate(m, cfg, cache, i, caches[g := entry]);
  }

  /** The empty tables `__init__` starts from agree with any configuration. */
  lemma InitialTablesValid(m: Matcher, cfg: map<string, Instance>)
    ensures GlobalCachesValid(m, cfg, map i | i in cfg :: map[])
    ensures GroupCachesValid(m, cfg, map i | i in GroupedInstances(cfg) :: map g | g in OwnGroups(cfg[i].config) :: map[])
    ensures MemoHolds(m, cfg, map i | i in cfg :: map[])
  {
  }

  /** `_lookup_metric` on the cache of a declared group `g` of instance `i`, within the whole `_grp_metric_cache`. */
  method LookupGroupCache(m: Matcher, cfg: map<string, Instance>, cache: map<string, map<string, map<string, MetricSpec>>>,
                          i: string, g: string, metric: string)
    returns (spec: MetricSpec, cache': map<string, map<string, map<string, MetricSpec>>>)
    requires GroupCachesValid(m, cfg, cache) && i in cfg && OwnCache(cfg[i].config, g)
    ensures GroupCachesValid(m, cfg, cache')
    ensures i in cache && g in cache[i]
    ensures spec == SpecOf(m, cfg[i].config, metric, Some(g))
    ensures cache' == cache[i := cache[i][g := cache[i][g][metric := spec]]]
  {
    assert i in cache && g in cache[i];
    var entry;
    spec, entry := LookupMetric(m, metric, cache[i][g], ScopeOf(cfg[i].config, Some(g)));
    GroupLookupStep(m, cfg, cache, i, g, metric, spec, entry);
    cache' := cache[i := cache[i][g := entry]];
  }

  /** Remembering the group `resolve` determines keeps a memo table agreeing with it. */
  lemma MemoStep(m: Matcher, cfg: map<string, Instance>, memo: map<string, map<string, string>>,
                 i: string, metric: string, g: string)
    requires MemoAgrees(m, cfg, memo) && i in memo && i in cfg && FirstGroup(m, cfg[i].config, metric) == Some(g)
    ensures MemoAgrees(m, cfg, memo[i := memo[i][metric := g]])
  {
  }

  class DynamicCheckHelper {
    /** `_prefix`, with `None` written as the empty string (both are false in Python). */
    const prefix: string
    const matcher: Matcher
    /** Every configured instance by name: its mapping (`_metric_map`) and the dimension tables derived from it. */
    const configured: map<string, Instance>

    /** The memo tables: `_metric_cache`, `_grp_metric_cache` (without the pseudo group) and `_metric_to_group`. */
    var metricCache: map<string, map<string, MetricSpec>>
    var grpMetricCache: map<string, map<string, map<string, MetricSpec>>>
    var metricToGroup: map<string, map<string, string>>
    /** Everything handed to the check's sinks so far. */
    var emitted: seq<Emission>

    /** The memo tables hold only what the configuration determines. */
    ghost predicate Valid()
      reads this`metricCache, this`grpMetricCache, this`metricToGroup
    {
      CachesValid() && MemoValid()
    }

    /** Both metric caches agree with the configuration. */
    ghost predicate CachesValid()
      reads this`metricCache, this`grpMetricCache
    {
      GlobalValid() && GroupValid()
    }

    /** `_metric_cache` agrees with the global scopes. */
    ghost predicate GlobalValid()
      reads this`metricCache
    {
      GlobalCachesValid(matcher, configured, metricCache)
    }

    /** `_grp_metric_cache` agrees with the group scopes. */
    ghost predicate GroupValid()
      reads this`grpMetricCache
    {
      GroupCachesValid(matcher, configured, grpMetricCache)
    }

    /** `_metric_to_group` remembers only groups `FirstGroup` determines. */
    ghost predicate MemoValid()
      reads this`metricToGroup
    {
      MemoHolds(matcher, configured, metricToGroup)
    }

    /**
     * Since the earlier state the memo tables only gained entries; with
     * `Valid()` in both states every kept entry also kept its value.
     */
    twostate predicate Kept()
      reads this`metricCache, this`grpMetricCache, this`metricToGroup
    {
      CachesKept() && Grows(old(metricToGroup), metricToGroup)
    }

    /** Since the earlier state the metric caches only gained entries. */
    twostate predicate CachesKept()
      reads this`metricCache, this`grpMetricCache
    {
      Grows(old(metricCache), metricCache) && GroupsGrow(old(grpMetricCache), grpMetricCache)
    }

    /** `instance['name']` is one of the configured instances. */
    predicate Configured(iname: string)
    {
      iname in configured
    }

    /** A group may be passed only for an instance that has groups (otherwise the source raises `KeyError`). */
    predicate GroupAllowed(iname: string, group: Option<string>)
      requires Configured(iname)
    {
      group.Some? ==> configured[iname].config.groups != []
    }

    /** What `_fetch_metric_spec(instance, metric, group)` returns for this helper. */
    function SpecFor(iname: string, metric: string, group: Option<string>): MetricSpec
      requires Configured(iname)
    {
      SpecOf(matcher, configured[iname].config, metric, group)
    }

    constructor Init(prefix: string, matcher: Matcher, configured: map<string, Instance>)
      ensures this.prefix == prefix && this.matcher == matcher && this.configured == configured
      ensures metricCache == map i | i in configured :: map[]
      ensures metricToGroup == map i | i in configured :: map[]
      ensures grpMetricCache == map i | i in GroupedInstances(configured) :: map g | g in OwnGroups(configured[i].config) :: map[]
      ensures emitted == []
      ensures Valid()
    {
      this.prefix := prefix;
      this.matcher := matcher;
      this.configured := configured;
      metricCache := map i | i in configured :: map[];
      metricToGroup := map i | i in configured :: map[];
      grpMetricCache := map i | i in GroupedInstances(configured) :: map g | g in OwnGroups(configured[i].config) :: map[];
      emitted := [];
      InitialTablesValid(matcher, configured);
    }

    /**
     * `DynamicCheckHelper(check, prefix, default_mapping)`: records every
     * instance's mapping, or fails at the first instance that has none
     * (`CheckException`) or whose dimension tables cannot be built because
     * an entry has `regex: null` (`TypeError`).
     */
    static method Create(prefix: string, matcher: Matcher, instances: seq<InstanceConfig>, default: Option<MappingConfig>)
      returns (r: Result<DynamicCheckHelper, InitError>)
      ensures r.Failure? ==> Configure(instances, default) == Failure(r.error)
      ensures r.Success? ==>
        && Configure(instances, default).Success?
        && r.value.configured == BuildAll(Configure(instances, default).value)
        && fresh(r.value) && r.value.Valid()
        && r.value.prefix == prefix && r.value.matcher == matcher && r.value.emitted == []
    {
      var cfg: map<string, MappingConfig> := map[];
      for k := 0 to |instances|
        invariant Configure(instances[..k], default) == Success(cfg)
      {
        assert instances[..k + 1][..k] == instances[..k];
        var mc := InstanceOutcome(instances[k], default);
        if mc.Failure? {
          ConfigureFailureSticks(instances, default, k + 1);
          return Failure(mc.error);
        }
        cfg := cfg[instances[k].name := mc.value];
      }
      assert instances[..|instances|] == instances;
      var h := new DynamicCheckHelper.Init(prefix, matcher, BuildAll(cfg));
      return Success(h);
    }

    /**
     * `_fetch_metric_spec(instance, metric, group)`: the classification of the
     * metric in the global scope (no group, or the pseudo group, whose cache
     * is the global one), in the group's scope, or in an empty scope for a
     * group the instance does not declare. The cache consulted keeps the
     * entry; nothing is cached for an undeclared group.
     */
    method FetchMetricSpec(iname: string, metric: string, group: Option<string>) returns (spec: MetricSpec)
      requires Valid() && Configured(iname) && GroupAllowed(iname, group)
      modifies this`metricCache, this`grpMetricCache
      ensures Valid() && CachesKept()
      ensures spec == SpecFor(iname, metric, group)
      ensures group.None? || group.value == DefaultGroup ==>
        && metricCache == old(metricCache)[iname := old(metricCache)[iname][metric := spec]]
        && grpMetricCache == old(grpMetricCache)
      ensures group.Some? && OwnCache(configured[iname].config, group.value) ==>
        && metricCache == old(metricCache)
        && grpMetricCache == old(grpMetricCache)[iname := old(grpMetricCache)[iname][group.value := old(grpMetricCache)[iname][group.value][metric := spec]]]
      ensures group.Some? && group.value != DefaultGroup && !OwnCache(configured[iname].config, group.value) ==>
        metricCache == old(metricCache) && grpMetricCache == old(grpMetricCache)
    {
      if group.None? || group.value == DefaultGroup {
        spec := LookupGlobal(iname, metric);
        GrowsByEntry(old(metricCache), iname, metric, spec);
        if group.Some? {
          PseudoGroupIsGlobal(configured[iname].config);
        }
      } else if OwnCache(configured[iname].config, group.value) {
        spec := LookupInGroup(iname, group.value, metric);
        GroupsGrowByEntry(old(grpMetricCache), iname, group.value, metric, spec);
      } else {
        var transient;
        spec, transient := LookupMetric(matcher, metric, map[], ScopeOf(configured[iname].config, group));
      }
    }

    /** `_lookup_metric` on the instance's global cache and scope. */
    method LookupGlobal(iname: string, metric: string) returns (spec: MetricSpec)
      requires GlobalValid() && Configured(iname)
      modifies this`metricCache
      ensures GlobalValid()
      ensures spec == SpecFor(iname, metric, None)
      ensures metricCache == old(metricCache)[iname := old(metricCache)[iname][metric := spec]]
    {
      var cache;
      spec, cache := LookupMetric(matcher, metric, metricCache[iname], configured[iname].config.global);
      GlobalCacheStep(matcher, configured, metricCache, iname, metric, spec, cache);
      metricCache := metricCache[iname := cache];
    }

    /** `_lookup_metric` on a declared group's cache and scope. */
    method LookupInGroup(iname: string, g: string, metric: string) returns (spec: MetricSpec)
      requires GroupValid() && Configured(iname) && OwnCache(configured[iname].config, g)
      modifies this`grpMetricCache
      ensures GroupValid()
      ensures iname in old(grpMetricCache) && g in old(grpMetricCache)[iname]
      ensures spec == SpecFor(iname, metric, Some(g))
      ensures grpMetricCache == old(grpMetricCache)[iname := old(grpMetricCache)[iname][g := old(grpMetricCache)[iname][g][metric := spec]]]
    {
      spec, grpMetricCache := LookupGroupCache(matcher, configured, grpMetricCache, iname, g, metric);
    }

    /** `is_enabled_metric(instance, metric, group)` */
    method IsEnabledMetric(iname: string, metric: string, group: Option<string>) returns (enabled: bool)
      requires Valid() && Configured(iname) && GroupAllowed(iname, group)
      modifies this`metricCache, this`grpMetricCache
      ensures Valid() && CachesKept()
      ensures enabled <==> SpecFor(iname, metric, group).kind != Skip
    {
      var spec := FetchMetricSpec(iname, metric, group);
      enabled := spec.kind != Skip;
    }

    /**
     * `_get_group(instance, metric)`: a remembered group is returned as it is;
     * otherwise the groups are tried in declaration order (the pseudo group
     * last) and the first that does not skip the metric is remembered and
     * returned. When none qualifies, nothing is remembered.
     */
    method GetGroup(iname: string, metric: string) returns (g: Option<string>)
      requires Valid() && Configured(iname)
      modifies this`metricCache, this`grpMetricCache, this`metricToGroup
      ensures Valid() && Kept()
      ensures g == FirstGroup(matcher, configured[iname].config, metric)
      ensures metric in old(metricToGroup)[iname] || g.None? ==> metricToGroup == old(metricToGroup)
      ensures metric !in old(metricToGroup)[iname] && g.Some? ==>
        metricToGroup == old(metricToGroup)[iname := old(metricToGroup)[iname][metric := g.value]]
    {
      if metric in metricToGroup[iname] {
        g := Some(metricToGroup[iname][metric]);
        assert FirstGroup(matcher, configured[iname].config, metric) == g;
      } else {
        g := SearchGroups(iname, metric);
        if g.Some? {
          MemoStep(matcher, configured, metricToGroup, iname, metric, g.value);
          GrowsByEntry(metricToGroup, iname, metric, g.value);
          metricToGroup := metricToGroup[iname := metricToGroup[iname][metric := g.value]];
        }
      }
    }

    /** One step of the search: `_fetch_metric_spec` in group `g`, and whether the result is not SKIP. */
    method TryGroup(iname: string, metric: string, g: string) returns (claims: bool)
      requires Valid() && Configured(iname) && GroupAllowed(iname, Some(g))
      modifies this`metricCache, this`grpMetricCache
      ensures Valid() && CachesKept()
      ensures claims == Claims(matcher, configured[iname].config, metric, g)
    {
      var spec := FetchMetricSpec(iname, metric, Some(g));
      claims := spec.kind != Skip;
    }

    /** The search loop of `_get_group`: classifies the metric in each group until one does not skip it. */
    method SearchGroups(iname: string, metric: string) returns (g: Option<string>)
      requires Valid() && Configured(iname)
      modifies this`metricCache, this`grpMetricCache
      ensures Valid() && CachesKept()
      ensures g == FirstGroup(matcher, configured[iname].config, metric)
    {
      var gs := GroupNames(configured[iname].config);
      ghost var mc := configured[iname].config;
      for k := 0 to |gs|
        invariant Valid()
        invariant Grows(old(metricCache), metricCache) && GroupsGrow(old(grpMetricCache), grpMetricCache)
        invariant FirstClaiming(matcher, mc, metric, gs[k..]) == FirstClaiming(matcher, mc, metric, gs)
      {
        var found := SearchStep(iname, metric, gs, k, old(metricCache), old(grpMetricCache));
        if found {
          return Some(gs[k]);
        }
      }
      FirstClaimingFrom(matcher, mc, metric, gs, |gs|);
      g := None;
    }

    /**
     * One pass of the search loop of `_get_group`: tries the group at
     * position `k`; the search ends there exactly when that group claims the
     * metric. The caches keep growing from the state `c0`, `g0`.
     */
    method SearchStep(iname: string, metric: string, gs: seq<string>, k: nat,
                      ghost c0: map<string, map<string, MetricSpec>>, ghost g0: map<string, map<string, map<string, MetricSpec>>>)
      returns (found: bool)
      requires Valid() && Configured(iname) && gs == GroupNames(configured[iname].config) && k < |gs|
      requires Grows(c0, metricCache) && GroupsGrow(g0, grpMetricCache)
      modifies this`metricCache, this`grpMetricCache
      ensures Valid() && Grows(c0, metricCache) && GroupsGrow(g0, grpMetricCache)
      ensures FirstClaiming(matcher, configured[iname].config, metric, gs[k..])
           == if found then Some(gs[k]) else FirstClaiming(matcher, configured[iname].config, metric, gs[k + 1..])
    {
      ghost var c1, g1 := metricCache, grpMetricCache;
      found := TryGroup(iname, metric, gs[k]);
      GrowsTrans(c0, c1, metricCache);
      GroupsGrowTrans(g0, g1, grpMetricCache);
      FirstClaimingFrom(matcher, configured[iname].config, metric, gs, k);
    }

    /**
     * `_map_dimensions(instance_name, labels, group, default_dimensions)`:
     * starting from a copy of the defaults, every label's rules in turn add
     * their target dimension unless it is present; a rule whose pattern
     * does not match, or that fails, filters the measurement out.
     */
    method MapDimensions(iname: string, labels: Labels, group: Option<string>, defaults: map<string, string>)
      returns (r: Option<map<string, string>>)
      requires Configured(iname) && GroupAllowed(iname, group)
      ensures r == DimensionsOf(matcher, configured[iname], group, labels, defaults)
    {
      r := MapLabelsLoop(matcher, configured[iname].groupDims, configured[iname].globalDims, group, labels, defaults);
    }

    /**
     * `push_metric(instance, metric, value, labels, group, timestamp,
     * fixed_dimensions, default_dimensions)`: resolves the group when none is
     * given, classifies the metric and, unless it is SKIP, maps the labels
     * and emits one rate or gauge named `[prefix.][group.]name` with the fixed
     * dimensions on top. Returns whether the metric was not SKIP.
     */
    method PushMetric(iname: string, metric: string, value: real, labels: Labels, group: Option<string>,
                      timestamp: Option<real>, fixed: map<string, string>, defaults: map<string, string>)
      returns (pushed: bool)
      requires Valid() && Configured(iname) && GroupAllowed(iname, group)
      modifies this`metricCache, this`grpMetricCache, this`metricToGroup, this`emitted
      ensures Valid() && Kept()
      ensures var outcome := PushOutcome(matcher, prefix, configured[iname], metric, value, labels, group, timestamp, fixed, defaults);
        pushed == outcome.0 && emitted == old(emitted) + outcome.1
    {
      var g := ResolveGroup(iname, metric, group);
      var spec := FetchMetricSpec(iname, metric, g);
      PushOutcomeResolved(matcher, prefix, configured[iname], metric, value, labels, group, timestamp, fixed, defaults,
                          g, spec, DimensionsOf(matcher, configured[iname], g, labels, defaults));
      pushed := EmitResolved(iname, g, spec, value, labels, timestamp, fixed, defaults);
    }

    /** The rest of `push_metric` once the group and the classification are known: map the labels and emit. */
    method EmitResolved(iname: string, g: Option<string>, spec: MetricSpec, value: real, labels: Labels,
                        timestamp: Option<real>, fixed: map<string, string>, defaults: map<string, string>)
      returns (pushed: bool)
      requires Configured(iname) && GroupAllowed(iname, g)
      modifies this`emitted
      ensures var outcome := PushResolved(prefix, g, spec, DimensionsOf(matcher, configured[iname], g, labels, defaults),
                                          value, timestamp, fixed);
        pushed == outcome.0 && emitted == old(emitted) + outcome.1
    {
      if spec.kind == Skip {
        return false;
      }
      var dims := MapDimensions(iname, labels, g, defaults);
      if dims.None? {
        return true;
      }
      var name := NamePrefix(prefix, g) + spec.name;
      emitted := emitted + [Sample(spec.kind, name, value, timestamp, dims.value + fixed)];
      return true;
    }

    /** The group `push_metric` works in: the one given, else the one `_get_group` settles on. */
    method ResolveGroup(iname: string, metric: string, group: Option<string>) returns (g: Option<string>)
      requires Valid() && Configured(iname) && GroupAllowed(iname, group)
      modifies this`metricCache, this`grpMetricCache, this`metricToGroup
      ensures Valid() && Kept()
      ensures g == EffectiveGroup(matcher, configured[iname].config, metric, group) && GroupAllowed(iname, g)
    {
      g := group;
      if g.None? {
        g := GetGroup(iname, metric);
        if configured[iname].config.groups == [] {
          NoGroupsNoGroup(matcher, configured[iname].config, metric);
        }
      }
    }

    /**
     * `extract_dist_labels(instance_name, group, metric_dict, labels, index)`:
     * the labels extended by the element's string attributes that have a
     * rule, else by `index` when `index` has one, else nothing.
     */
    method ExtractDistLabels(iname: string, group: Option<string>, entries: seq<(string, Json)>, labels: Labels, index: nat)
      returns (r: Option<Labels>)
      requires Configured(iname) && GroupAllowed(iname, group)
      ensures r == DistLabels(configured[iname].groupDims, configured[iname].globalDims, group, entries, labels, index)
    {
      var groupMaps, global := configured[iname].groupDims, configured[iname].globalDims;
      r := None;
      for k := 0 to |entries|
        invariant r == Collected(groupMaps, global, group, entries[..k], labels)
      {
        assert entries[..k + 1][..k] == entries[..k];
        var (key, child) := entries[k];
        if child.JStr? && |MappingsFor(groupMaps, global, group, key)| > 0 {
          var base := if r.None? then labels else r.value;
          r := Some(Put(base, key, child.s));
        }
      }
      assert entries[..|entries|] == entries;
      if r.None? && |MappingsFor(groupMaps, global, group, "index")| > 0 {
        r := Some(Put(labels, "index", NatToString(index)));
      }
    }

    /** The sinks of a walk over an instance's data: this helper's `push_metric` and `extract_dist_labels`. */
    function SinksFor(iname: string, w: Walk): Sinks
      requires Configured(iname)
    {
      Sinks(matcher, prefix, configured[iname], w)
    }

    /**
     * `push_metric_dict(instance, metric_dict, labels, group, timestamp,
     * fixed_dimensions, default_dimensions, max_depth, curr_depth, prefix,
     * index)`: an array element (`index` given) without distinguishing
     * labels is skipped; otherwise every entry is pushed, descended into or
     * walked.
     */
    method PushMetricDict(iname: string, d: seq<(string, Json)>, labels: Labels, w: Walk, depth: nat, path: string,
                          index: Option<nat>)
      requires Valid() && Configured(iname) && GroupAllowed(iname, w.group)
      modifies this`metricCache, this`grpMetricCache, this`metricToGroup, this`emitted
      ensures Valid() && Kept()
      ensures emitted == old(emitted) + DictEmissions(SinksFor(iname, w), w.maxDepth, d, labels, depth, path, index)
      decreases Budget(w.maxDepth, depth), 3, 0
    {
      var ext := labels;
      if index.Some? {
        var r := ExtractDistLabels(iname, w.group, d, labels, index.value);
        if r.None? {
          return;
        }
        ext := r.value;
      }
      PushEntries(iname, d, ext, w, depth, path);
    }

    /** The loop of `push_metric_dict` over the entries of a dictionary. */
    method PushEntries(iname: string, entries: seq<(string, Json)>, ext: Labels, w: Walk, depth: nat, path: string)
      requires Valid() && Configured(iname) && GroupAllowed(iname, w.group)
      modifies this`metricCache, this`grpMetricCache, this`metricToGroup, this`emitted
      ensures Valid() && Kept()
      ensures emitted == old(emitted) + EntriesEmissions(SinksFor(iname, w), w.maxDepth, entries, |entries|, ext, depth, path)
      decreases Budget(w.maxDepth, depth), 2, |entries| + 1
    {
      for k := 0 to |entries|
        invariant Valid() && Kept()
        invariant emitted == old(emitted) + EntriesEmissions(SinksFor(iname, w), w.maxDepth, entries, k, ext, depth, path)
      {
        PushEntry(iname, entries, k, ext, w, depth, path, old(emitted));
      }
    }

    /** One pass of the loop of `push_metric_dict`: the entry at position `k`. */
    method PushEntry(iname: string, entries: seq<(string, Json)>, k: nat, ext: Labels, w: Walk, depth: nat, path: string,
                     ghost before: seq<Emission>)
      requires Valid() && Configured(iname) && GroupAllowed(iname, w.group) && k < |entries|
      requires emitted == before + EntriesEmissions(SinksFor(iname, w), w.maxDepth, entries, k, ext, depth, path)
      modifies this`metricCache, this`grpMetricCache, this`metricToGroup, this`emitted
      ensures Valid() && Kept()
      ensures emitted == before + EntriesEmissions(SinksFor(iname, w), w.maxDepth, entries, k + 1, ext, depth, path)
      decreases Budget(w.maxDepth, depth), 2, |entries| - k
    {
      PushChild(iname, entries[k].0, entries[k].1, ext, w, depth, path);
      EntriesStep(SinksFor(iname, w), w.maxDepth, entries, k, ext, depth, path, before);
    }

    /** One entry of a dictionary: a nested dictionary, a number or a list. */
    method PushChild(iname: string, key: string, child: Json, ext: Labels, w: Walk, depth: nat, path: string)
      requires Valid() && Configured(iname) && GroupAllowed(iname, w.group)
      modifies this`metricCache, this`grpMetricCache, this`metricToGroup, this`emitted
      ensures Valid() && Kept()
      ensures emitted == old(emitted) + ChildEmissions(SinksFor(iname, w), w.maxDepth, key, child, ext, depth, path)
      decreases Budget(w.maxDepth, depth), 1, 0
    {
      if child.JDict? && depth < w.maxDepth {
        PushMetricDict(iname, child.entries, ext, w, depth + 1, path + key + "_", None);
      } else if IsNumber(child) {
        var _ := PushMetric(iname, path + key, NumberValue(child), ext, w.group, w.timestamp, w.fixed, w.defaults);
      } else if child.JList? {
        PushList(iname, key, child.items, ext, w, depth, path);
      }
    }

    /** The loop of `push_metric_dict` over the elements of a list. */
    method PushList(iname: string, key: string, items: seq<Json>, ext: Labels, w: Walk, depth: nat, path: string)
      requires Valid() && Configured(iname) && GroupAllowed(iname, w.group)
      modifies this`metricCache, this`grpMetricCache, this`metricToGroup, this`emitted
      ensures Valid() && Kept()
      ensures emitted == old(emitted) + ListEmissions(SinksFor(iname, w), w.maxDepth, key, items, |items|, ext, depth, path)
      decreases Budget(w.maxDepth, depth), 0, |items| + 1
    {
      for i := 0 to |items|
        invariant Valid() && Kept()
        invariant emitted == old(emitted) + ListEmissions(SinksFor(iname, w), w.maxDepth, key, items, i, ext, depth, path)
      {
        PushElement(iname, key, items, i, ext, w, depth, path, old(emitted));
      }
    }

    /** One pass of the loop over a list: the element at position `i`. */
    method PushElement(iname: string, key: string, items: seq<Json>, i: nat, ext: Labels, w: Walk, depth: nat, path: string,
                       ghost before: seq<Emission>)
      requires Valid() && Configured(iname) && GroupAllowed(iname, w.group) && i < |items|
      requires emitted == before + ListEmissions(SinksFor(iname, w), w.maxDepth, key, items, i, ext, depth, path)
      modifies this`metricCache, this`grpMetricCache, this`metricToGroup, this`emitted
      ensures Valid() && Kept()
      ensures emitted == before + ListEmissions(SinksFor(iname, w), w.maxDepth, key, items, i + 1, ext, depth, path)
      decreases Budget(w.maxDepth, depth), 0, |items| - i
    {
      PushItem(iname, key, i, items[i], ext, w, depth, path);
      ItemsStep(SinksFor(iname, w), w.maxDepth, key, items, i, ext, depth, path, before);
    }

    /** One element of a list, at position `n`: a dictionary, or a number pushed with an `index` label. */
    method PushItem(iname: string, key: string, n: nat, e: Json, ext: Labels, w: Walk, depth: nat, path: string)
      requires Valid() && Configured(iname) && GroupAllowed(iname, w.group)
      modifies this`metricCache, this`grpMetricCache, this`metricToGroup, this`emitted
      ensures Valid() && Kept()
      ensures emitted == old(emitted) + ItemEmissions(SinksFor(iname, w), w.maxDepth, key, n, e, ext, depth, path)
      decreases Budget(w.maxDepth, depth), 0, 0
    {
      if e.JDict? {
        if depth < w.maxDepth {
          PushMetricDict(iname, e.entries, ext, w, depth + 1, path + key + "_", Some(n));
        }
      } else if IsNumber(e) && |RulesOf(configured[iname], w.group, "index")| > 0 {
        var idx := Put(ext, "index", NatToString(n));
        var _ := PushMetric(iname, path + key, NumberValue(e), idx, w.group, w.timestamp, w.fixed, w.defaults);
      }
    }

    /**
     * `get_mapped_metrics(instance)`: the instance's global gauge and rate
     * patterns, then those of every group in table order.
     */
    method GetMappedMetrics(iname: string) returns (patterns: seq<string>)
      requires Configured(iname)
      ensures patterns == MappedMetrics(configured[iname].config)
    {
      var mc := configured[iname].config;
      patterns := mc.global.gauges + mc.global.rates;
      var table := GroupTable(mc);
      for k := 0 to |table|
        invariant patterns == ScopePatterns(mc.global) + TablePatterns(table[..k])
      {
        assert table[..k + 1][..k] == table[..k];
        patterns := patterns + table[k].1.gauges + table[k].1.rates;
      }
      assert table[..|table|] == table;
    }
  }
}

=== FILE: config.dfy ===
/**
 * The configuration the metric-mapping engine reads: the `mapping` element
 * of a check instance, with its pattern lists, dimension rules and groups.
 * Python dictionaries that the engine iterates are sequences of key/value
 * pairs in iteration order.
 */
module Config {
  import opened Wrappers

  /**
   * A regular expression engine used as `re.match(pattern, subject)`: it
   * anchors at the start of `subject` and yields the capture groups of a
   * match, or `None` when the pattern does not match.
   */
  type Matcher = (string, string) -> Option<seq<string>>

  /** A configuration key that may be absent, present with `null`, or present with a value. */
  datatype Setting<+T> = Unset | Null | Set(value: T)

  /**
   * One entry of `dimensions`: either the label to copy (`<dimension>: <source_key>`)
   * or a dictionary whose `source_key`, `regex` and `separator` may each be
   * absent, `null` or given.
   */
  datatype DimSpec =
    | Simple(key: string)
    | Complex(sourceKey: Setting<string>, regex: Setting<string>, separator: Setting<string>)

  /** A `mapping` element or a group below it: `gauges`, `rates` and `dimensions` (absent lists are empty). */
  datatype Scope = Scope(gauges: seq<string>, rates: seq<string>, dimensions: seq<(string, DimSpec)>)

  /** The `mapping` element of an instance: its global scope and its `groups`, in declaration order. */
  datatype MappingConfig = MappingConfig(global: Scope, groups: seq<(string, Scope)>)

  /** One entry of the check's `instances`: its `name` and its `mapping`, which may be absent or `null`. */
  datatype InstanceConfig = InstanceConfig(name: string, mapping: Setting<MappingConfig>)

  const EmptyScope := Scope([], [], [])

  /** The keys of a list of pairs, in order. */
  function Keys<V>(pairs: seq<(string, V)>): (ks: seq<string>)
    ensures |ks| == |pairs|
  {
    if pairs == [] then [] else [pairs[0].0] + Keys(pairs[1..])
  }

  /** No key occurs twice, as in a Python dictionary. */
  predicate DistinctKeys<V>(pairs: seq<(string, V)>)
  {
    forall i, j :: 0 <= i < j < |pairs| ==> pairs[i].0 != pairs[j].0
  }

  /** `d.get(k)` on a dictionary given by its pairs. */
  function Get<V>(pairs: seq<(string, V)>, k: string): Option<V>
  {
    if pairs == [] then None
    else if pairs[0].0 == k then Some(pairs[0].1)
    else Get(pairs[1..], k)
  }

  /** `d[k] = v` on an insertion-ordered dictionary: an existing key keeps its place, a new key goes last. */
  function Put<V>(pairs: seq<(string, V)>, k: string, v: V): seq<(string, V)>
  {
    if pairs == [] then [(k, v)]
    else if pairs[0].0 == k then [(k, v)] + pairs[1..]
    else [pairs[0]] + Put(pairs[1..], k, v)
  }

  /** The i-th key is the key of the i-th pair. */
  lemma {:induction false} KeysAt<V>(pairs: seq<(string, V)>)
    ensures forall i :: 0 <= i < |pairs| ==> Keys(pairs)[i] == pairs[i].0
  {
    if pairs != [] {
      KeysAt(pairs[1..]);
    }
  }

  /** `d.get(k)` finds a value exactly when `k` is a key, and then it is the value of a pair with key `k`. */
  lemma {:induction false} GetFacts<V>(pairs: seq<(string, V)>, k: string)
    ensures Get(pairs, k).None? <==> k !in Keys(pairs)
    ensures Get(pairs, k).Some? ==> exists i :: 0 <= i < |pairs| && pairs[i] == (k, Get(pairs, k).value)
  {
    if pairs != [] {
      GetFacts(pairs[1..], k);
      assert Keys(pairs) == [pairs[0].0] + Keys(pairs[1..]);
      if pairs[0].0 != k && Get(pairs, k).Some? {
        var i :| 0 <= i < |pairs[1..]| && pairs[1..][i] == (k, Get(pairs, k).value);
        assert pairs[i + 1] == (k, Get(pairs, k).value);
      }
    }
  }

  /**
   * After `d[k] = v`, `k` gives `v`, every other key gives what it gave
   * before, an existing key keeps the length and a new key is appended.
   */
  lemma {:induction false} PutFacts<V>(pairs: seq<(string, V)>, k: string, v: V)
    ensures Get(Put(pairs, k, v), k) == Some(v)
    ensures forall k' :: k' != k ==> Get(Put(pairs, k, v), k') == Get(pairs, k')
    ensures k in Keys(pairs) ==> |Put(pairs, k, v)| == |pairs|
    ensures k !in Keys(pairs) ==> Put(pairs, k, v) == pairs + [(k, v)]
  {
    if pairs != [] {
      PutFacts(pairs[1..], k, v);
      assert Keys(pairs) == [pairs[0].0] + Keys(pairs[1..]);
      if pairs[0].0 == k {
        assert Put(pairs, k, v)[1..] == pairs[1..];
      } else {
        assert Put(pairs, k, v)[1..] == Put(pairs[1..], k, v);
      }
    }
  }

  /** String labels attached to a measurement, in insertion order. */
  type Labels = seq<(string, string)>
}

=== FILE: dim_mapping.dfy ===
/**
 * Mapping of input labels to output dimensions (`DynamicCheckHelper.DimMapping`,
 * `_build_dimension_map`, `_get_mappings` and `_map_dimensions`). Each label
 * has a list of rules; a rule names its target dimension, a pattern whose
 * capture groups make the value, and the separator that joins them.
 */
module DimMappings {
  import opened Wrappers
  import opened Text
  import opened Config
  import opened DimValue

  /** The default pattern; a rule with it copies the (sanitised) value without matching. */
  const IdentityRegex := "(.*)"

  /** The separator a complex rule uses when it names none. */
  const DefaultSeparator := "-"

  /** One `DimMapping`: target dimension, pattern and separator (`None` for a simple rule). */
  datatype DimMapping = DimMapping(dimension: string, regex: string, separator: Option<string>)

  /**
   * What `map_value` does: a value, `None` for a pattern that does not match
   * (`NoMatch`), or an `AttributeError` from joining with a `None`
   * separator (`Faulty`).
   */
  datatype MapOutcome = Mapped(value: string) | NoMatch | Faulty

  /**
   * The label rules, keyed by source label. A `source_key: null` entry is
   * filed under Python's `None` (here `None`), which no label of a
   * measurement equals.
   */
  type DimMap = map<Option<string>, seq<DimMapping>>

  /** `DimMapping.map_value(source_value)` */
  function MapValue(m: Matcher, rule: DimMapping, v: string): (r: MapOutcome)
    ensures r.Mapped? ==> |r.value| <= MaxLength && forall i :: 0 <= i < |r.value| ==> r.value[i] !in Forbidden
    ensures rule.regex == IdentityRegex ==> r.Mapped?
    ensures r.NoMatch? <==> rule.regex != IdentityRegex && m(rule.regex, v).None?
  {
    if rule.regex == IdentityRegex then Mapped(NormalizeDimValue(v))
    else match m(rule.regex, v)
      case None => NoMatch
      case Some(groups) =>
        if rule.separator.None? then Faulty
        else Mapped(NormalizeDimValue(Join(groups, rule.separator.value)))
  }

  /** The label a `dimensions` entry reads (`source_key`, defaulting to the dimension name; `None` when it is `null`). */
  function SourceKey(entry: (string, DimSpec)): Option<string>
  {
    match entry.1
    case Simple(key) => Some(key)
    case Complex(sourceKey, _, _) =>
      match sourceKey
      case Unset => Some(entry.0)
      case Null => None
      case Set(k) => Some(k)
  }

  /**
   * The `DimMapping` constructor can be built for the entry: a `regex: null`
   * makes `re.compile(None)` raise `TypeError`.
   */
  predicate Compiles(entry: (string, DimSpec))
  {
    !(entry.1.Complex? && entry.1.regex.Null?)
  }

  /** Every entry of a `dimensions` element can be built. */
  predicate AllCompile(dims: seq<(string, DimSpec)>)
  {
    forall i :: 0 <= i < |dims| ==> Compiles(dims[i])
  }

  /** The rule a `dimensions` entry stands for (an entry that does not compile never becomes one). */
  function MappingOf(entry: (string, DimSpec)): DimMapping
  {
    match entry.1
    case Simple(_) => DimMapping(entry.0, IdentityRegex, None)
    case Complex(_, regex, separator) =>
      DimMapping(entry.0,
        if regex.Set? then regex.value else IdentityRegex,
        match separator
          case Unset => Some(DefaultSeparator)
          case Null => None
          case Set(sep) => Some(sep))
  }

  /** `dimension_map.get(key, [])` for any key, `None` included. */
  function Filed(dm: DimMap, key: Option<string>): seq<DimMapping>
  {
    if key in dm then dm[key] else []
  }

  /** `dimension_map.get(lbl, [])` */
  function Lookup(dm: DimMap, lbl: string): seq<DimMapping>
  {
    Filed(dm, Some(lbl))
  }

  /** The rules of the entries that read `key`, in declaration order. */
  function RulesFor(dims: seq<(string, DimSpec)>, key: Option<string>): (rules: seq<DimMapping>)
    ensures |rules| <= |dims|
  {
    if dims == [] then []
    else
      var n := |dims| - 1;
      RulesFor(dims[..n], key) + (if SourceKey(dims[n]) == key then [MappingOf(dims[n])] else [])
  }

  /** The rules for a label are exactly the rules of the entries that read it. */
  lemma {:induction false} RulesForExactly(dims: seq<(string, DimSpec)>, key: Option<string>)
    ensures forall rule :: rule in RulesFor(dims, key) <==>
      exists i :: 0 <= i < |dims| && SourceKey(dims[i]) == key && rule == MappingOf(dims[i])
  {
    if dims != [] {
      var n := |dims| - 1;
      RulesForExactly(dims[..n], key);
      forall rule ensures rule in RulesFor(dims, key) <==>
        exists i :: 0 <= i < |dims| && SourceKey(dims[i]) == key && rule == MappingOf(dims[i])
      {
        if rule in RulesFor(dims[..n], key) {
          var i :| 0 <= i < n && SourceKey(dims[..n][i]) == key && rule == MappingOf(dims[..n][i]);
          assert dims[..n][i] == dims[i];
        }
        if exists i :: 0 <= i < |dims| && SourceKey(dims[i]) == key && rule == MappingOf(dims[i]) {
          var i :| 0 <= i < |dims| && SourceKey(dims[i]) == key && rule == MappingOf(dims[i]);
          if i < n { assert dims[..n][i] == dims[i]; }
        }
      }
    }
  }

  /** The labels some entry reads. */
  function SourceKeys(dims: seq<(string, DimSpec)>): set<Option<string>>
  {
    set i | 0 <= i < |dims| :: SourceKey(dims[i])
  }

  lemma SourceKeysSnoc(dims: seq<(string, DimSpec)>, i: nat)
    requires i < |dims|
    ensures SourceKeys(dims[..i + 1]) == SourceKeys(dims[..i]) + {SourceKey(dims[i])}
  {
    var pre, pre' := dims[..i], dims[..i + 1];
    assert forall j :: 0 <= j < i ==> pre'[j] == pre[j];
    assert pre'[i] == dims[i];
    forall k | k in SourceKeys(pre') ensures k in SourceKeys(pre) + {SourceKey(dims[i])} {
      var j :| 0 <= j < i + 1 && SourceKey(pre'[j]) == k;
    }
    forall k | k in SourceKeys(pre) ensures k in SourceKeys(pre') {
      var j :| 0 <= j < i && SourceKey(pre[j]) == k;
      assert SourceKey(pre'[j]) == k;
    }
  }

  lemma RulesForSnoc(dims: seq<(string, DimSpec)>, i: nat, key: Option<string>)
    requires i < |dims|
    ensures RulesFor(dims[..i + 1], key) == RulesFor(dims[..i], key) + (if SourceKey(dims[i]) == key then [MappingOf(dims[i])] else [])
  {
    assert dims[..i + 1][..i] == dims[..i];
  }

  /**
   * `_build_dimension_map(config)`: for every label, the rules of the entries
   * that read it, in declaration order; no other label has rules. Building
   * the rule of an entry with `regex: null` raises `TypeError` (`None`), so
   * the table is built exactly when every entry compiles.
   */
  method BuildDimensionMap(dims: seq<(string, DimSpec)>) returns (r: Option<DimMap>)
    ensures r.None? <==> !AllCompile(dims)
    ensures r.Some? ==> r.value.Keys == SourceKeys(dims)
    ensures r.Some? ==> forall lbl :: Lookup(r.value, lbl) == RulesFor(dims, Some(lbl))
    ensures r.Some? ==> r.value == DimMapOf(dims)
  {
    var t: DimMap := map[];
    for i := 0 to |dims|
      invariant t.Keys == SourceKeys(dims[..i])
      invariant forall key :: Filed(t, key) == RulesFor(dims[..i], key)
      invariant forall j :: 0 <= j < i ==> Compiles(dims[j])
    {
      if !Compiles(dims[i]) {
        return None;
      }
      FiledStep(dims, i, t);
      var key := SourceKey(dims[i]);
      t := t[key := Filed(t, key) + [MappingOf(dims[i])]];
    }
    assert dims[..|dims|] == dims;
    BuiltIsDimMapOf(dims, t);
    r := Some(t);
  }

  /** Filing the entry at position `i` extends a table filed like the entries before it. */
  lemma FiledStep(dims: seq<(string, DimSpec)>, i: nat, t: DimMap)
    requires i < |dims| && t.Keys == SourceKeys(dims[..i]) && forall key :: Filed(t, key) == RulesFor(dims[..i], key)
    ensures var t' := t[SourceKey(dims[i]) := Filed(t, SourceKey(dims[i])) + [MappingOf(dims[i])]];
      t'.Keys == SourceKeys(dims[..i + 1]) && forall key :: Filed(t', key) == RulesFor(dims[..i + 1], key)
  {
    SourceKeysSnoc(dims, i);
    var key := SourceKey(dims[i]);
    var t' := t[key := Filed(t, key) + [MappingOf(dims[i])]];
    forall k ensures Filed(t', k) == RulesFor(dims[..i + 1], k) {
      RulesForSnoc(dims, i, k);
      if k != key {
        assert Filed(t', k) == Filed(t, k);
      }
    }
  }

  /** A table filed like the entries of `dims` is `DimMapOf(dims)`. */
  lemma BuiltIsDimMapOf(dims: seq<(string, DimSpec)>, t: DimMap)
    requires t.Keys == SourceKeys(dims) && forall key :: Filed(t, key) == RulesFor(dims, key)
    ensures t == DimMapOf(dims)
    ensures forall lbl :: Lookup(t, lbl) == RulesFor(dims, Some(lbl))
  {
    assert forall k :: k in t ==> t[k] == Filed(t, k);
  }

  /** The table `_build_dimension_map` builds, as a value: every label some entry reads, with its rules. */
  function DimMapOf(dims: seq<(string, DimSpec)>): (r: DimMap)
    ensures r.Keys == SourceKeys(dims)
  {
    map k | k in SourceKeys(dims) :: RulesFor(dims, k)
  }

  /** A label no entry reads has no rules. */
  lemma {:induction false} RulesForUnread(dims: seq<(string, DimSpec)>, key: Option<string>)
    requires key !in SourceKeys(dims)
    ensures RulesFor(dims, key) == []
  {
    if dims != [] {
      var n := |dims| - 1;
      SourceKeysSnoc(dims, n);
      assert dims[..n + 1] == dims;
      RulesForUnread(dims[..n], key);
    }
  }

  /** Looking a label up in the built table gives exactly the rules of the entries that read it. */
  lemma DimMapOfLookup(dims: seq<(string, DimSpec)>, lbl: string)
    ensures Lookup(DimMapOf(dims), lbl) == RulesFor(dims, Some(lbl))
  {
    if Some(lbl) !in SourceKeys(dims) {
      RulesForUnread(dims, Some(lbl));
    }
  }

  /**
   * An entry with `source_key: null` is filed under `None`: its rule is never
   * among the rules of a label, unless another entry that reads that label
   * stands for the same rule.
   */
  lemma NullSourceKeyUnread(dims: seq<(string, DimSpec)>, i: nat, lbl: string)
    requires i < |dims| && dims[i].1.Complex? && dims[i].1.sourceKey.Null?
    ensures None in DimMapOf(dims) && MappingOf(dims[i]) in DimMapOf(dims)[None]
    ensures MappingOf(dims[i]) in Lookup(DimMapOf(dims), lbl) <==>
      exists j :: 0 <= j < |dims| && SourceKey(dims[j]) == Some(lbl) && MappingOf(dims[j]) == MappingOf(dims[i])
  {
    RulesForExactly(dims, None);
    RulesForExactly(dims, Some(lbl));
    DimMapOfLookup(dims, lbl);
  }

  /**
   * `_get_mappings(instance_name, group, labelname)` without its side effect:
   * the group's rules for the lbl, when a non-empty group is given, then
   * the global ones.
   */
  function MappingsFor(groupMaps: map<string, DimMap>, global: DimMap, group: Option<string>, lbl: string): seq<DimMapping>
  {
    var own := if group.Some? && group.value != "" && group.value in groupMaps then Lookup(groupMaps[group.value], lbl) else [];
    own + Lookup(global, lbl)
  }

  /**
   * The rules `_get_mappings` returns end with the global ones; without a
   * group (or with the pseudo group "") they are exactly the global ones,
   * and with a declared group its own rules come first.
   */
  lemma MappingsForParts(groupMaps: map<string, DimMap>, global: DimMap, group: Option<string>, lbl: string)
    ensures var rules := MappingsFor(groupMaps, global, group, lbl);
      && (group.None? || group.value == "" ==> rules == Lookup(global, lbl))
      && |rules| >= |Lookup(global, lbl)| && rules[|rules| - |Lookup(global, lbl)|..] == Lookup(global, lbl)
      && (group.Some? && group.value != "" && group.value in groupMaps ==>
            rules[..|rules| - |Lookup(global, lbl)|] == Lookup(groupMaps[group.value], lbl))
  {
  }

  /** One rule applied to the dimensions built so far: a present target is kept, otherwise the rule must map. */
  function ApplyRule(m: Matcher, dims: map<string, string>, v: string, rule: DimMapping): Option<map<string, string>>
  {
    if rule.dimension in dims then Some(dims)
    else match MapValue(m, rule, v)
      case Mapped(x) => Some(dims[rule.dimension := x])
      case _ => None
  }

  /** The inner loop of `_map_dimensions`: the rules of one lbl, in order, stopping at the first failure. */
  function ApplyRules(m: Matcher, dims: map<string, string>, v: string, rules: seq<DimMapping>): Option<map<string, string>>
  {
    if rules == [] then Some(dims)
    else match ApplyRules(m, dims, v, rules[..|rules| - 1])
      case None => None
      case Some(d) => ApplyRule(m, d, v, rules[|rules| - 1])
  }

  /** The target dimensions of some rules. */
  function Targets(rules: seq<DimMapping>): set<string>
  {
    set i | 0 <= i < |rules| :: rules[i].dimension
  }

  /**
   * `_map_dimensions(instance_name, labels, group, default_dimensions)` as a
   * value: the defaults, then every lbl's rules in lbl order.
   */
  function MapLabels(m: Matcher, groupMaps: map<string, DimMap>, global: DimMap, group: Option<string>,
                     labels: Labels, defaults: map<string, string>): Option<map<string, string>>
  {
    if labels == [] then Some(defaults)
    else
      var last := labels[|labels| - 1];
      match MapLabels(m, groupMaps, global, group, labels[..|labels| - 1], defaults)
      case None => None
      case Some(d) => ApplyRules(m, d, last.1, MappingsFor(groupMaps, global, group, last.0))
  }

  /** Once a rule has filtered the value out, the later rules cannot bring it back. */
  lemma {:induction false} ApplyRulesStuck(m: Matcher, dims: map<string, string>, v: string, rules: seq<DimMapping>, j: nat)
    requires j <= |rules| && ApplyRules(m, dims, v, rules[..j]).None?
    ensures ApplyRules(m, dims, v, rules).None?
    decreases |rules| - j
  {
    if j < |rules| {
      assert rules[..j + 1][..j] == rules[..j];
      ApplyRulesStuck(m, dims, v, rules, j + 1);
    } else {
      assert rules[..j] == rules;
    }
  }

  /** Once a label has filtered the measurement out, the later labels cannot bring it back. */
  lemma {:induction false} MapLabelsStuck(m: Matcher, groupMaps: map<string, DimMap>, global: DimMap, group: Option<string>,
                                          labels: Labels, defaults: map<string, string>, k: nat)
    requires k <= |labels| && MapLabels(m, groupMaps, global, group, labels[..k], defaults).None?
    ensures MapLabels(m, groupMaps, global, group, labels, defaults).None?
    decreases |labels| - k
  {
    if k < |labels| {
      assert labels[..k + 1][..k] == labels[..k];
      MapLabelsStuck(m, groupMaps, global, group, labels, defaults, k + 1);
    } else {
      assert labels[..k] == labels;
    }
  }

  /** Mapping one more label applies that label's rules to what the labels before it produced. */
  lemma MapLabelsExtend(m: Matcher, groupMaps: map<string, DimMap>, global: DimMap, group: Option<string>,
                        labels: Labels, defaults: map<string, string>, k: nat)
    requires k < |labels|
    ensures MapLabels(m, groupMaps, global, group, labels[..k + 1], defaults) ==
      match MapLabels(m, groupMaps, global, group, labels[..k], defaults)
      case None => None
      case Some(d) => ApplyRules(m, d, labels[k].1, MappingsFor(groupMaps, global, group, labels[k].0))
  {
    assert labels[..k + 1][..k] == labels[..k];
  }

  /**
   * The outer loop of `_map_dimensions`: starting from a copy of the
   * defaults, every label's rules are applied in label order, and the first
   * label whose rules filter the measurement out ends the loop.
   */
  method MapLabelsLoop(m: Matcher, groupMaps: map<string, DimMap>, global: DimMap, group: Option<string>,
                       labels: Labels, defaults: map<string, string>) returns (r: Option<map<string, string>>)
    ensures r == MapLabels(m, groupMaps, global, group, labels, defaults)
  {
    var dims := defaults;
    for k := 0 to |labels|
      invariant MapLabels(m, groupMaps, global, group, labels[..k], defaults) == Some(dims)
    {
      var (lbl, v) := labels[k];
      var d := ApplyRulesLoop(m, dims, v, MappingsFor(groupMaps, global, group, lbl));
      MapLabelsExtend(m, groupMaps, global, group, labels, defaults, k);
      if d.None? {
        MapLabelsStuck(m, groupMaps, global, group, labels, defaults, k + 1);
        return None;
      }
      dims := d.value;
    }
    assert labels[..|labels|] == labels;
    return Some(dims);
  }

  /**
   * The inner loop of `_map_dimensions`: each rule of one label adds its
   * target dimension unless it is present; a rule whose pattern does not
   * match, or that fails, filters the measurement out.
   */
  method ApplyRulesLoop(m: Matcher, dims: map<string, string>, v: string, rules: seq<DimMapping>)
    returns (r: Option<map<string, string>>)
    ensures r == ApplyRules(m, dims, v, rules)
  {
    var acc := dims;
    for j := 0 to |rules|
      invariant ApplyRules(m, dims, v, rules[..j]) == Some(acc)
    {
      assert rules[..j + 1][..j] == rules[..j];
      var rule := rules[j];
      if rule.dimension !in acc {
        var mapped := MapValue(m, rule, v);
        if !mapped.Mapped? {
          ApplyRulesStuck(m, dims, v, rules, j + 1);
          return None;
        }
        acc := acc[rule.dimension := mapped.value];
      }
    }
    assert rules[..|rules|] == rules;
    return Some(acc);
  }

  // ---------------------------------------------------------------- properties

  /** A `(.*)` rule copies the sanitised value. */
  lemma IdentityRuleCopies(m: Matcher, rule: DimMapping, v: string)
    requires rule.regex == IdentityRegex
    ensures MapValue(m, rule, v) == Mapped(NormalizeDimValue(v))
  {
  }

  /**
   * A pattern without capture groups that matches yields the empty value,
   * not the input value.
   */
  lemma NoGroupsYieldEmpty(m: Matcher, rule: DimMapping, v: string)
    requires rule.regex != IdentityRegex && m(rule.regex, v) == Some([]) && rule.separator.Some?
    ensures MapValue(m, rule, v) == Mapped("")
  {
    assert Join([], rule.separator.value) == "";
    assert Substituted("") == "";
  }

  /** A simple `dimensions` entry copies its lbl's value under the dimension name. */
  lemma SimpleEntryCopies(m: Matcher, dim: string, key: string, v: string)
    ensures SourceKey((dim, Simple(key))) == Some(key)
    ensures MapValue(m, MappingOf((dim, Simple(key))), v) == Mapped(NormalizeDimValue(v))
  {
  }

  /** Rules only add dimensions: every dimension given on entry is kept with its value. */
  lemma {:induction false} ApplyRulesKeeps(m: Matcher, dims: map<string, string>, v: string, rules: seq<DimMapping>)
    ensures var r := ApplyRules(m, dims, v, rules);
      r.Some? ==> r.value.Keys == dims.Keys + Targets(rules) && forall k :: k in dims ==> r.value[k] == dims[k]
  {
    if rules != [] {
      ApplyRulesKeeps(m, dims, v, rules[..|rules| - 1]);
      TargetsSnoc(rules);
    }
  }

  /** Rule `i` is reached with a target that is neither given nor set earlier, and it does not map. */
  predicate FailsAt(m: Matcher, dims: map<string, string>, v: string, rules: seq<DimMapping>, i: nat)
    requires i < |rules|
  {
    rules[i].dimension !in dims && rules[i].dimension !in Targets(rules[..i]) && !MapValue(m, rules[i], v).Mapped?
  }

  lemma FailsAtPrefix(m: Matcher, dims: map<string, string>, v: string, rules: seq<DimMapping>, n: nat, i: nat)
    requires i < n <= |rules|
    ensures FailsAt(m, dims, v, rules[..n], i) == FailsAt(m, dims, v, rules, i)
  {
    assert rules[..n][i] == rules[i];
    assert rules[..n][..i] == rules[..i];
  }

  lemma TargetsSnoc(rules: seq<DimMapping>)
    requires rules != []
    ensures Targets(rules) == Targets(rules[..|rules| - 1]) + {rules[|rules| - 1].dimension}
  {
    var init := rules[..|rules| - 1];
    forall t | t in Targets(rules) ensures t in Targets(init) + {rules[|rules| - 1].dimension} {
      var i :| 0 <= i < |rules| && rules[i].dimension == t;
      if i < |rules| - 1 { assert init[i] == rules[i]; }
    }
    forall t | t in Targets(init) ensures t in Targets(rules) {
      var i :| 0 <= i < |init| && init[i].dimension == t;
      assert rules[i] == init[i];
    }
  }

  /**
   * The measurement is filtered out exactly when some rule is reached whose
   * target is neither given nor set by an earlier rule, and that rule does not map.
   */
  lemma ApplyRulesNoneIff(m: Matcher, dims: map<string, string>, v: string, rules: seq<DimMapping>)
    ensures ApplyRules(m, dims, v, rules).None? <==> exists i :: 0 <= i < |rules| && FailsAt(m, dims, v, rules, i)
  {
    forall i | 0 <= i < |rules| && FailsAt(m, dims, v, rules, i) ensures ApplyRules(m, dims, v, rules).None? {
      FailureFilters(m, dims, v, rules, i);
    }
    if ApplyRules(m, dims, v, rules).None? {
      var i := FailureWitness(m, dims, v, rules);
    }
  }

  /** A failing rule filters the measurement out. */
  lemma {:induction false} FailureFilters(m: Matcher, dims: map<string, string>, v: string, rules: seq<DimMapping>, i: nat)
    requires i < |rules| && FailsAt(m, dims, v, rules, i)
    ensures ApplyRules(m, dims, v, rules).None?
  {
    var n := |rules| - 1;
    if i < n {
      FailsAtPrefix(m, dims, v, rules, n, i);
      FailureFilters(m, dims, v, rules[..n], i);
    } else {
      LastRuleDecidesOrEarlier(m, dims, v, rules);
    }
  }

  /** A filtered measurement has a failing rule. */
  lemma {:induction false} FailureWitness(m: Matcher, dims: map<string, string>, v: string, rules: seq<DimMapping>) returns (i: nat)
    requires ApplyRules(m, dims, v, rules).None?
    ensures i < |rules| && FailsAt(m, dims, v, rules, i)
  {
    var n := |rules| - 1;
    if ApplyRules(m, dims, v, rules[..n]).None? {
      i := FailureWitness(m, dims, v, rules[..n]);
      FailsAtPrefix(m, dims, v, rules, n, i);
    } else {
      LastRuleDecides(m, dims, v, rules);
      i := n;
    }
  }

  lemma LastRuleDecidesOrEarlier(m: Matcher, dims: map<string, string>, v: string, rules: seq<DimMapping>)
    requires rules != [] && FailsAt(m, dims, v, rules, |rules| - 1)
    ensures ApplyRules(m, dims, v, rules).None?
  {
    if ApplyRules(m, dims, v, rules[..|rules| - 1]).Some? {
      LastRuleDecides(m, dims, v, rules);
    }
  }

  /** When the earlier rules succeed, the last rule fails exactly when `FailsAt` says so. */
  lemma LastRuleDecides(m: Matcher, dims: map<string, string>, v: string, rules: seq<DimMapping>)
    requires rules != [] && ApplyRules(m, dims, v, rules[..|rules| - 1]).Some?
    ensures ApplyRules(m, dims, v, rules).None? <==> FailsAt(m, dims, v, rules, |rules| - 1)
  {
    var n := |rules| - 1;
    var d := ApplyRules(m, dims, v, rules[..n]);
    ApplyRulesKeeps(m, dims, v, rules[..n]);
    assert ApplyRules(m, dims, v, rules) == ApplyRule(m, d.value, v, rules[n]);
  }

  /** The first rule for a target that is not given decides its value. */
  lemma {:induction false} FirstRuleWins(m: Matcher, dims: map<string, string>, v: string, rules: seq<DimMapping>, i: nat)
    requires i < |rules| && rules[i].dimension !in dims && rules[i].dimension !in Targets(rules[..i])
    requires ApplyRules(m, dims, v, rules).Some?
    ensures MapValue(m, rules[i], v).Mapped?
    ensures rules[i].dimension in ApplyRules(m, dims, v, rules).value
    ensures ApplyRules(m, dims, v, rules).value[rules[i].dimension] == MapValue(m, rules[i], v).value
  {
    ApplyRulesNoneIff(m, dims, v, rules);
    assert !FailsAt(m, dims, v, rules, i);
    var n := |rules| - 1;
    var init := rules[..n];
    var d := ApplyRules(m, dims, v, init);
    assert d.Some?;
    assert ApplyRules(m, dims, v, rules) == ApplyRule(m, d.value, v, rules[n]);
    ApplyRulesKeeps(m, dims, v, init);
    if i < n {
      assert init[i] == rules[i] && init[..i] == rules[..i];
      FirstRuleWins(m, dims, v, init, i);
    } else {
      assert init == rules[..i];
    }
  }

  /** Rules whose targets are all set already change nothing: neither the result nor whether there is one. */
  lemma {:induction false} RepeatedTargetsIgnored(m: Matcher, dims: map<string, string>, v: string, rules: seq<DimMapping>, extra: seq<DimMapping>)
    requires Targets(extra) <= Targets(rules)
    ensures ApplyRules(m, dims, v, rules + extra) == ApplyRules(m, dims, v, rules)
    decreases |extra|
  {
    if extra == [] {
      assert rules + extra == rules;
    } else {
      var init := extra[..|extra| - 1];
      assert Targets(init) <= Targets(extra) by {
        forall t | t in Targets(init) ensures t in Targets(extra) {
          var i :| 0 <= i < |init| && init[i].dimension == t;
          assert extra[i] == init[i];
        }
      }
      RepeatedTargetsIgnored(m, dims, v, rules, init);
      assert (rules + extra)[..|rules + extra| - 1] == rules + init;
      var last := extra[|extra| - 1];
      assert last.dimension in Targets(extra);
      ApplyRulesKeeps(m, dims, v, rules);
    }
  }

  /** The defaults survive `_map_dimensions`: a default is never overwritten by a lbl. */
  lemma {:induction false} DefaultsKept(m: Matcher, groupMaps: map<string, DimMap>, global: DimMap, group: Option<string>,
                                         labels: Labels, defaults: map<string, string>)
    ensures var r := MapLabels(m, groupMaps, global, group, labels, defaults);
      r.Some? ==> forall k :: k in defaults ==> k in r.value && r.value[k] == defaults[k]
  {
    if labels != [] {
      var last := labels[|labels| - 1];
      DefaultsKept(m, groupMaps, global, group, labels[..|labels| - 1], defaults);
      var d := MapLabels(m, groupMaps, global, group, labels[..|labels| - 1], defaults);
      if d.Some? {
        ApplyRulesKeeps(m, d.value, last.1, MappingsFor(groupMaps, global, group, last.0));
      }
    }
  }

  // ---------------------------------------------------------------- `_get_mappings` as written

  /**
   * `_get_mappings` as the source writes it: when the group has a stored
   * rule list for the label, that very list is extended in place with the
   * global rules. Yields the rules and the group rule store afterwards.
   */
  function GetMappingsAsWritten(groupMaps: map<string, DimMap>, global: DimMap, group: Option<string>, lbl: string)
    : (r: (seq<DimMapping>, map<string, DimMap>))
    ensures r.0 == MappingsFor(groupMaps, global, group, lbl)
    ensures r.1.Keys == groupMaps.Keys
  {
    if group.Some? && group.value != "" && group.value in groupMaps && Some(lbl) in groupMaps[group.value] then
      var extended := groupMaps[group.value][Some(lbl)] + Lookup(global, lbl);
      (extended, groupMaps[group.value := groupMaps[group.value][Some(lbl) := extended]])
    else
      (MappingsFor(groupMaps, global, group, lbl), groupMaps)
  }

  /** The group rule store after `k` calls of `GetMappingsAsWritten` for the same group and label. */
  function StoreAfterCalls(groupMaps: map<string, DimMap>, global: DimMap, group: Option<string>, lbl: string, k: nat)
    : map<string, DimMap>
  {
    if k == 0 then groupMaps
    else GetMappingsAsWritten(StoreAfterCalls(groupMaps, global, group, lbl, k - 1), global, group, lbl).1
  }

  /** `rules` followed by `k` copies of `extra`. */
  function Repeated(rules: seq<DimMapping>, extra: seq<DimMapping>, k: nat): seq<DimMapping>
  {
    if k == 0 then rules else Repeated(rules, extra, k - 1) + extra
  }

  /**
   * The stored list grows by the global rules on every call: the call after
   * `k` earlier ones answers with the group rules followed by `k + 1` copies of
   * the global rules.
   */
  lemma {:induction false} StoredRulesGrow(groupMaps: map<string, DimMap>, global: DimMap, g: string, lbl: string, k: nat)
    requires g != "" && g in groupMaps && Some(lbl) in groupMaps[g]
    ensures var store := StoreAfterCalls(groupMaps, global, Some(g), lbl, k);
      g in store && Some(lbl) in store[g] && store[g][Some(lbl)] == Repeated(groupMaps[g][Some(lbl)], Lookup(global, lbl), k)
    ensures GetMappingsAsWritten(StoreAfterCalls(groupMaps, global, Some(g), lbl, k), global, Some(g), lbl).0
      == Repeated(groupMaps[g][Some(lbl)], Lookup(global, lbl), k + 1)
  {
    var glob := Lookup(global, lbl);
    var store := StoreAfterCalls(groupMaps, global, Some(g), lbl, k);
    if k > 0 {
      StoredRulesGrow(groupMaps, global, g, lbl, k - 1);
      var prev := StoreAfterCalls(groupMaps, global, Some(g), lbl, k - 1);
      assert store == GetMappingsAsWritten(prev, global, Some(g), lbl).1;
      OneCall(prev, global, g, lbl);
    }
    OneCall(store, global, g, lbl);
  }

  /** One call on a store where the group has a list for the label. */
  lemma OneCall(store: map<string, DimMap>, global: DimMap, g: string, lbl: string)
    requires g != "" && g in store && Some(lbl) in store[g]
    ensures var r := GetMappingsAsWritten(store, global, Some(g), lbl);
      && r.0 == store[g][Some(lbl)] + Lookup(global, lbl)
      && g in r.1 && Some(lbl) in r.1[g] && r.1[g][Some(lbl)] == r.0
  {
  }

  /** The second call already differs from the first whenever the label has global rules. */
  lemma SecondCallDiffers(groupMaps: map<string, DimMap>, global: DimMap, g: string, lbl: string)
    requires g != "" && g in groupMaps && Some(lbl) in groupMaps[g] && Lookup(global, lbl) != []
    ensures var first := GetMappingsAsWritten(groupMaps, global, Some(g), lbl);
      GetMappingsAsWritten(first.1, global, Some(g), lbl).0 != first.0
  {
    StoredRulesGrow(groupMaps, global, g, lbl, 1);
    var first := GetMappingsAsWritten(groupMaps, global, Some(g), lbl);
    assert first.1 == StoreAfterCalls(groupMaps, global, Some(g), lbl, 1);
    assert |Repeated(groupMaps[g][Some(lbl)], Lookup(global, lbl), 2)| > |Repeated(groupMaps[g][Some(lbl)], Lookup(global, lbl), 1)|;
  }

  lemma {:induction false} RepeatedTargets(rules: seq<DimMapping>, extra: seq<DimMapping>, k: nat)
    requires k >= 1
    ensures Repeated(rules, extra, k) == Repeated(rules, extra, 1) + Repeated([], extra, k - 1)
    ensures Targets(Repeated([], extra, k - 1)) <= Targets(extra)
    ensures extra == [] ==> Repeated([], extra, k - 1) == []
  {
    if k > 1 {
      RepeatedTargets(rules, extra, k - 1);
      var tail := Repeated([], extra, k - 1);
      var prev := Repeated([], extra, k - 2);
      assert tail == prev + extra;
      forall t | t in Targets(tail) ensures t in Targets(extra) {
        var i :| 0 <= i < |tail| && tail[i].dimension == t;
        if i < |prev| { assert tail[i] == prev[i]; } else { assert tail[i] == extra[i - |prev|]; }
      }
    }
  }

  lemma TargetsAppend(a: seq<DimMapping>, b: seq<DimMapping>)
    ensures Targets(a + b) == Targets(a) + Targets(b)
  {
    forall t | t in Targets(a + b) ensures t in Targets(a) + Targets(b) {
      var i :| 0 <= i < |a + b| && (a + b)[i].dimension == t;
      if i < |a| { assert (a + b)[i] == a[i]; } else { assert (a + b)[i] == b[i - |a|]; }
    }
    forall t | t in Targets(a) ensures t in Targets(a + b) {
      var i :| 0 <= i < |a| && a[i].dimension == t;
      assert (a + b)[i] == a[i];
    }
    forall t | t in Targets(b) ensures t in Targets(a + b) {
      var i :| 0 <= i < |b| && b[i].dimension == t;
      assert (a + b)[|a| + i] == b[i];
    }
  }

  /**
   * The growth does not change what `_map_dimensions` computes: the rule list
   * of any call maps a label's value exactly as the side-effect-free
   * `MappingsFor` does, and it is non-empty exactly when that one is.
   */
  lemma GrownRulesMapAlike(m: Matcher, groupMaps: map<string, DimMap>, global: DimMap, g: string, lbl: string, k: nat,
                           dims: map<string, string>, v: string)
    requires g != "" && g in groupMaps && Some(lbl) in groupMaps[g]
    ensures var grown := GetMappingsAsWritten(StoreAfterCalls(groupMaps, global, Some(g), lbl, k), global, Some(g), lbl).0;
      && ApplyRules(m, dims, v, grown) == ApplyRules(m, dims, v, MappingsFor(groupMaps, global, Some(g), lbl))
      && (|grown| > 0 <==> |MappingsFor(groupMaps, global, Some(g), lbl)| > 0)
  {
    var own, glob := groupMaps[g][Some(lbl)], Lookup(global, lbl);
    var base := MappingsFor(groupMaps, global, Some(g), lbl);
    var tail := GrownSplit(groupMaps, global, g, lbl, k);
    assert base == own + glob;
    assert Targets(tail) <= Targets(base) by { TargetsAppend(own, glob); }
    RepeatedTargetsIgnored(m, dims, v, base, tail);
    if base == [] {
      assert glob == [] && tail == [];
    }
  }

  /** After `k + 1` calls the stored list is the group's and the global rules followed by rules that only repeat their targets. */
  lemma GrownSplit(groupMaps: map<string, DimMap>, global: DimMap, g: string, lbl: string, k: nat) returns (tail: seq<DimMapping>)
    requires g != "" && g in groupMaps && Some(lbl) in groupMaps[g]
    ensures GetMappingsAsWritten(StoreAfterCalls(groupMaps, global, Some(g), lbl, k), global, Some(g), lbl).0
         == (groupMaps[g][Some(lbl)] + Lookup(global, lbl)) + tail
    ensures Targets(tail) <= Targets(Lookup(global, lbl))
    ensures Lookup(global, lbl) == [] ==> tail == []
  {
    StoredRulesGrow(groupMaps, global, g, lbl, k);
    var own, glob := groupMaps[g][Some(lbl)], Lookup(global, lbl);
    RepeatedTargets(own, glob, k + 1);
    tail := Repeated([], glob, k);
    assert Repeated(own, glob, 1) == own + glob by { assert Repeated(own, glob, 0) == own; }
  }
}

=== FILE: dim_value.dfy ===
/**
 * Sanitising of dimension values (`DynamicCheckHelper._normalize_dim_value`):
 * the escaped hyphen and tilde are decoded, brackets are replaced, the
 * characters the metrics backend refuses become '-', and the value is cut
 * to 255 characters.
 */
module DimValue {
  import opened Text

  /** The longest dimension value the backend accepts. */
  const MaxLength: nat := 255

  /** `[({<]`, replaced by '['. */
  const OpeningChars: set<char> := {'(', '{', '<'}

  /** `[(}>]`, replaced by ']'. The class lists '(' a second time and not ')'. */
  const ClosingChars: set<char> := {'(', '}', '>'}

  /** `[|\;,&=']`, replaced by '-'. */
  const DashedChars: set<char> := {'|', '\\', ';', ',', '&', '=', '\''}

  /** No sanitised value contains one of these. */
  const Forbidden: set<char> := OpeningChars + ClosingChars + DashedChars

  /** `value[:255]` */
  function Truncate(s: string): (r: string)
    ensures r <= s && |r| == if |s| <= MaxLength then |s| else MaxLength
  {
    if |s| <= MaxLength then s else s[..MaxLength]
  }

  /** The escaped hyphen and tilde decoded, the first two substitution steps. */
  function Unescaped(value: string): string
  {
    Replace(Replace(value, "\\x2d", "-"), "\\x7e", "~")
  }

  /** The three character classes replaced, the last substitution steps. */
  function Sanitised(s: string): string
  {
    MapChars(MapChars(MapChars(s, OpeningChars, '['), ClosingChars, ']'), DashedChars, '-')
  }

  /** The four substitution steps, before truncation. */
  function Substituted(value: string): string
  {
    Sanitised(Unescaped(value))
  }

  /** Each character the class replacements leave is outside the three replaced classes. */
  lemma SanitisedClean(s: string)
    ensures forall i :: 0 <= i < |Sanitised(s)| ==> Sanitised(s)[i] !in Forbidden
  {
    var lefts := MapChars(s, OpeningChars, '[');
    var rights := MapChars(lefts, ClosingChars, ']');
    var dashed := MapChars(rights, DashedChars, '-');
    forall i | 0 <= i < |dashed|
      ensures dashed[i] !in Forbidden
    {
      assert lefts[i] !in OpeningChars;
      assert rights[i] !in OpeningChars && rights[i] !in ClosingChars;
    }
  }

  /** The class replacements keep the length, and every character outside the three classes. */
  lemma SanitisedKeeps(s: string, i: nat)
    requires i < |s| && s[i] !in Forbidden
    ensures |Sanitised(s)| == |s| && Sanitised(s)[i] == s[i]
  {
    var lefts := MapChars(s, OpeningChars, '[');
    var rights := MapChars(lefts, ClosingChars, ']');
    assert lefts[i] == s[i];
    assert rights[i] == s[i];
  }

  /** The character the three class replacements leave for `c`: '[' for `[({<]`, ']' for the rest of `[(}>]`, '-' for the dashed class. */
  function SanitisedChar(c: char): char
  {
    if c in OpeningChars then '['
    else if c in ClosingChars then ']'
    else if c in DashedChars then '-'
    else c
  }

  /** The three class replacements act character by character, each class getting its own replacement. */
  lemma SanitisedEach(s: string)
    ensures |Sanitised(s)| == |s|
    ensures forall i :: 0 <= i < |s| ==> Sanitised(s)[i] == SanitisedChar(s[i])
  {
    var lefts := MapChars(s, OpeningChars, '[');
    var rights := MapChars(lefts, ClosingChars, ']');
    forall i | 0 <= i < |s| ensures Sanitised(s)[i] == SanitisedChar(s[i]) {
      assert lefts[i] == if s[i] in OpeningChars then '[' else s[i];
      assert rights[i] == if lefts[i] in ClosingChars then ']' else lefts[i];
    }
  }

  /** `_normalize_dim_value(value)` */
  function NormalizeDimValue(value: string): (r: string)
    ensures r <= Substituted(value)
    ensures |r| == if |Substituted(value)| <= MaxLength then |Substituted(value)| else MaxLength
    ensures forall i :: 0 <= i < |r| ==> r[i] !in Forbidden
  {
    SanitisedClean(Unescaped(value));
    Truncate(Substituted(value))
  }

  /** A value that is short enough and holds no forbidden character is kept as it is, and only such a value is. */
  lemma {:induction false} NormalizeDimValueKeeps(value: string)
    ensures NormalizeDimValue(value) == value <==>
              |value| <= MaxLength && forall i :: 0 <= i < |value| ==> value[i] !in Forbidden
  {
    if |value| <= MaxLength && forall i :: 0 <= i < |value| ==> value[i] !in Forbidden {
      assert '\\' !in value by {
        forall i | 0 <= i < |value| ensures value[i] != '\\' { assert '\\' in Forbidden; }
      }
      ReplaceAbsent(value, "\\x2d", "-");
      ReplaceAbsent(value, "\\x7e", "~");
      MapCharsAbsent(value, OpeningChars, '[');
      MapCharsAbsent(value, ClosingChars, ']');
      MapCharsAbsent(value, DashedChars, '-');
    }
  }

  /** Sanitising twice gives the same value as sanitising once. */
  lemma NormalizeDimValueIdempotent(value: string)
    ensures NormalizeDimValue(NormalizeDimValue(value)) == NormalizeDimValue(value)
  {
    NormalizeDimValueKeeps(NormalizeDimValue(value));
  }

  /**
   * ')' is not in any replaced class: a value without backslashes keeps
   * each ')' among its first 255 characters.
   */
  lemma {:induction false} CloseParenKept(value: string, i: nat)
    requires '\\' !in value
    requires i < |value| && i < MaxLength && value[i] == ')'
    ensures i < |NormalizeDimValue(value)| && NormalizeDimValue(value)[i] == ')'
  {
    ReplaceAbsent(value, "\\x2d", "-");
    ReplaceAbsent(value, "\\x7e", "~");
    assert Unescaped(value) == value;
    SanitisedKeeps(value, i);
  }

  /**
   * A value without backslashes keeps its first 255 characters, each
   * replaced as its class says: '(' '{' '<' become '[', '}' '>' become ']',
   * the dashed class becomes '-', and every other character stays.
   */
  lemma {:induction false} NormalizeDimValueEach(value: string)
    requires '\\' !in value
    ensures |NormalizeDimValue(value)| == if |value| <= MaxLength then |value| else MaxLength
    ensures forall i :: 0 <= i < |NormalizeDimValue(value)| ==> NormalizeDimValue(value)[i] == SanitisedChar(value[i])
  {
    ReplaceAbsent(value, "\\x2d", "-");
    ReplaceAbsent(value, "\\x7e", "~");
    assert Unescaped(value) == value;
    SanitisedEach(value);
  }

  /** The escaped hyphen and tilde are decoded before the backslash would become '-'. */
  lemma EscapesDecoded()
    ensures NormalizeDimValue("\\x2d") == "-"
  {
    assert Replace("\\x2d", "\\x2d", "-") == "-";
    assert Replace("-", "\\x7e", "~") == "-";
  }

  /** ')' passes through while the other brackets are replaced. */
  lemma ParensExample()
    ensures NormalizeDimValue("(a)") == "[a)"
  {
    ReplaceAbsent("(a)", "\\x2d", "-");
    ReplaceAbsent("(a)", "\\x7e", "~");
    SanitisedParens();
  }

  /** The class replacements on "(a)": the opening bracket becomes '[', the rest stays. */
  lemma SanitisedParens()
    ensures Sanitised("(a)") == "[a)"
  {
    var r := Sanitised("(a)");
    SanitisedKeeps("(a)", 1);
    SanitisedKeeps("(a)", 2);
    assert r[0] == '[';
    assert r == "[a)";
  }
}

=== FILE: elastic.dfy ===
/**
 * The Elasticsearch check's metric machinery: the table of metrics, which
 * grows with the server's version (`_define_params`), the walk of a dotted
 * path through a decoded stats document and the choice between a gauge and a
 * rate (`_process_metric`), the cluster status kept per URL
 * (`_process_health_data`) and the counting of pending tasks by priority
 * (`_process_task_data`). HTTP requests, sockets and the agent's aggregator
 * are not part of this model: documents are inputs, and the samples a call
 * sends are its result.
 */
module Elastic {
  import opened Wrappers
  import opened Json
  import opened ListOrder
  import Text
  import Config

  /** The transform of a table entry: none, `div1000`, or the `cluster_status` lambda. */
  datatype Xform = NoXform | Div1000 | StatusCode

  /** A table entry `(xtype, path[, xform])`. */
  datatype Desc = Desc(xtype: string, path: string, xform: Xform)

  /** The exceptions the modelled code can raise. */
  datatype ElasticError = KeyError | TypeError | AttributeError | ValueError

  /** Whether a sample goes through `self.gauge` or `self.rate`. */
  datatype Kind = GaugeKind | RateKind

  /** One call of `self.gauge(metric, value)` or `self.rate(metric, value)`. */
  datatype Sample = Sample(kind: Kind, name: string, value: Json)

  // ------------------------------------------------------------ the metric tables

  /** `METRICS` (elastic.py:27-117) */
  const CommonMetrics: map<string, Desc> := map[
    "elasticsearch.docs.count" := Desc("gauge", "indices.docs.count", NoXform),
    "elasticsearch.docs.deleted" := Desc("gauge", "indices.docs.deleted", NoXform),
    "elasticsearch.store.size" := Desc("gauge", "indices.store.size_in_bytes", NoXform),
    "elasticsearch.indexing.index.total" := Desc("gauge", "indices.indexing.index_total", NoXform),
    "elasticsearch.indexing.index.time" := Desc("gauge", "indices.indexing.index_time_in_millis", Div1000),
    "elasticsearch.indexing.index.current" := Desc("gauge", "indices.indexing.index_current", NoXform),
    "elasticsearch.indexing.delete.total" := Desc("gauge", "indices.indexing.delete_total", NoXform),
    "elasticsearch.indexing.delete.time" := Desc("gauge", "indices.indexing.delete_time_in_millis", Div1000),
    "elasticsearch.indexing.delete.current" := Desc("gauge", "indices.indexing.delete_current", NoXform),
    "elasticsearch.get.total" := Desc("gauge", "indices.get.total", NoXform),
    "elasticsearch.get.time" := Desc("gauge", "indices.get.time_in_millis", Div1000),
    "elasticsearch.get.current" := Desc("gauge", "indices.get.current", NoXform),
    "elasticsearch.get.exists.total" := Desc("gauge", "indices.get.exists_total", NoXform),
    "elasticsearch.get.exists.time" := Desc("gauge", "indices.get.exists_time_in_millis", Div1000),
    "elasticsearch.get.missing.total" := Desc("gauge", "indices.get.missing_total", NoXform),
    "elasticsearch.get.missing.time" := Desc("gauge", "indices.get.missing_time_in_millis", Div1000),
    "elasticsearch.search.query.total" := Desc("gauge", "indices.search.query_total", NoXform),
    "elasticsearch.search.query.time" := Desc("gauge", "indices.search.query_time_in_millis", Div1000),
    "elasticsearch.search.query.current" := Desc("gauge", "indices.search.query_current", NoXform),
    "elasticsearch.search.fetch.total" := Desc("gauge", "indices.search.fetch_total", NoXform),
    "elasticsearch.search.fetch.time" := Desc("gauge", "indices.search.fetch_time_in_millis", Div1000),
    "elasticsearch.search.fetch.current" := Desc("gauge", "indices.search.fetch_current", NoXform),
    "elasticsearch.indices.segments.count" := Desc("gauge", "indices.segments.count", NoXform),
    "elasticsearch.indices.segments.memory_in_bytes" := Desc("gauge", "indices.segments.memory_in_bytes", NoXform),
    "elasticsearch.merges.current" := Desc("gauge", "indices.merges.current", NoXform),
    "elasticsearch.merges.current.docs" := Desc("gauge", "indices.merges.current_docs", NoXform),
    "elasticsearch.merges.current.size" := Desc("gauge", "indices.merges.current_size_in_bytes", NoXform),
    "elasticsearch.merges.total" := Desc("gauge", "indices.merges.total", NoXform),
    "elasticsearch.merges.total.time" := Desc("gauge", "indices.merges.total_time_in_millis", Div1000),
    "elasticsearch.merges.total.docs" := Desc("gauge", "indices.merges.total_docs", NoXform),
    "elasticsearch.merges.total.size" := Desc("gauge", "indices.merges.total_size_in_bytes", NoXform),
    "elasticsearch.refresh.total" := Desc("gauge", "indices.refresh.total", NoXform),
    "elasticsearch.refresh.total.time" := Desc("gauge", "indices.refresh.total_time_in_millis", Div1000),
    "elasticsearch.flush.total" := Desc("gauge", "indices.flush.total", NoXform),
    "elasticsearch.flush.total.time" := Desc("gauge", "indices.flush.total_time_in_millis", Div1000),
    "elasticsearch.process.open_fd" := Desc("gauge", "process.open_file_descriptors", NoXform),
    "elasticsearch.transport.rx_count" := Desc("gauge", "transport.rx_count", NoXform),
    "elasticsearch.transport.tx_count" := Desc("gauge", "transport.tx_count", NoXform),
    "elasticsearch.transport.rx_size" := Desc("gauge", "transport.rx_size_in_bytes", NoXform),
    "elasticsearch.transport.tx_size" := Desc("gauge", "transport.tx_size_in_bytes", NoXform),
    "elasticsearch.transport.server_open" := Desc("gauge", "transport.server_open", NoXform),
    "elasticsearch.thread_pool.bulk.active" := Desc("gauge", "thread_pool.bulk.active", NoXform),
    "elasticsearch.thread_pool.bulk.threads" := Desc("gauge", "thread_pool.bulk.threads", NoXform),
    "elasticsearch.thread_pool.bulk.queue" := Desc("gauge", "thread_pool.bulk.queue", NoXform),
    "elasticsearch.thread_pool.bulk.rejected" := Desc("gauge", "thread_pool.bulk.rejected", NoXform),
    "elasticsearch.thread_pool.flush.active" := Desc("gauge", "thread_pool.flush.active", NoXform),
    "elasticsearch.thread_pool.flush.threads" := Desc("gauge", "thread_pool.flush.threads", NoXform),
    "elasticsearch.thread_pool.flush.queue" := Desc("gauge", "thread_pool.flush.queue", NoXform),
    "elasticsearch.thread_pool.generic.active" := Desc("gauge", "thread_pool.generic.active", NoXform),
    "elasticsearch.thread_pool.generic.threads" := Desc("gauge", "thread_pool.generic.threads", NoXform),
    "elasticsearch.thread_pool.generic.queue" := Desc("gauge", "thread_pool.generic.queue", NoXform),
    "elasticsearch.thread_pool.get.active" := Desc("gauge", "thread_pool.get.active", NoXform),
    "elasticsearch.thread_pool.get.threads" := Desc("gauge", "thread_pool.get.threads", NoXform),
    "elasticsearch.thread_pool.get.queue" := Desc("gauge", "thread_pool.get.queue", NoXform),
    "elasticsearch.thread_pool.index.active" := Desc("gauge", "thread_pool.index.active", NoXform),
    "elasticsearch.thread_pool.index.threads" := Desc("gauge", "thread_pool.index.threads", NoXform),
    "elasticsearch.thread_pool.index.queue" := Desc("gauge", "thread_pool.index.queue", NoXform),
    "elasticsearch.thread_pool.management.active" := Desc("gauge", "thread_pool.management.active", NoXform),
    "elasticsearch.thread_pool.management.threads" := Desc("gauge", "thread_pool.management.threads", NoXform),
    "elasticsearch.thread_pool.management.queue" := Desc("gauge", "thread_pool.management.queue", NoXform),
    "elasticsearch.thread_pool.percolate.active" := Desc("gauge", "thread_pool.percolate.active", NoXform),
    "elasticsearch.thread_pool.percolate.threads" := Desc("gauge", "thread_pool.percolate.threads", NoXform),
    "elasticsearch.thread_pool.percolate.queue" := Desc("gauge", "thread_pool.percolate.queue", NoXform),
    "elasticsearch.thread_pool.refresh.active" := Desc("gauge", "thread_pool.refresh.active", NoXform),
    "elasticsearch.thread_pool.refresh.threads" := Desc("gauge", "thread_pool.refresh.threads", NoXform),
    "elasticsearch.thread_pool.refresh.queue" := Desc("gauge", "thread_pool.refresh.queue", NoXform),
    "elasticsearch.thread_pool.search.active" := Desc("gauge", "thread_pool.search.active", NoXform),
    "elasticsearch.thread_pool.search.threads" := Desc("gauge", "thread_pool.search.threads", NoXform),
    "elasticsearch.thread_pool.search.queue" := Desc("gauge", "thread_pool.search.queue", NoXform),
    "elasticsearch.thread_pool.snapshot.active" := Desc("gauge", "thread_pool.snapshot.active", NoXform),
    "elasticsearch.thread_pool.snapshot.threads" := Desc("gauge", "thread_pool.snapshot.threads", NoXform),
    "elasticsearch.thread_pool.snapshot.queue" := Desc("gauge", "thread_pool.snapshot.queue", NoXform),
    "elasticsearch.http.current_open" := Desc("gauge", "http.current_open", NoXform),
    "elasticsearch.http.total_opened" := Desc("gauge", "http.total_opened", NoXform),
    "jvm.mem.heap_committed" := Desc("gauge", "jvm.mem.heap_committed_in_bytes", NoXform),
    "jvm.mem.heap_used" := Desc("gauge", "jvm.mem.heap_used_in_bytes", NoXform),
    "jvm.mem.heap_in_use" := Desc("gauge", "jvm.mem.heap_used_percent", NoXform),
    "jvm.mem.heap_max" := Desc("gauge", "jvm.mem.heap_max_in_bytes", NoXform),
    "jvm.mem.non_heap_committed" := Desc("gauge", "jvm.mem.non_heap_committed_in_bytes", NoXform),
    "jvm.mem.non_heap_used" := Desc("gauge", "jvm.mem.non_heap_used_in_bytes", NoXform),
    "jvm.threads.count" := Desc("gauge", "jvm.threads.count", NoXform),
    "jvm.threads.peak_count" := Desc("gauge", "jvm.threads.peak_count", NoXform),
    "elasticsearch.fs.total.total_in_bytes" := Desc("gauge", "fs.total.total_in_bytes", NoXform),
    "elasticsearch.fs.total.free_in_bytes" := Desc("gauge", "fs.total.free_in_bytes", NoXform),
    "elasticsearch.fs.total.available_in_bytes" := Desc("gauge", "fs.total.available_in_bytes", NoXform),
    "elasticsearch.pending_tasks_total" := Desc("gauge", "pending_task_total", NoXform),
    "elasticsearch.pending_tasks_priority_high" := Desc("gauge", "pending_tasks_priority_high", NoXform),
    "elasticsearch.pending_tasks_priority_urgent" := Desc("gauge", "pending_tasks_priority_urgent", NoXform)
  ]

  /** `PRIMARY_SHARD_METRICS` (elastic.py:118-151) */
  const PrimaryShardMetrics: map<string, Desc> := map[
    "elasticsearch.primaries.docs.count" := Desc("gauge", "_all.primaries.docs.count", NoXform),
    "elasticsearch.primaries.docs.deleted" := Desc("gauge", "_all.primaries.docs.deleted", NoXform),
    "elasticsearch.primaries.store.size" := Desc("gauge", "_all.primaries.store.size_in_bytes", NoXform),
    "elasticsearch.primaries.indexing.index.total" := Desc("gauge", "_all.primaries.indexing.index_total", NoXform),
    "elasticsearch.primaries.indexing.index.time" := Desc("gauge", "_all.primaries.indexing.index_time_in_millis", Div1000),
    "elasticsearch.primaries.indexing.index.current" := Desc("gauge", "_all.primaries.indexing.index_current", NoXform),
    "elasticsearch.primaries.indexing.delete.total" := Desc("gauge", "_all.primaries.indexing.delete_total", NoXform),
    "elasticsearch.primaries.indexing.delete.time" := Desc("gauge", "_all.primaries.indexing.delete_time_in_millis", Div1000),
    "elasticsearch.primaries.indexing.delete.current" := Desc("gauge", "_all.primaries.indexing.delete_current", NoXform),
    "elasticsearch.primaries.get.total" := Desc("gauge", "_all.primaries.get.total", NoXform),
    "elasticsearch.primaries.get.time" := Desc("gauge", "_all.primaries.get.time_in_millis", Div1000),
    "elasticsearch.primaries.get.current" := Desc("gauge", "_all.primaries.get.current", NoXform),
    "elasticsearch.primaries.get.exists.total" := Desc("gauge", "_all.primaries.get.exists_total", NoXform),
    "elasticsearch.primaries.get.exists.time" := Desc("gauge", "_all.primaries.get.exists_time_in_millis", Div1000),
    "elasticsearch.primaries.get.missing.total" := Desc("gauge", "_all.primaries.get.missing_total", NoXform),
    "elasticsearch.primaries.get.missing.time" := Desc("gauge", "_all.primaries.get.missing_time_in_millis", Div1000),
    "elasticsearch.primaries.search.query.total" := Desc("gauge", "_all.primaries.search.query_total", NoXform),
    "elasticsearch.primaries.search.query.time" := Desc("gauge", "_all.primaries.search.query_time_in_millis", Div1000),
    "elasticsearch.primaries.search.query.current" := Desc("gauge", "_all.primaries.search.query_current", NoXform),
    "elasticsearch.primaries.search.fetch.total" := Desc("gauge", "_all.primaries.search.fetch_total", NoXform),
    "elasticsearch.primaries.search.fetch.time" := Desc("gauge", "_all.primaries.search.fetch_time_in_millis", Div1000),
    "elasticsearch.primaries.search.fetch.current" := Desc("gauge", "_all.primaries.search.fetch_current", NoXform),
    "elasticsearch.number_of_nodes" := Desc("gauge", "number_of_nodes", NoXform),
    "elasticsearch.number_of_data_nodes" := Desc("gauge", "number_of_data_nodes", NoXform),
    "elasticsearch.active_primary_shards" := Desc("gauge", "active_primary_shards", NoXform),
    "elasticsearch.active_shards" := Desc("gauge", "active_shards", NoXform),
    "elasticsearch.relocating_shards" := Desc("gauge", "relocating_shards", NoXform),
    "elasticsearch.initializing_shards" := Desc("gauge", "initializing_shards", NoXform),
    "elasticsearch.unassigned_shards" := Desc("gauge", "unassigned_shards", NoXform),
    "elasticsearch.cluster_status" := Desc("gauge", "status", StatusCode)
  ]

  /** `PRIMARY_SHARD_METRICS_POST_1_0` (elastic.py:153-165) */
  const PrimaryShardMetricsPost1_0: map<string, Desc> := map[
    "elasticsearch.primaries.merges.current" := Desc("gauge", "_all.primaries.merges.current", NoXform),
    "elasticsearch.primaries.merges.current.docs" := Desc("gauge", "_all.primaries.merges.current_docs", NoXform),
    "elasticsearch.primaries.merges.current.size" := Desc("gauge", "_all.primaries.merges.current_size_in_bytes", NoXform),
    "elasticsearch.primaries.merges.total" := Desc("gauge", "_all.primaries.merges.total", NoXform),
    "elasticsearch.primaries.merges.total.time" := Desc("gauge", "_all.primaries.merges.total_time_in_millis", Div1000),
    "elasticsearch.primaries.merges.total.docs" := Desc("gauge", "_all.primaries.merges.total_docs", NoXform),
    "elasticsearch.primaries.merges.total.size" := Desc("gauge", "_all.primaries.merges.total_size_in_bytes", NoXform),
    "elasticsearch.primaries.refresh.total" := Desc("gauge", "_all.primaries.refresh.total", NoXform),
    "elasticsearch.primaries.refresh.total.time" := Desc("gauge", "_all.primaries.refresh.total_time_in_millis", Div1000),
    "elasticsearch.primaries.flush.total" := Desc("gauge", "_all.primaries.flush.total", NoXform),
    "elasticsearch.primaries.flush.total.time" := Desc("gauge", "_all.primaries.flush.total_time_in_millis", Div1000)
  ]

  /** `JVM_METRICS_POST_0_90_10` (elastic.py:167-173) */
  const JvmMetricsPost0_90_10: map<string, Desc> := map[
    "jvm.gc.collectors.young.count" := Desc("gauge", "jvm.gc.collectors.young.collection_count", NoXform),
    "jvm.gc.collectors.young.collection_time" := Desc("gauge", "jvm.gc.collectors.young.collection_time_in_millis", Div1000),
    "jvm.gc.collectors.old.count" := Desc("gauge", "jvm.gc.collectors.old.collection_count", NoXform),
    "jvm.gc.collectors.old.collection_time" := Desc("gauge", "jvm.gc.collectors.old.collection_time_in_millis", Div1000)
  ]

  /** `JVM_METRICS_PRE_0_90_10` (elastic.py:175-183) */
  const JvmMetricsPre0_90_10: map<string, Desc> := map[
    "jvm.gc.concurrent_mark_sweep.count" := Desc("gauge", "jvm.gc.collectors.ConcurrentMarkSweep.collection_count", NoXform),
    "jvm.gc.concurrent_mark_sweep.collection_time" := Desc("gauge", "jvm.gc.collectors.ConcurrentMarkSweep.collection_time_in_millis", Div1000),
    "jvm.gc.par_new.count" := Desc("gauge", "jvm.gc.collectors.ParNew.collection_count", NoXform),
    "jvm.gc.par_new.collection_time" := Desc("gauge", "jvm.gc.collectors.ParNew.collection_time_in_millis", Div1000),
    "jvm.gc.collection_count" := Desc("gauge", "jvm.gc.collection_count", NoXform),
    "jvm.gc.collection_time" := Desc("gauge", "jvm.gc.collection_time_in_millis", Div1000)
  ]

  /** `ADDITIONAL_METRICS_POST_0_90_5` (elastic.py:185-189) */
  const AdditionalPost0_90_5: map<string, Desc> := map[
    "elasticsearch.search.fetch.open_contexts" := Desc("gauge", "indices.search.open_contexts", NoXform),
    "elasticsearch.fielddata.size" := Desc("gauge", "indices.fielddata.memory_size_in_bytes", NoXform),
    "elasticsearch.fielddata.evictions" := Desc("gauge", "indices.fielddata.evictions", NoXform)
  ]

  /** `ADDITIONAL_METRICS_POST_0_90_5_PRE_2_0` (elastic.py:191-195) */
  const AdditionalPost0_90_5Pre2_0: map<string, Desc> := map[
    "elasticsearch.cache.filter.evictions" := Desc("gauge", "indices.filter_cache.evictions", NoXform),
    "elasticsearch.cache.filter.size" := Desc("gauge", "indices.filter_cache.memory_size_in_bytes", NoXform),
    "elasticsearch.id_cache.size" := Desc("gauge", "indices.id_cache.memory_size_in_bytes", NoXform)
  ]

  /** `ADDITIONAL_METRICS_PRE_0_90_5` (elastic.py:197-203) */
  const AdditionalPre0_90_5: map<string, Desc> := map[
    "elasticsearch.cache.field.evictions" := Desc("gauge", "indices.cache.field_evictions", NoXform),
    "elasticsearch.cache.field.size" := Desc("gauge", "indices.cache.field_size_in_bytes", NoXform),
    "elasticsearch.cache.filter.count" := Desc("gauge", "indices.cache.filter_count", NoXform),
    "elasticsearch.cache.filter.evictions" := Desc("gauge", "indices.cache.filter_evictions", NoXform),
    "elasticsearch.cache.filter.size" := Desc("gauge", "indices.cache.filter_size_in_bytes", NoXform)
  ]

  /** `ADDITIONAL_METRICS_POST_1_0_0` (elastic.py:205-208) */
  const AdditionalPost1_0_0: map<string, Desc> := map[
    "elasticsearch.indices.translog.size_in_bytes" := Desc("gauge", "indices.translog.size_in_bytes", NoXform),
    "elasticsearch.indices.translog.operations" := Desc("gauge", "indices.translog.operations", NoXform)
  ]

  /** `ADDITIONAL_METRICS_1_x` (elastic.py:210-217) */
  const Additional1_x: map<string, Desc> := map[
    "elasticsearch.fs.total.disk_reads" := Desc("rate", "fs.total.disk_reads", NoXform),
    "elasticsearch.fs.total.disk_writes" := Desc("rate", "fs.total.disk_writes", NoXform),
    "elasticsearch.fs.total.disk_io_op" := Desc("rate", "fs.total.disk_io_op", NoXform),
    "elasticsearch.fs.total.disk_read_size_in_bytes" := Desc("gauge", "fs.total.disk_read_size_in_bytes", NoXform),
    "elasticsearch.fs.total.disk_write_size_in_bytes" := Desc("gauge", "fs.total.disk_write_size_in_bytes", NoXform),
    "elasticsearch.fs.total.disk_io_size_in_bytes" := Desc("gauge", "fs.total.disk_io_size_in_bytes", NoXform)
  ]

  /** `ADDITIONAL_METRICS_POST_1_3_0` (elastic.py:219-224) */
  const AdditionalPost1_3_0: map<string, Desc> := map[
    "elasticsearch.indices.segments.index_writer_memory_in_bytes" := Desc("gauge", "indices.segments.index_writer_memory_in_bytes", NoXform),
    "elasticsearch.indices.segments.version_map_memory_in_bytes" := Desc("gauge", "indices.segments.version_map_memory_in_bytes", NoXform)
  ]

  /** `ADDITIONAL_METRICS_POST_1_4_0` (elastic.py:226-231) */
  const AdditionalPost1_4_0: map<string, Desc> := map[
    "elasticsearch.indices.segments.index_writer_max_memory_in_bytes" := Desc("gauge", "indices.segments.index_writer_max_memory_in_bytes", NoXform),
    "elasticsearch.indices.segments.fixed_bit_set_memory_in_bytes" := Desc("gauge", "indices.segments.fixed_bit_set_memory_in_bytes", NoXform)
  ]

  /** `ADDITIONAL_METRICS_PRE_2_0` (elastic.py:233-237) */
  const AdditionalPre2_0: map<string, Desc> := map[
    "elasticsearch.thread_pool.merge.active" := Desc("gauge", "thread_pool.merge.active", NoXform),
    "elasticsearch.thread_pool.merge.threads" := Desc("gauge", "thread_pool.merge.threads", NoXform),
    "elasticsearch.thread_pool.merge.queue" := Desc("gauge", "thread_pool.merge.queue", NoXform)
  ]

  /** `CLUSTER_PENDING_TASKS` (elastic.py:239-243) */
  const ClusterPendingTasks: map<string, Desc> := map[
    "elasticsearch.pending_tasks_total" := Desc("gauge", "pending_task_total", NoXform),
    "elasticsearch.pending_tasks_priority_high" := Desc("gauge", "pending_tasks_priority_high", NoXform),
    "elasticsearch.pending_tasks_priority_urgent" := Desc("gauge", "pending_tasks_priority_urgent", NoXform)
  ]

  /** `m.update(t)` for every table in turn: a later table's entry replaces an earlier one. */
  function Applied(m: map<string, Desc>, tables: seq<map<string, Desc>>): map<string, Desc>
  {
    if tables == [] then m else Applied(m, tables[..|tables| - 1]) + tables[|tables| - 1]
  }

  /** The keys of the given tables. */
  function KeysOf(tables: seq<map<string, Desc>>): set<string>
  {
    if tables == [] then {} else KeysOf(tables[..|tables| - 1]) + tables[|tables| - 1].Keys
  }

  /** The module-level tables `_define_params` chooses from. */
  datatype MetricTables = MetricTables(
    primaryShard: map<string, Desc>, primaryShardPost1_0: map<string, Desc>,
    jvmPost0_90_10: map<string, Desc>, jvmPre0_90_10: map<string, Desc>,
    post0_90_5: map<string, Desc>, post0_90_5Pre2_0: map<string, Desc>, pre0_90_5: map<string, Desc>,
    post1_0_0: map<string, Desc>, only1_x: map<string, Desc>,
    post1_3_0: map<string, Desc>, post1_4_0: map<string, Desc>, pre2_0: map<string, Desc>)

  /** The tables as elastic.py defines them. */
  const Tables := MetricTables(
    PrimaryShardMetrics, PrimaryShardMetricsPost1_0,
    JvmMetricsPost0_90_10, JvmMetricsPre0_90_10,
    AdditionalPost0_90_5, AdditionalPost0_90_5Pre2_0, AdditionalPre0_90_5,
    AdditionalPost1_0_0, Additional1_x,
    AdditionalPost1_3_0, AdditionalPost1_4_0, AdditionalPre2_0)

  /** The outcomes of the version tests `_define_params` makes to choose its tables. */
  datatype Gates = Gates(post0_90_5: bool, post1_0_0: bool, pre2_0: bool, post1_3_0: bool, post1_4_0: bool)

  /** The version tests themselves: from 0.90.5, from 1.0.0, before 2.0.0, from 1.3.0, from 1.4.0. */
  function GatesOf(version: seq<int>): Gates
  {
    Gates(AtLeast(version, [0, 90, 5]), AtLeast(version, [1, 0, 0]), Below(version, [2, 0, 0]),
          AtLeast(version, [1, 3, 0]), AtLeast(version, [1, 4, 0]))
  }

  /** The tables `_define_params` merges, in the order it merges them. */
  function Updates(t: MetricTables, g: Gates): seq<map<string, Desc>>
  {
    ShardTables(t, g, VersionTables(t, g, [if g.post0_90_5 then t.post0_90_5 else t.pre0_90_5, t.jvmPost0_90_10]))
  }

  /** The tables merged so far, then those for versions from 1.0.0, before 2.0.0, and from 1.3.0 and 1.4.0. */
  function VersionTables(t: MetricTables, g: Gates, prefix: seq<map<string, Desc>>): seq<map<string, Desc>>
  {
    Pre2Tables(t, g, prefix + OnlyIf(g.post1_0_0, t.post1_0_0))
    + OnlyIf(g.post1_3_0, t.post1_3_0)
    + OnlyIf(g.post1_4_0, t.post1_4_0)
  }

  /** The tables merged so far, then the merges for versions before 2.0.0. */
  function Pre2Tables(t: MetricTables, g: Gates, prefix: seq<map<string, Desc>>): seq<map<string, Desc>>
  {
    if g.pre2_0 then
      prefix + [t.pre2_0]
      + OnlyIf(g.post0_90_5, t.post0_90_5Pre2_0)
      + OnlyIf(g.post1_0_0, t.only1_x)
    else prefix
  }

  /** The tables merged so far, then the primary-shard tables, the post-1.0 one from version 1.0.0 on. */
  function ShardTables(t: MetricTables, g: Gates, prefix: seq<map<string, Desc>>): seq<map<string, Desc>>
  {
    prefix + [t.primaryShard] + OnlyIf(g.post1_0_0, t.primaryShardPost1_0)
  }

  /** The table when the condition holds, nothing otherwise. */
  function OnlyIf(condition: bool, table: map<string, Desc>): seq<map<string, Desc>>
  {
    if condition then [table] else []
  }

  const HealthPath := "/_cluster/health?pretty=true"
  const NodesPath := "/_nodes?network=true"
  const TaskPath := "/_cluster/pending_tasks?pretty=true"

  /** `STATS_URL` as `_define_params` leaves it. */
  function StatsPath(version: seq<int>): string
  {
    if Below(version, [5, 0, 0]) then "/_nodes/stats?all=true" else "/_nodes/stats"
  }

  // ------------------------------------------------------------ value transforms

  /** `{"red": 0, "yellow": 1, "green": 2}.get(v, -1)`: a list or an object cannot be a key. */
  function StatusCodeOf(v: Json): (r: Result<int, ElasticError>)
    ensures r.Failure? <==> v.JList? || v.JDict?
    ensures r.Failure? ==> r.error == TypeError
    ensures r == Success(0) <==> v == JStr("red")
    ensures r == Success(1) <==> v == JStr("yellow")
    ensures r == Success(2) <==> v == JStr("green")
    ensures r == Success(-1) <==> !v.JList? && !v.JDict? && v !in {JStr("red"), JStr("yellow"), JStr("green")}
  {
    var codes := map["red" := 0, "yellow" := 1, "green" := 2];
    if v.JList? || v.JDict? then Failure(TypeError)
    else if v.JStr? && v.s in codes then Success(codes[v.s])
    else Success(-1)
  }

  /**
   * `float(v) / 1000` of a number; `float` of a list, an object or null
   * raises `TypeError`, and of a string `ValueError` (see the README).
   */
  function Thousandth(v: Json): (r: Result<Json, ElasticError>)
    ensures r.Success? <==> IsNumber(v)
    ensures r.Success? ==> r.value == JNum(NumberValue(v) / 1000.0)
  {
    if IsNumber(v) then Success(JNum(NumberValue(v) / 1000.0))
    else if v.JStr? then Failure(ValueError)
    else Failure(TypeError)
  }

  /** `xform(value)` when the entry has a transform. */
  function Apply(x: Xform, v: Json): Result<Json, ElasticError>
  {
    match x
    case NoXform => Success(v)
    case Div1000 => Thousandth(v)
    case StatusCode =>
      match StatusCodeOf(v)
      case Failure(e) => Failure(e)
      case Success(c) => Success(JNum(c as real))
  }

  // ------------------------------------------------------------ _process_metric

  /** `value.get(key, None)` on an object; a missing key and a null value both read as `None`. */
  function Get(value: Json, key: string): Json
    requires value.JDict?
  {
    match Config.Get(value.entries, key)
    case None => JNull
    case Some(v) => v
  }

  /**
   * The walk of `_process_metric` along the keys of a path: `None` (null)
   * once a key is missing, and `AttributeError` on reaching something that
   * is neither an object nor `None` with keys left.
   */
  function PathValue(value: Json, keys: seq<string>): Result<Json, ElasticError>
    decreases |keys|
  {
    if keys == [] then Success(value)
    else if value.JNull? then Success(JNull)
    else if value.JDict? then PathValue(Get(value, keys[0]), keys[1..])
    else Failure(AttributeError)
  }

  /**
   * What `_process_metric(data, metric, path, xform)` does: nothing (the
   * metric is not found) when the walk ends at `None`; otherwise the value,
   * transformed, goes out once, as a gauge when the metric's entry in
   * `METRICS` says "gauge" and as a rate otherwise.
   */
  function MetricOutcome(metrics: map<string, Desc>, data: Json, metric: string, path: string, x: Xform)
    : (r: Result<Option<Sample>, ElasticError>)
    ensures r == Success(None) <==> PathValue(data, Text.SplitOn(path, '.')) == Success(JNull)
    ensures r.Success? && r.value.Some? ==>
      && metric in metrics
      && r.value.value.name == metric
      && (r.value.value.kind == GaugeKind <==> metrics[metric].xtype == "gauge")
      && PathValue(data, Text.SplitOn(path, '.')).Success?
      && Apply(x, PathValue(data, Text.SplitOn(path, '.')).value) == Success(r.value.value.value)
  {
    match PathValue(data, Text.SplitOn(path, '.'))
    case Failure(e) => Failure(e)
    case Success(v) =>
      if v.JNull? then Success(None)
      else
        match Apply(x, v)
        case Failure(e) => Failure(e)
        case Success(w) =>
          if metric !in metrics then Failure(KeyError)
          else Success(Some(Sample(if metrics[metric].xtype == "gauge" then GaugeKind else RateKind, metric, w)))
  }

  /** Walking a path is walking its first part, then the rest from where that ends. */
  lemma {:induction false} PathComposes(value: Json, p: seq<string>, q: seq<string>)
    ensures PathValue(value, p + q) ==
      match PathValue(value, p)
      case Failure(e) => Failure(e)
      case Success(w) => PathValue(w, q)
    decreases |p|
  {
    if p == [] {
      assert p + q == q;
    } else if !value.JNull? && value.JDict? {
      assert (p + q)[1..] == p[1..] + q;
      PathComposes(Get(value, p[0]), p[1..], q);
    } else if value.JNull? {
      NullStays(q);
    }
  }

  /** Once the walk has reached `None`, it stays there. */
  lemma NullStays(keys: seq<string>)
    ensures PathValue(JNull, keys) == Success(JNull)
  {
  }

  /** A key missing from an object on the way ends the walk at `None`: the metric is not found. */
  lemma MissingKeyNotFound(metrics: map<string, Desc>, data: Json, metric: string, path: string, x: Xform, i: nat)
    requires i < |Text.SplitOn(path, '.')|
    requires var keys := Text.SplitOn(path, '.');
      && PathValue(data, keys[..i]).Success? && PathValue(data, keys[..i]).value.JDict?
      && Config.Get(PathValue(data, keys[..i]).value.entries, keys[i]).None?
    ensures MetricOutcome(metrics, data, metric, path, x) == Success(None)
  {
    var keys := Text.SplitOn(path, '.');
    assert keys == keys[..i] + keys[i..];
    PathComposes(data, keys[..i], keys[i..]);
    var d := PathValue(data, keys[..i]).value;
    assert PathValue(d, keys[i..]) == PathValue(JNull, keys[i + 1..]);
    NullStays(keys[i + 1..]);
  }

  // ------------------------------------------------------------ _process_task_data

  /**
   * The tasks `for task in data.get('tasks', [])` visits: the items of a
   * list, the keys of an object, the characters of a string; `data` must be
   * an object.
   */
  function TaskList(data: Json): Result<seq<Json>, ElasticError>
  {
    if !data.JDict? then Failure(AttributeError)
    else
      var tasks: Option<Json> := Config.Get(data.entries, "tasks");
      if tasks.None? then Success([])
      else
        match tasks.value
        case JList(items) => Success(items)
        case JDict(entries) => Success(seq(|entries|, i requires 0 <= i < |entries| => JStr(entries[i].0)))
        case JStr(s) => Success(seq(|s|, i requires 0 <= i < |s| => JStr([s[i]])))
        case _ => Failure(TypeError)
  }

  /** `task.get('priority')` as a key of `p_tasks`: a list or an object cannot be one. */
  function Priority(task: Json): Result<Json, ElasticError>
  {
    if !task.JDict? then Failure(AttributeError)
    else
      var p := Get(task, "priority");
      if p.JList? || p.JDict? then Failure(TypeError) else Success(p)
  }

  /** `p_tasks` after the given tasks: how many tasks have each priority. */
  function Priorities(tasks: seq<Json>): Result<multiset<Json>, ElasticError>
  {
    if tasks == [] then Success(multiset{})
    else
      match Priorities(tasks[..|tasks| - 1])
      case Failure(e) => Failure(e)
      case Success(p) =>
        match Priority(tasks[|tasks| - 1])
        case Failure(e) => Failure(e)
        case Success(q) => Success(p + multiset{q})
  }

  /** The number of tasks with the given priority. */
  function CountWith(tasks: seq<Json>, priority: Json): nat
  {
    if tasks == [] then 0
    else CountWith(tasks[..|tasks| - 1], priority) + (if Priority(tasks[|tasks| - 1]) == Success(priority) then 1 else 0)
  }

  /** `node_data`: `sum(p_tasks.values())`, `p_tasks['high']` and `p_tasks['urgent']`. */
  function NodeData(p: multiset<Json>): Json
  {
    JDict([("pending_task_total", JNum(|p| as real)),
           ("pending_tasks_priority_high", JNum(p[JStr("high")] as real)),
           ("pending_tasks_priority_urgent", JNum(p[JStr("urgent")] as real))])
  }

  /** `node_data` for a pending-tasks document. */
  function PendingData(data: Json): Result<Json, ElasticError>
  {
    match TaskList(data)
    case Failure(e) => Failure(e)
    case Success(tasks) =>
      match Priorities(tasks)
      case Failure(e) => Failure(e)
      case Success(p) => Success(NodeData(p))
  }

  /** Counting by priority counts every task once, under its own priority. */
  lemma {:induction false} PrioritiesCount(tasks: seq<Json>, priority: Json)
    requires Priorities(tasks).Success?
    ensures |Priorities(tasks).value| == |tasks|
    ensures Priorities(tasks).value[priority] == CountWith(tasks, priority)
  {
    if tasks != [] {
      PrioritiesCount(tasks[..|tasks| - 1], priority);
    }
  }

  /** The pending total is the number of tasks; the `high` and `urgent` counts are those of the tasks with that priority, 0 when there are none. */
  lemma PendingCounts(data: Json)
    requires PendingData(data).Success?
    ensures var tasks := TaskList(data).value;
      PendingData(data).value == JDict([
        ("pending_task_total", JNum(|tasks| as real)),
        ("pending_tasks_priority_high", JNum(CountWith(tasks, JStr("high")) as real)),
        ("pending_tasks_priority_urgent", JNum(CountWith(tasks, JStr("urgent")) as real))])
  {
    var tasks := TaskList(data).value;
    PrioritiesCount(tasks, JStr("high"));
    PrioritiesCount(tasks, JStr("urgent"));
  }

  /** Once a task has failed, the whole count fails with the same exception. */
  lemma {:induction false} PrioritiesFail(tasks: seq<Json>, i: nat)
    requires i <= |tasks| && Priorities(tasks[..i]).Failure?
    ensures Priorities(tasks) == Priorities(tasks[..i])
  {
    var n := |tasks| - 1;
    if i <= n {
      assert tasks[..n][..i] == tasks[..i];
      PrioritiesFail(tasks[..n], i);
    } else {
      assert tasks[..i] == tasks;
    }
  }

  /** The samples `_process_metric` sends for the three pending-task metrics, when `METRICS` lists them as gauges. */
  lemma PendingSamples(metrics: map<string, Desc>, data: Json)
    requires PendingData(data).Success?
    requires forall k :: k in ClusterPendingTasks ==> k in metrics && metrics[k].xtype == "gauge"
    ensures var nodeData, tasks := PendingData(data).value, TaskList(data).value;
      && MetricOutcome(metrics, nodeData, "elasticsearch.pending_tasks_total", "pending_task_total", NoXform)
         == Success(Some(Sample(GaugeKind, "elasticsearch.pending_tasks_total", JNum(|tasks| as real))))
      && MetricOutcome(metrics, nodeData, "elasticsearch.pending_tasks_priority_high", "pending_tasks_priority_high", NoXform)
         == Success(Some(Sample(GaugeKind, "elasticsearch.pending_tasks_priority_high", JNum(CountWith(tasks, JStr("high")) as real))))
      && MetricOutcome(metrics, nodeData, "elasticsearch.pending_tasks_priority_urgent", "pending_tasks_priority_urgent", NoXform)
         == Success(Some(Sample(GaugeKind, "elasticsearch.pending_tasks_priority_urgent", JNum(CountWith(tasks, JStr("urgent")) as real))))
  {
    PendingCounts(data);
    var nodeData := PendingData(data).value;
    NodeDataFields(Priorities(TaskList(data).value).value);
    var total, high, urgent := "elasticsearch.pending_tasks_total", "elasticsearch.pending_tasks_priority_high",
      "elasticsearch.pending_tasks_priority_urgent";
    assert total in ClusterPendingTasks && high in ClusterPendingTasks && urgent in ClusterPendingTasks;
    TopLevelGauge(metrics, nodeData, total, "pending_task_total");
    TopLevelGauge(metrics, nodeData, high, "pending_tasks_priority_high");
    TopLevelGauge(metrics, nodeData, urgent, "pending_tasks_priority_urgent");
  }

  /** The three fields of `node_data`. */
  lemma NodeDataFields(p: multiset<Json>)
    ensures Config.Get(NodeData(p).entries, "pending_task_total") == Some(JNum(|p| as real))
    ensures Config.Get(NodeData(p).entries, "pending_tasks_priority_high") == Some(JNum(p[JStr("high")] as real))
    ensures Config.Get(NodeData(p).entries, "pending_tasks_priority_urgent") == Some(JNum(p[JStr("urgent")] as real))
  {
    var entries := NodeData(p).entries;
    assert entries[1..][1..] == [entries[2]];
    assert Config.Get(entries[1..][1..], "pending_tasks_priority_urgent") == Some(entries[2].1);
  }

  /** A metric whose path is a single key present in the document goes out as a gauge with that key's value. */
  lemma TopLevelGauge(metrics: map<string, Desc>, data: Json, metric: string, key: string)
    requires data.JDict? && '.' !in key
    requires Config.Get(data.entries, key).Some? && !Config.Get(data.entries, key).value.JNull?
    requires metric in metrics && metrics[metric].xtype == "gauge"
    ensures MetricOutcome(metrics, data, metric, key, NoXform) == Success(Some(Sample(GaugeKind, metric, Config.Get(data.entries, key).value)))
  {
    assert Text.SplitOn(key, '.') == [key];
    assert PathValue(data, [key]) == PathValue(Get(data, key), [key][1..]);
  }

  /** `METRICS` lists the pending-task metrics as gauges from the start. */
  lemma CommonMetricsListPendingTasks()
    ensures forall k :: k in ClusterPendingTasks ==> k in CommonMetrics && CommonMetrics[k].xtype == "gauge"
  {
  }

  // ------------------------------------------------------------ the check's state

  /**
   * The state of an `ElasticSearch` check: `METRICS` with the tables
   * `_define_params` merged into it, the URLs it chose (unset before its
   * first call), and `cluster_status` per configured URL.
   */
  class ElasticSearch {
    var metrics: map<string, Desc>
    var healthUrl: Option<string>
    var statsUrl: Option<string>
    var nodesUrl: Option<string>
    var taskUrl: Option<string>
    var clusterStatus: map<string, Json>

    /** `__init__`: the common metrics, no URL yet, no cluster status. */
    constructor ()
      ensures metrics == CommonMetrics && clusterStatus == map[]
      ensures healthUrl == None && statsUrl == None && nodesUrl == None && taskUrl == None
    {
      metrics := CommonMetrics;
      healthUrl, statsUrl, nodesUrl, taskUrl := None, None, None, None;
      clusterStatus := map[];
    }

    /** `self.METRICS.update(table)` */
    method Merge(table: map<string, Desc>, ghost start: map<string, Desc>, ghost done: seq<map<string, Desc>>)
      returns (ghost done': seq<map<string, Desc>>)
      requires metrics == Applied(start, done)
      modifies this
      ensures done' == done + [table] && metrics == Applied(start, done')
      ensures healthUrl == old(healthUrl) && statsUrl == old(statsUrl)
      ensures nodesUrl == old(nodesUrl) && taskUrl == old(taskUrl)
      ensures clusterStatus == old(clusterStatus)
    {
      metrics := metrics + table;
      done' := done + [table];
      assert done'[..|done'| - 1] == done;
    }

    /** `if condition: self.METRICS.update(table)` */
    method MergeIf(condition: bool, table: map<string, Desc>, ghost start: map<string, Desc>, ghost done: seq<map<string, Desc>>)
      returns (ghost done': seq<map<string, Desc>>)
      requires metrics == Applied(start, done)
      modifies this
      ensures done' == done + OnlyIf(condition, table) && metrics == Applied(start, done')
      ensures healthUrl == old(healthUrl) && statsUrl == old(statsUrl)
      ensures nodesUrl == old(nodesUrl) && taskUrl == old(taskUrl)
      ensures clusterStatus == old(clusterStatus)
    {
      if condition {
        done' := Merge(table, start, done);
      } else {
        done' := done;
        assert done' == done + [];
      }
    }

    /**
     * `_define_params(version)`: the tables chosen by the version tests are
     * merged into `METRICS` in order, and the URLs are those of the 0.90.10
     * layout, the stats URL losing its `?all=true` from version 5.0.0 on. The
     * module-level tables are passed in as `t`.
     */
    method DefineParams(version: seq<int>, t: MetricTables)
      modifies this
      ensures metrics == Applied(old(metrics), Updates(t, GatesOf(version)))
      ensures healthUrl == Some(HealthPath) && statsUrl == Some(StatsPath(version))
      ensures nodesUrl == Some(NodesPath) && taskUrl == Some(TaskPath)
      ensures clusterStatus == old(clusterStatus)
    {
      var g := GatesOf(version);
      ghost var start := metrics;
      ghost var done: seq<map<string, Desc>> := [];
      var additional := if g.post0_90_5 then t.post0_90_5 else t.pre0_90_5;
      done := Merge(additional, start, done);
      additional := DefineUrls(version, t);
      done := Merge(additional, start, done);
      assert done == [if g.post0_90_5 then t.post0_90_5 else t.pre0_90_5, t.jvmPost0_90_10];
      done := MergeVersionTables(t, g, start, done);
      done := Merge(t.primaryShard, start, done);
      done := MergeIf(g.post1_0_0, t.primaryShardPost1_0, start, done);
    }

    /** The merges of `_define_params` between the JVM table and the primary-shard tables. */
    method MergeVersionTables(t: MetricTables, g: Gates, ghost start: map<string, Desc>, ghost done: seq<map<string, Desc>>)
      returns (ghost done': seq<map<string, Desc>>)
      requires metrics == Applied(start, done)
      modifies this
      ensures done' == VersionTables(t, g, done) && metrics == Applied(start, done')
      ensures healthUrl == old(healthUrl) && statsUrl == old(statsUrl)
      ensures nodesUrl == old(nodesUrl) && taskUrl == old(taskUrl)
      ensures clusterStatus == old(clusterStatus)
    {
      done' := MergeIf(g.post1_0_0, t.post1_0_0, start, done);
      ghost var prefix := done';
      if g.pre2_0 {
        done' := Merge(t.pre2_0, start, done');
        done' := MergeIf(g.post0_90_5, t.post0_90_5Pre2_0, start, done');
        done' := MergeIf(g.post1_0_0, t.only1_x, start, done');
      }
      assert done' == Pre2Tables(t, g, prefix);
      done' := MergeIf(g.post1_3_0, t.post1_3_0, start, done');
      done' := MergeIf(g.post1_4_0, t.post1_4_0, start, done');
    }

    /**
     * The URL branches of `_define_params`: the pre-0.90.0 URLs and JVM table
     * chosen first are always replaced by those of the 0.90.10 layout.
     */
    method DefineUrls(version: seq<int>, t: MetricTables) returns (jvm: map<string, Desc>)
      modifies this
      ensures jvm == t.jvmPost0_90_10
      ensures healthUrl == Some(HealthPath) && statsUrl == Some(StatsPath(version))
      ensures nodesUrl == Some(NodesPath) && taskUrl == Some(TaskPath)
      ensures metrics == old(metrics) && clusterStatus == old(clusterStatus)
    {
      if AtMost(version, [0, 90, 0]) {
        healthUrl := Some("/_cluster/health?pretty=true");
        statsUrl := Some("/_cluster/nodes/stats?all=true");
        nodesUrl := Some("/_cluster/nodes?network=true");
        jvm := t.jvmPre0_90_10;
      }
      if Below(version, [5, 0, 0]) {
        healthUrl := Some("/_cluster/health?pretty=true");
        statsUrl := Some("/_nodes/stats?all=true");
        nodesUrl := Some("/_nodes?network=true");
        taskUrl := Some("/_cluster/pending_tasks?pretty=true");
        jvm := t.jvmPost0_90_10;
      } else {
        healthUrl := Some("/_cluster/health?pretty=true");
        statsUrl := Some("/_nodes/stats");
        nodesUrl := Some("/_nodes?network=true");
        taskUrl := Some("/_cluster/pending_tasks?pretty=true");
        jvm := t.jvmPost0_90_10;
      }
    }

    /** The outcome of `_process_metric` for the entry `k` of a table, with or without its transform. */
    function Outcome(data: Json, table: map<string, Desc>, k: string, withXform: bool): Result<Option<Sample>, ElasticError>
      reads this
      requires k in table
    {
      MetricOutcome(metrics, data, k, table[k].path, if withXform then table[k].xform else NoXform)
    }

    /**
     * What processing every entry of a table, in the dictionary's (unspecified)
     * order, may report: an exception only if some entry raises it; otherwise
     * exactly the samples of the entries that were found, one per entry.
     */
    predicate Reports(data: Json, table: map<string, Desc>, withXform: bool, r: Result<seq<Sample>, ElasticError>)
      reads this
    {
      && (r.Success? <==> forall k :: k in table ==> Outcome(data, table, k, withXform).Success?)
      && (r.Failure? ==> exists k :: k in table && Outcome(data, table, k, withXform) == Failure(r.error))
      && (r.Success? ==> forall s :: s in r.value ==>
            s.name in table && Outcome(data, table, s.name, withXform) == Success(Some(s)))
      && (r.Success? ==> forall k :: k in table && Outcome(data, table, k, withXform).Success? ==>
            Outcome(data, table, k, withXform).value.Some? ==> Outcome(data, table, k, withXform).value.value in r.value)
      && (r.Success? ==> forall i, j :: 0 <= i < j < |r.value| ==> r.value[i].name != r.value[j].name)
    }

    /** `_process_metric(data, metric, path, xform)` */
    method ProcessMetric(data: Json, metric: string, path: string, x: Xform) returns (r: Result<Option<Sample>, ElasticError>)
      ensures r == MetricOutcome(metrics, data, metric, path, x)
    {
      var value := data;
      var keys := Text.SplitOn(path, '.');
      var i := 0;
      while i < |keys| && !value.JNull?
        invariant i <= |keys|
        invariant PathValue(data, keys) == PathValue(value, keys[i..])
      {
        if !value.JDict? {
          return Failure(AttributeError);
        }
        assert keys[i..][1..] == keys[i + 1..];
        value := Get(value, keys[i]);
        i := i + 1;
      }
      if value.JNull? {
        NullStays(keys[i..]);
        return Success(None);
      }
      assert keys[i..] == [];
      if x != NoXform {
        var t := Apply(x, value);
        if t.Failure? {
          return Failure(t.error);
        }
        value := t.value;
      }
      if metric !in metrics {
        return Failure(KeyError);
      }
      var kind := if metrics[metric].xtype == "gauge" then GaugeKind else RateKind;
      return Success(Some(Sample(kind, metric, value)));
    }

    /** The loop over a table's entries, in no particular order, processing each with `_process_metric`. */
    method ProcessTable(data: Json, table: map<string, Desc>, withXform: bool) returns (r: Result<seq<Sample>, ElasticError>)
      ensures Reports(data, table, withXform, r)
    {
      var todo := table.Keys;
      var sent: seq<Sample> := [];
      while todo != {}
        invariant todo <= table.Keys
        invariant forall k :: k in table && k !in todo ==> Outcome(data, table, k, withXform).Success?
        invariant forall s :: s in sent ==>
          s.name in table && s.name !in todo && Outcome(data, table, s.name, withXform) == Success(Some(s))
        invariant forall k :: k in table && k !in todo ==>
          Outcome(data, table, k, withXform).value.Some? ==> Outcome(data, table, k, withXform).value.value in sent
        invariant forall i, j :: 0 <= i < j < |sent| ==> sent[i].name != sent[j].name
        decreases |todo|
      {
        var k :| k in todo;
        var desc := table[k];
        var o := ProcessMetric(data, k, desc.path, if withXform then desc.xform else NoXform);
        if o.Failure? {
          return Failure(o.error);
        }
        if o.value.Some? {
          sent := sent + [o.value.value];
        }
        todo := todo - {k};
      }
      return Success(sent);
    }

    /**
     * `_process_health_data(config_url, data)`: the URL's cluster status
     * becomes `data['status']`, and every entry of `METRICS` is processed
     * against the health document.
     */
    method ProcessHealthData(configUrl: string, data: Json) returns (r: Result<seq<Sample>, ElasticError>)
      modifies this
      ensures Status(data).Failure? ==> r == Failure(Status(data).error) && clusterStatus == old(clusterStatus)
      ensures Status(data).Success? ==> clusterStatus == old(clusterStatus)[configUrl := Status(data).value]
      ensures Status(data).Success? ==> Reports(data, metrics, true, r)
      ensures metrics == old(metrics) && healthUrl == old(healthUrl) && statsUrl == old(statsUrl)
      ensures nodesUrl == old(nodesUrl) && taskUrl == old(taskUrl)
    {
      var status := Status(data);
      if status.Failure? {
        return Failure(status.error);
      }
      if configUrl !in clusterStatus || clusterStatus[configUrl].JNull? {
        clusterStatus := clusterStatus[configUrl := status.value];
      }
      if status.value != clusterStatus[configUrl] {
        clusterStatus := clusterStatus[configUrl := status.value];
      }
      r := ProcessTable(data, metrics, true);
    }

    /**
     * `_process_task_data(data)`: the tasks are counted by priority, and the
     * `CLUSTER_PENDING_TASKS` entries are processed, without transforms,
     * against the counts.
     */
    method ProcessTaskData(data: Json) returns (r: Result<seq<Sample>, ElasticError>)
      ensures PendingData(data).Failure? ==> r == Failure(PendingData(data).error)
      ensures PendingData(data).Success? ==> Reports(PendingData(data).value, ClusterPendingTasks, false, r)
    {
      var tasks := TaskList(data);
      if tasks.Failure? {
        return Failure(tasks.error);
      }
      var pTasks: multiset<Json> := multiset{};
      for i := 0 to |tasks.value|
        invariant Priorities(tasks.value[..i]) == Success(pTasks)
      {
        assert tasks.value[..i + 1][..i] == tasks.value[..i];
        var p := Priority(tasks.value[i]);
        if p.Failure? {
          PrioritiesFail(tasks.value, i + 1);
          return Failure(p.error);
        }
        pTasks := pTasks + multiset{p.value};
      }
      assert tasks.value[..|tasks.value|] == tasks.value;
      var nodeData := NodeData(pTasks);
      r := ProcessTable(nodeData, ClusterPendingTasks, false);
    }
  }

  /** `data['status']`: `data` must be an object holding `status`. */
  function Status(data: Json): Result<Json, ElasticError>
  {
    if !data.JDict? then Failure(TypeError)
    else
      match Config.Get(data.entries, "status")
      case None => Failure(KeyError)
      case Some(v) => Success(v)
  }

  // ------------------------------------------------------------ properties of METRICS

  /** Merging tables never removes a key: the keys are the old ones and the tables' ones, and a key no table has keeps its entry. */
  lemma {:induction false} MetricsOnlyGrow(m: map<string, Desc>, tables: seq<map<string, Desc>>)
    ensures Applied(m, tables).Keys == m.Keys + KeysOf(tables)
    ensures forall k :: k in m && k !in KeysOf(tables) ==> Applied(m, tables)[k] == m[k]
  {
    if tables != [] {
      MetricsOnlyGrow(m, tables[..|tables| - 1]);
    }
  }

  /** Every merged table's keys are among the merged keys. */
  lemma {:induction false} MergedKeys(tables: seq<map<string, Desc>>, i: nat)
    requires i < |tables|
    ensures tables[i].Keys <= KeysOf(tables)
  {
    if i < |tables| - 1 {
      MergedKeys(tables[..|tables| - 1], i);
    }
  }

  /** After `_define_params`, every primary-shard key is in `METRICS`, and from version 1.0.0 on every post-1.0 primary-shard key too, with that table's entry. */
  lemma PrimaryShardMetricsPresent(m: map<string, Desc>, t: MetricTables, g: Gates)
    ensures t.primaryShard.Keys <= Applied(m, Updates(t, g)).Keys
    ensures g.post1_0_0 ==>
      forall k :: k in t.primaryShardPost1_0 ==>
        k in Applied(m, Updates(t, g)) && Applied(m, Updates(t, g))[k] == t.primaryShardPost1_0[k]
  {
    var tables := Updates(t, g);
    MetricsOnlyGrow(m, tables);
    var i := |tables| - 1 - |OnlyIf(g.post1_0_0, t.primaryShardPost1_0)|;
    assert tables[i] == t.primaryShard;
    MergedKeys(tables, i);
  }

  /** The last table holding a key decides its entry. */
  lemma {:induction false} LastHolderWins(m: map<string, Desc>, tables: seq<map<string, Desc>>, i: nat, k: string)
    requires i < |tables| && k in tables[i]
    requires forall j :: i < j < |tables| ==> k !in tables[j]
    ensures k in Applied(m, tables) && Applied(m, tables)[k] == tables[i][k]
  {
    if i < |tables| - 1 {
      LastHolderWins(m, tables[..|tables| - 1], i, k);
    }
  }

  /**
   * A primary-shard entry that the post-1.0 table does not override is in
   * `METRICS` after `_define_params`, whatever the version.
   */
  lemma PrimaryShardEntryKept(m: map<string, Desc>, t: MetricTables, g: Gates, k: string)
    requires k in t.primaryShard && k !in t.primaryShardPost1_0
    ensures k in Applied(m, Updates(t, g)) && Applied(m, Updates(t, g))[k] == t.primaryShard[k]
  {
    var tables := Updates(t, g);
    var i := |tables| - 1 - |OnlyIf(g.post1_0_0, t.primaryShardPost1_0)|;
    assert tables[i] == t.primaryShard;
    LastHolderWins(m, tables, i, k);
  }

  /** `PRIMARY_SHARD_METRICS` maps the cluster status through the lambda, and the post-1.0 table leaves it alone. */
  lemma ClusterStatusEntry()
    ensures "elasticsearch.cluster_status" in PrimaryShardMetrics
    ensures PrimaryShardMetrics["elasticsearch.cluster_status"] == Desc("gauge", "status", StatusCode)
    ensures "elasticsearch.cluster_status" !in PrimaryShardMetricsPost1_0
  {
  }

  /**
   * Whatever the version, after `_define_params` the cluster status metric
   * reads the `status` field through the `cluster_status` lambda.
   */
  lemma ClusterStatusMapped(m: map<string, Desc>, version: seq<int>)
    ensures "elasticsearch.cluster_status" in Applied(m, Updates(Tables, GatesOf(version)))
    ensures Applied(m, Updates(Tables, GatesOf(version)))["elasticsearch.cluster_status"] == Desc("gauge", "status", StatusCode)
  {
    ClusterStatusEntry();
    PrimaryShardEntryKept(m, Tables, GatesOf(version), "elasticsearch.cluster_status");
  }

  /** Up to version 0.90.0 the stats URL is still the 0.90.10 one: the older URLs chosen first are overwritten. */
  lemma OldUrlsOverwritten(version: seq<int>)
    requires AtMost(version, [0, 90, 0])
    ensures StatsPath(version) == "/_nodes/stats?all=true"
  {
    var old_, cutoff := [0, 90, 0], [5, 0, 0];
    assert Cmp(old_, cutoff) < 0;
    CmpTransitive(version, old_, cutoff);
    CmpAntisymmetric(version, cutoff);
  }
}

=== FILE: engine.dfy ===
/**
 * What `DynamicCheckHelper` computes, as values: the configuration
 * `__init__` records, the scopes and dimension tables it derives from
 * each instance's mapping, the group a metric resolves to, and the
 * measurements `push_metric` and `push_metric_dict` hand to the check.
 * The class in module CheckHelper is proved to compute these.
 */
module Engine {
  import opened Wrappers
  import opened Text
  import opened Config
  import opened Json
  import opened MetricSpecs
  import opened DimMappings

  /** A measurement handed to the check: `rate(name, value, dimensions)` or `gauge(name, value, timestamp, dimensions)`. */
  datatype Emission =
    | RateSample(name: string, value: real, dims: map<string, string>)
    | GaugeSample(name: string, value: real, timestamp: Option<real>, dims: map<string, string>)

  /**
   * An instance as `__init__` records it: its mapping (`_metric_map[name]`)
   * with the dimension tables derived from it (`_dimension_map[name]` and
   * `_grp_dimension_map[name]`).
   */
  datatype Instance = Instance(config: MappingConfig, globalDims: DimMap, groupDims: map<string, DimMap>)

  /**
   * Why construction fails: the named instance has neither a `mapping` nor a
   * default one (`CheckException`), or a `dimensions` entry of its mapping
   * has `regex: null` (`TypeError` from `re.compile(None)`).
   */
  datatype InitError = NoMapping(instance: string) | RegexTypeError

  /** The mapping an instance uses: its own, the default when it has none, nothing when it is `null`. */
  function ResolveMapping(inst: InstanceConfig, default: Option<MappingConfig>): Option<MappingConfig>
  {
    match inst.mapping
    case Unset => default
    case Null => None
    case Set(mc) => Some(mc)
  }

  /** Every `dimensions` entry of a mapping, global or in a group, can be built. */
  predicate MappingCompiles(mc: MappingConfig)
  {
    && AllCompile(mc.global.dimensions)
    && forall j :: 0 <= j < |mc.groups| ==> AllCompile(mc.groups[j].1.dimensions)
  }

  /**
   * One pass of the loop of `__init__`: the instance's mapping, or the
   * exception raised while recording it and building its dimension tables.
   */
  function InstanceOutcome(inst: InstanceConfig, default: Option<MappingConfig>): Result<MappingConfig, InitError>
  {
    match ResolveMapping(inst, default)
    case None => Failure(NoMapping(inst.name))
    case Some(mc) => if MappingCompiles(mc) then Success(mc) else Failure(RegexTypeError)
  }

  /**
   * The loop of `__init__` over the instances: each instance's mapping under
   * its name, a later instance of the same name replacing an earlier one,
   * or the exception of the first instance that cannot be recorded.
   */
  function Configure(instances: seq<InstanceConfig>, default: Option<MappingConfig>): Result<map<string, MappingConfig>, InitError>
  {
    if instances == [] then Success(map[])
    else
      var n := |instances| - 1;
      match Configure(instances[..n], default)
      case Failure(e) => Failure(e)
      case Success(cfg) =>
        match InstanceOutcome(instances[n], default)
        case Failure(e) => Failure(e)
        case Success(mc) => Success(cfg[instances[n].name := mc])
  }

  /** The pseudo group under which an instance with groups also searches its global scope. */
  const DefaultGroup := ""

  /** `_groups[name]`: the declared groups, then the pseudo group; nothing when `groups` is empty or absent. */
  function GroupNames(mc: MappingConfig): seq<string>
  {
    if mc.groups == [] then [] else Keys(mc.groups) + [DefaultGroup]
  }

  /** `_grp_metric_map[name]`: the declared groups' scopes, the pseudo group standing for the global scope. */
  function GroupTable(mc: MappingConfig): seq<(string, Scope)>
  {
    if mc.groups == [] then [] else Put(mc.groups, DefaultGroup, mc.global)
  }

  /**
   * The scope `_fetch_metric_spec` classifies against: the global one without
   * a group, an empty one for a group an instance with groups does not
   * declare. An instance without groups has no group tables (the source
   * raises `KeyError` there), so callers pass a group only for instances with
   * groups.
   */
  function ScopeOf(mc: MappingConfig, group: Option<string>): Scope
  {
    if group.None? then mc.global
    else match Get(GroupTable(mc), group.value)
      case Some(s) => s
      case None => EmptyScope
  }

  /** What `_fetch_metric_spec(instance, metric, group)` returns. */
  function SpecOf(m: Matcher, mc: MappingConfig, metric: string, group: Option<string>): MetricSpec
  {
    Classify(m, ScopeOf(mc, group), metric)
  }

  /** Some pattern of group `g` matches `metric`, so that its classification there is not SKIP. */
  predicate Claims(m: Matcher, mc: MappingConfig, metric: string, g: string)
  {
    Verdict(m, ScopeOf(mc, Some(g)), metric).0 != Skip
  }

  /** The first of `gs` that claims `metric`. */
  function FirstClaiming(m: Matcher, mc: MappingConfig, metric: string, gs: seq<string>): Option<string>
  {
    if gs == [] then None
    else if Claims(m, mc, metric, gs[0]) then Some(gs[0])
    else FirstClaiming(m, mc, metric, gs[1..])
  }

  /** The group `_get_group` settles on: the first group, in declaration order and the pseudo group last, that does not skip the metric. */
  function FirstGroup(m: Matcher, mc: MappingConfig, metric: string): Option<string>
  {
    FirstClaiming(m, mc, metric, GroupNames(mc))
  }

  /** `_dimension_map[name]`: the rules of the global scope, per label. */
  function GlobalDims(mc: MappingConfig): DimMap
  {
    DimMapOf(mc.global.dimensions)
  }

  /** `_grp_dimension_map[name]`: the rules of every group's scope, per label, the pseudo group's being the global ones. */
  function GroupDims(mc: MappingConfig): map<string, DimMap>
  {
    map g | g in Keys(GroupTable(mc)) :: DimMapOf(ScopeOf(mc, Some(g)).dimensions)
  }

  /** An instance with the tables `__init__` derives from its mapping. */
  function Built(mc: MappingConfig): Instance
  {
    Instance(mc, GlobalDims(mc), GroupDims(mc))
  }

  /** Every recorded mapping with the tables derived from it. */
  function BuildAll(cfg: map<string, MappingConfig>): (r: map<string, Instance>)
    ensures r.Keys == cfg.Keys
    ensures forall i :: i in r ==> r[i].config == cfg[i]
  {
    map i | i in cfg :: Built(cfg[i])
  }

  /** `_get_mappings(instance_name, group, label)` on the instance's tables. */
  function RulesOf(inst: Instance, group: Option<string>, lbl: string): seq<DimMapping>
  {
    MappingsFor(inst.groupDims, inst.globalDims, group, lbl)
  }

  /** `_map_dimensions(instance_name, labels, group, default_dimensions)` on the instance's tables. */
  function DimensionsOf(m: Matcher, inst: Instance, group: Option<string>, labels: Labels,
                        defaults: map<string, string>): Option<map<string, string>>
  {
    MapLabels(m, inst.groupDims, inst.globalDims, group, labels, defaults)
  }

  /** The group `push_metric` works in: the one given, or else the one `_get_group` settles on. */
  function EffectiveGroup(m: Matcher, mc: MappingConfig, metric: string, group: Option<string>): Option<string>
  {
    if group.None? then FirstGroup(m, mc, metric) else group
  }

  /** `[prefix.][group.]`: a part is left out when it is empty or absent, as Python's truth test does. */
  function NamePrefix(prefix: string, group: Option<string>): string
  {
    (if prefix != "" then prefix + "." else "") + (if group.Some? && group.value != "" then group.value + "." else "")
  }

  /** The measurement a sink receives: a rate for RATE, otherwise a gauge carrying the timestamp. */
  function Sample(kind: MetricKind, name: string, value: real, timestamp: Option<real>, dims: map<string, string>): Emission
  {
    if kind == Rate then RateSample(name, value, dims) else GaugeSample(name, value, timestamp, dims)
  }

  /** What `push_metric` does once its group, the classification and the mapped dimensions are known. */
  function PushResolved(prefix: string, g: Option<string>, spec: MetricSpec, dims: Option<map<string, string>>,
                        value: real, timestamp: Option<real>, fixed: map<string, string>): (bool, seq<Emission>)
  {
    if spec.kind == Skip then (false, [])
    else match dims
      case None => (true, [])
      case Some(d) => (true, [Sample(spec.kind, NamePrefix(prefix, g) + spec.name, value, timestamp, d + fixed)])
  }

  /** What one `push_metric` call does: whether it returns True, and the measurements it emits. */
  function PushOutcome(m: Matcher, prefix: string, inst: Instance, metric: string, value: real, labels: Labels,
                       group: Option<string>, timestamp: Option<real>, fixed: map<string, string>,
                       defaults: map<string, string>): (bool, seq<Emission>)
  {
    var g := EffectiveGroup(m, inst.config, metric, group);
    PushResolved(prefix, g, SpecOf(m, inst.config, metric, g), DimensionsOf(m, inst, g, labels, defaults), value, timestamp, fixed)
  }

  lemma PushOutcomeResolved(m: Matcher, prefix: string, inst: Instance, metric: string, value: real, labels: Labels,
                       group: Option<string>, timestamp: Option<real>, fixed: map<string, string>,
                       defaults: map<string, string>, g: Option<string>, spec: MetricSpec, dims: Option<map<string, string>>)
    requires g == EffectiveGroup(m, inst.config, metric, group) && spec == SpecOf(m, inst.config, metric, g)
    requires dims == DimensionsOf(m, inst, g, labels, defaults)
    ensures PushOutcome(m, prefix, inst, metric, value, labels, group, timestamp, fixed, defaults)
         == PushResolved(prefix, g, spec, dims, value, timestamp, fixed)
  {
  }

  /** The string (byte `str`) attributes of an array element that some rule reads, added to a copy of the labels in attribute order. */
  function Collected(groupMaps: map<string, DimMap>, global: DimMap, group: Option<string>,
                     entries: seq<(string, Json)>, labels: Labels): Option<Labels>
  {
    if entries == [] then None
    else
      var n := |entries| - 1;
      var acc := Collected(groupMaps, global, group, entries[..n], labels);
      if entries[n].1.JStr? && |MappingsFor(groupMaps, global, group, entries[n].0)| > 0 then
        Some(Put(if acc.Some? then acc.value else labels, entries[n].0, entries[n].1.s))
      else acc
  }

  /**
   * `extract_dist_labels(instance_name, group, entry, labels, index)`: the
   * collected attributes, or else an `index` label when `index` is mapped,
   * or else nothing (the element is skipped).
   */
  function DistLabels(groupMaps: map<string, DimMap>, global: DimMap, group: Option<string>,
                      entries: seq<(string, Json)>, labels: Labels, index: nat): Option<Labels>
  {
    match Collected(groupMaps, global, group, entries, labels)
    case Some(l) => Some(l)
    case None =>
      if |MappingsFor(groupMaps, global, group, "index")| > 0 then Some(Put(labels, "index", NatToString(index))) else None
  }

  /** The arguments `push_metric_dict` passes down its recursion unchanged. */
  datatype Walk = Walk(group: Option<string>, timestamp: Option<real>, fixed: map<string, string>,
                       defaults: map<string, string>, maxDepth: nat)

  /**
   * What a walk works with, the same all the way down: the helper's matcher,
   * prefix and instance, and the walk's arguments.
   */
  datatype Sinks = Sinks(m: Matcher, prefix: string, inst: Instance, w: Walk)

  /** `push_metric` at a leaf: what it emits for a metric, value and labels. */
  function SinkPush(s: Sinks, metric: string, value: real, labels: Labels): seq<Emission>
  {
    PushOutcome(s.m, s.prefix, s.inst, metric, value, labels, s.w.group, s.w.timestamp, s.w.fixed, s.w.defaults).1
  }

  /** `extract_dist_labels` for an array element. */
  function SinkDist(s: Sinks, entries: seq<(string, Json)>, labels: Labels, index: nat): Option<Labels>
  {
    DistLabels(s.inst.groupDims, s.inst.globalDims, s.w.group, entries, labels, index)
  }

  /** Whether the `index` label has a rule. */
  predicate Indexed(s: Sinks)
  {
    |RulesOf(s.inst, s.w.group, "index")| > 0
  }

  /** How many more levels the walk may descend below `depth`. */
  function Budget(maxDepth: nat, depth: nat): nat
  {
    if depth < maxDepth then maxDepth - depth else 0
  }

  /**
   * `push_metric_dict(instance, metric_dict, labels, group, timestamp,
   * fixed_dimensions, default_dimensions, max_depth, curr_depth, prefix,
   * index)`: the measurements it emits. An array element (`index` given)
   * first has its distinguishing labels extracted and is skipped without them.
   */
  function DictEmissions(s: Sinks, maxDepth: nat, d: seq<(string, Json)>, labels: Labels, depth: nat, path: string,
                         index: Option<nat>): seq<Emission>
    decreases Budget(maxDepth, depth), 3, 0
  {
    var ext := if index.None? then Some(labels) else SinkDist(s, d, labels, index.value);
    if ext.None? then [] else EntriesEmissions(s, maxDepth, d, |d|, ext.value, depth, path)
  }

  /** The loop of `push_metric_dict` over the first `n` entries of a dictionary. */
  function EntriesEmissions(s: Sinks, maxDepth: nat, entries: seq<(string, Json)>, n: nat, ext: Labels, depth: nat,
                            path: string): seq<Emission>
    requires n <= |entries|
    decreases Budget(maxDepth, depth), 2, n
  {
    if n == 0 then []
    else
      EntriesEmissions(s, maxDepth, entries, n - 1, ext, depth, path)
        + ChildEmissions(s, maxDepth, entries[n - 1].0, entries[n - 1].1, ext, depth, path)
  }

  /**
   * One entry: a dictionary is descended into while the depth allows, a
   * number is pushed under the path, a list is walked element by element;
   * anything else is ignored.
   */
  function ChildEmissions(s: Sinks, maxDepth: nat, key: string, child: Json, ext: Labels, depth: nat,
                          path: string): seq<Emission>
    decreases Budget(maxDepth, depth), 1, 0
  {
    if child.JDict? && depth < maxDepth then
      DictEmissions(s, maxDepth, child.entries, ext, depth + 1, path + key + "_", None)
    else if IsNumber(child) then
      SinkPush(s, path + key, NumberValue(child), ext)
    else if child.JList? then
      ListEmissions(s, maxDepth, key, child.items, |child.items|, ext, depth, path)
    else []
  }

  /**
   * The loop over the first `n` elements of a list: a dictionary element is
   * descended into (with its position as index) while the depth allows; a
   * number is pushed with an `index` label only when `index` is mapped.
   */
  function ListEmissions(s: Sinks, maxDepth: nat, key: string, items: seq<Json>, n: nat, ext: Labels, depth: nat,
                         path: string): seq<Emission>
    requires n <= |items|
    decreases Budget(maxDepth, depth), 0, n
  {
    if n == 0 then []
    else
      ListEmissions(s, maxDepth, key, items, n - 1, ext, depth, path)
        + ItemEmissions(s, maxDepth, key, n - 1, items[n - 1], ext, depth, path)
  }

  /** One element of a list, at position `n`. */
  function ItemEmissions(s: Sinks, maxDepth: nat, key: string, n: nat, e: Json, ext: Labels, depth: nat,
                         path: string): seq<Emission>
    decreases Budget(maxDepth, depth), 0, 0
  {
    if e.JDict? then
      (if depth < maxDepth then DictEmissions(s, maxDepth, e.entries, ext, depth + 1, path + key + "_", Some(n)) else [])
    else if IsNumber(e) && Indexed(s) then
      SinkPush(s, path + key, NumberValue(e), Put(ext, "index", NatToString(n)))
    else []
  }

  /** One more entry of a dictionary appends what that entry emits to what was emitted before. */
  lemma EntriesStep(s: Sinks, maxDepth: nat, entries: seq<(string, Json)>, k: nat, ext: Labels, depth: nat, path: string,
                    before: seq<Emission>)
    requires k < |entries|
    ensures before + EntriesEmissions(s, maxDepth, entries, k + 1, ext, depth, path)
         == (before + EntriesEmissions(s, maxDepth, entries, k, ext, depth, path))
            + ChildEmissions(s, maxDepth, entries[k].0, entries[k].1, ext, depth, path)
  {
  }

  /** One more element of a list appends what that element emits to what was emitted before. */
  lemma ItemsStep(s: Sinks, maxDepth: nat, key: string, items: seq<Json>, k: nat, ext: Labels, depth: nat, path: string,
                  before: seq<Emission>)
    requires k < |items|
    ensures before + ListEmissions(s, maxDepth, key, items, k + 1, ext, depth, path)
         == (before + ListEmissions(s, maxDepth, key, items, k, ext, depth, path))
            + ItemEmissions(s, maxDepth, key, k, items[k], ext, depth, path)
  {
  }

  /** A scope's patterns, gauges first. */
  function ScopePatterns(s: Scope): seq<string>
  {
    s.gauges + s.rates
  }

  /** The patterns of a table of scopes, in table order. */
  function TablePatterns(table: seq<(string, Scope)>): seq<string>
  {
    if table == [] then []
    else
      var n := |table| - 1;
      TablePatterns(table[..n]) + ScopePatterns(table[n].1)
  }

  /** `get_mapped_metrics(instances)` for one instance: its global patterns, then every group's, the pseudo group repeating the global ones. */
  function MappedMetrics(mc: MappingConfig): seq<string>
  {
    ScopePatterns(mc.global) + TablePatterns(GroupTable(mc))
  }

  // ---------------------------------------------------------------- the configuration

  /** Once some instance has no mapping, no later instance can repair it. */
  lemma {:induction false} ConfigureFailureSticks(instances: seq<InstanceConfig>, default: Option<MappingConfig>, k: nat)
    requires k <= |instances| && Configure(instances[..k], default).Failure?
    ensures Configure(instances, default) == Configure(instances[..k], default)
    decreases |instances| - k
  {
    if k < |instances| {
      assert instances[..k + 1][..k] == instances[..k];
      ConfigureFailureSticks(instances, default, k + 1);
    } else {
      assert instances[..k] == instances;
    }
  }

  /**
   * An instance cannot be recorded exactly when it has no mapping
   * (`CheckException` naming it) or some `dimensions` entry of its mapping,
   * global or in a group, has `regex: null` (`TypeError`).
   */
  lemma InstanceFails(inst: InstanceConfig, default: Option<MappingConfig>)
    ensures InstanceOutcome(inst, default) == Failure(NoMapping(inst.name)) <==> ResolveMapping(inst, default).None?
    ensures InstanceOutcome(inst, default) == Failure(RegexTypeError) <==>
      && ResolveMapping(inst, default).Some?
      && var mc := ResolveMapping(inst, default).value;
         || (exists k :: 0 <= k < |mc.global.dimensions| && !Compiles(mc.global.dimensions[k]))
         || (exists j, k :: 0 <= j < |mc.groups| && 0 <= k < |mc.groups[j].1.dimensions| && !Compiles(mc.groups[j].1.dimensions[k]))
    ensures InstanceOutcome(inst, default).Success? ==> Some(InstanceOutcome(inst, default).value) == ResolveMapping(inst, default)
  {
  }

  /** When every instance can be recorded, construction succeeds. */
  lemma {:induction false} ConfigureSucceeds(instances: seq<InstanceConfig>, default: Option<MappingConfig>)
    requires forall i :: 0 <= i < |instances| ==> InstanceOutcome(instances[i], default).Success?
    ensures Configure(instances, default).Success?
  {
    if instances != [] {
      var n := |instances| - 1;
      assert forall i :: 0 <= i < n ==> instances[..n][i] == instances[i];
      ConfigureSucceeds(instances[..n], default);
    }
  }

  /** A failed construction raises the exception of an instance that cannot be recorded, every earlier instance being recorded. */
  lemma {:induction false} ConfigureNamesFirst(instances: seq<InstanceConfig>, default: Option<MappingConfig>) returns (i: nat)
    requires Configure(instances, default).Failure?
    ensures i < |instances| && InstanceOutcome(instances[i], default).Failure?
    ensures Configure(instances, default).error == InstanceOutcome(instances[i], default).error
    ensures forall j :: 0 <= j < i ==> InstanceOutcome(instances[j], default).Success?
  {
    var n := |instances| - 1;
    var init := instances[..n];
    if Configure(init, default).Failure? {
      i := ConfigureNamesFirst(init, default);
      assert init[i] == instances[i];
      assert forall j :: 0 <= j < i ==> init[j] == instances[j];
    } else {
      i := n;
      assert forall j :: 0 <= j < n ==> init[j] == instances[j];
      if exists j :: 0 <= j < n && InstanceOutcome(instances[j], default).Failure? {
        var j :| 0 <= j < n && InstanceOutcome(instances[j], default).Failure?;
        ConfigureNoneFails(init, default, j);
      }
    }
  }

  /** An instance that cannot be recorded makes construction fail. */
  lemma {:induction false} ConfigureNoneFails(instances: seq<InstanceConfig>, default: Option<MappingConfig>, i: nat)
    requires i < |instances| && InstanceOutcome(instances[i], default).Failure?
    ensures Configure(instances, default).Failure?
  {
    var n := |instances| - 1;
    if i < n {
      assert instances[..n][i] == instances[i];
      ConfigureNoneFails(instances[..n], default, i);
    }
  }

  /**
   * Construction fails exactly when some instance has no mapping or a
   * `regex: null` entry (the exception of the first such instance).
   */
  lemma ConfigureFails(instances: seq<InstanceConfig>, default: Option<MappingConfig>)
    ensures Configure(instances, default).Failure? <==>
      exists i :: 0 <= i < |instances| && InstanceOutcome(instances[i], default).Failure?
  {
    if exists i :: 0 <= i < |instances| && InstanceOutcome(instances[i], default).Failure? {
      var i :| 0 <= i < |instances| && InstanceOutcome(instances[i], default).Failure?;
      ConfigureNoneFails(instances, default, i);
    } else {
      ConfigureSucceeds(instances, default);
    }
  }

  /** The names of some instances. */
  function Names(instances: seq<InstanceConfig>): set<string>
  {
    set i | 0 <= i < |instances| :: instances[i].name
  }

  /** A successful construction records exactly the named instances. */
  lemma {:induction false} ConfigureKeys(instances: seq<InstanceConfig>, default: Option<MappingConfig>)
    requires Configure(instances, default).Success?
    ensures Configure(instances, default).value.Keys == Names(instances)
  {
    if instances != [] {
      var n := |instances| - 1;
      ConfigureKeys(instances[..n], default);
      assert Names(instances) == Names(instances[..n]) + {instances[n].name} by {
        forall x | x in Names(instances) ensures x in Names(instances[..n]) + {instances[n].name} {
          var i :| 0 <= i < |instances| && instances[i].name == x;
          if i < n { assert instances[..n][i].name == x; }
        }
        forall x | x in Names(instances[..n]) ensures x in Names(instances) {
          var i :| 0 <= i < n && instances[..n][i].name == x;
          assert instances[i].name == x;
        }
      }
    }
  }

  /** Each recorded mapping is that of the last instance of its name. */
  lemma {:induction false} ConfigureLastWins(instances: seq<InstanceConfig>, default: Option<MappingConfig>, i: nat)
    requires Configure(instances, default).Success?
    requires i < |instances| && forall j :: i < j < |instances| ==> instances[j].name != instances[i].name
    ensures instances[i].name in Configure(instances, default).value
    ensures Some(Configure(instances, default).value[instances[i].name]) == ResolveMapping(instances[i], default)
  {
    var n := |instances| - 1;
    if i < n {
      assert instances[..n][i] == instances[i];
      ConfigureLastWins(instances[..n], default, i);
    }
  }

  // ---------------------------------------------------------------- scopes and groups

  /** The pseudo group classifies in the global scope. */
  lemma PseudoGroupIsGlobal(mc: MappingConfig)
    requires mc.groups != []
    ensures ScopeOf(mc, Some(DefaultGroup)) == mc.global
    ensures DefaultGroup in GroupDims(mc) && GroupDims(mc)[DefaultGroup] == GlobalDims(mc)
  {
    PutFacts(mc.groups, DefaultGroup, mc.global);
    GetFacts(GroupTable(mc), DefaultGroup);
  }

  /** A declared group other than the pseudo group classifies in its own scope; an undeclared group of an instance with groups in the empty scope. */
  lemma DeclaredGroupScope(mc: MappingConfig, g: string)
    requires g != DefaultGroup
    ensures Get(mc.groups, g).Some? ==> ScopeOf(mc, Some(g)) == Get(mc.groups, g).value
    ensures mc.groups != [] && Get(mc.groups, g).None? ==> ScopeOf(mc, Some(g)) == EmptyScope
  {
    if mc.groups != [] {
      PutFacts(mc.groups, DefaultGroup, mc.global);
    }
  }

  /** One step of the search through `gs` from position `k`. */
  lemma FirstClaimingFrom(m: Matcher, mc: MappingConfig, metric: string, gs: seq<string>, k: nat)
    requires k <= |gs|
    ensures k == |gs| ==> FirstClaiming(m, mc, metric, gs[k..]) == None
    ensures k < |gs| ==> (FirstClaiming(m, mc, metric, gs[k..]) ==
      if Claims(m, mc, metric, gs[k]) then Some(gs[k]) else FirstClaiming(m, mc, metric, gs[k + 1..]))
  {
    if k < |gs| {
      assert gs[k..][0] == gs[k];
      assert gs[k..][1..] == gs[k + 1..];
    }
  }

  /** The search settles on position `k` when `k` is the first position whose group claims the metric. */
  lemma {:induction false} FirstClaimingAt(m: Matcher, mc: MappingConfig, metric: string, gs: seq<string>, k: nat)
    requires k < |gs| && Claims(m, mc, metric, gs[k])
    requires forall j :: 0 <= j < k ==> !Claims(m, mc, metric, gs[j])
    ensures FirstClaiming(m, mc, metric, gs) == Some(gs[k])
  {
    if k > 0 {
      assert !Claims(m, mc, metric, gs[0]);
      assert forall j :: 0 <= j < k - 1 ==> gs[1..][j] == gs[j + 1];
      FirstClaimingAt(m, mc, metric, gs[1..], k - 1);
    }
  }

  /** The search finds nothing exactly when no group claims the metric; what it finds is the first group that does. */
  lemma {:induction false} FirstClaimingFinds(m: Matcher, mc: MappingConfig, metric: string, gs: seq<string>)
    ensures FirstClaiming(m, mc, metric, gs).None? <==> forall j :: 0 <= j < |gs| ==> !Claims(m, mc, metric, gs[j])
    ensures FirstClaiming(m, mc, metric, gs).Some? ==>
      exists k :: 0 <= k < |gs| && FirstClaiming(m, mc, metric, gs) == Some(gs[k]) && Claims(m, mc, metric, gs[k]) &&
        forall j :: 0 <= j < k ==> !Claims(m, mc, metric, gs[j])
  {
    if gs != [] && !Claims(m, mc, metric, gs[0]) {
      FirstClaimingFinds(m, mc, metric, gs[1..]);
      assert forall j :: 1 <= j < |gs| ==> gs[j] == gs[1..][j - 1];
      if FirstClaiming(m, mc, metric, gs[1..]).Some? {
        var k :| 0 <= k < |gs[1..]| && FirstClaiming(m, mc, metric, gs[1..]) == Some(gs[1..][k]) &&
          Claims(m, mc, metric, gs[1..][k]) && forall j :: 0 <= j < k ==> !Claims(m, mc, metric, gs[1..][j]);
        assert Claims(m, mc, metric, gs[k + 1]);
      }
    }
  }

  /** An instance without groups never resolves a group: its metrics are always looked up globally. */
  lemma NoGroupsNoGroup(m: Matcher, mc: MappingConfig, metric: string)
    requires mc.groups == []
    ensures FirstGroup(m, mc, metric) == None
    ensures EffectiveGroup(m, mc, metric, None) == None
  {
  }

  /**
   * With groups, a metric that some global pattern matches always resolves:
   * the pseudo group, tried last, claims it.
   */
  lemma GlobalMatchResolves(m: Matcher, mc: MappingConfig, metric: string)
    requires mc.groups != [] && Verdict(m, mc.global, metric).0 != Skip
    ensures FirstGroup(m, mc, metric).Some?
  {
    PseudoGroupIsGlobal(mc);
    var gs := GroupNames(mc);
    assert gs[|gs| - 1] == DefaultGroup;
    assert Claims(m, mc, metric, gs[|gs| - 1]);
    FirstClaimingFinds(m, mc, metric, gs);
  }

  // ---------------------------------------------------------------- push_metric

  /** `push_metric` returns False exactly when the metric's classification is SKIP; it then emits nothing, and never emits more than one measurement. */
  lemma PushedIffNotSkip(m: Matcher, prefix: string, inst: Instance, metric: string, value: real, labels: Labels,
                         group: Option<string>, timestamp: Option<real>, fixed: map<string, string>, defaults: map<string, string>)
    ensures var r := PushOutcome(m, prefix, inst, metric, value, labels, group, timestamp, fixed, defaults);
      && (r.0 <==> SpecOf(m, inst.config, metric, EffectiveGroup(m, inst.config, metric, group)).kind != Skip)
      && |r.1| <= 1
      && (r.1 != [] ==> r.0)
  {
  }

  /**
   * `push_metric` emits a measurement exactly when the metric is not SKIP and
   * no rule filters its labels out; the measurement is named
   * `[prefix.][group.]name`, is a rate for RATE and a gauge for GAUGE, and its
   * dimensions are those `_map_dimensions` computes from the labels and the
   * defaults, with the fixed dimensions added on top (a fixed value wins).
   */
  lemma PushedMeasurement(m: Matcher, prefix: string, inst: Instance, metric: string, value: real, labels: Labels,
                          group: Option<string>, timestamp: Option<real>, fixed: map<string, string>, defaults: map<string, string>)
    ensures var g := EffectiveGroup(m, inst.config, metric, group);
      var spec := SpecOf(m, inst.config, metric, g);
      var r := PushOutcome(m, prefix, inst, metric, value, labels, group, timestamp, fixed, defaults);
      && (r.1 != [] <==> spec.kind != Skip && DimensionsOf(m, inst, g, labels, defaults).Some?)
      && (r.1 != [] ==>
            && |r.1| == 1
            && r.1[0].name == NamePrefix(prefix, g) + spec.name
            && r.1[0].value == value
            && (r.1[0].RateSample? <==> spec.kind == Rate)
            && (r.1[0].GaugeSample? ==> r.1[0].timestamp == timestamp)
            && r.1[0].dims == DimensionsOf(m, inst, g, labels, defaults).value + fixed
            && r.1[0].dims.Keys == DimensionsOf(m, inst, g, labels, defaults).value.Keys + fixed.Keys
            && (forall k :: k in fixed ==> r.1[0].dims[k] == fixed[k])
            && (forall k :: k in DimensionsOf(m, inst, g, labels, defaults).value && k !in fixed ==>
                  r.1[0].dims[k] == DimensionsOf(m, inst, g, labels, defaults).value[k])
            && (forall k :: k in defaults && k !in fixed ==> k in r.1[0].dims && r.1[0].dims[k] == defaults[k]))
  {
    var g := EffectiveGroup(m, inst.config, metric, group);
    DefaultsKept(m, inst.groupDims, inst.globalDims, g, labels, defaults);
  }

  // ---------------------------------------------------------------- extract_dist_labels

  /** Nothing is collected exactly when no string attribute has a rule. */
  lemma {:induction false} CollectedNone(groupMaps: map<string, DimMap>, global: DimMap, group: Option<string>,
                                         entries: seq<(string, Json)>, labels: Labels)
    ensures Collected(groupMaps, global, group, entries, labels).None? <==>
      forall i :: 0 <= i < |entries| ==> !(entries[i].1.JStr? && |MappingsFor(groupMaps, global, group, entries[i].0)| > 0)
  {
    if entries != [] {
      var n := |entries| - 1;
      CollectedNone(groupMaps, global, group, entries[..n], labels);
      assert forall i :: 0 <= i < n ==> entries[..n][i] == entries[i];
    }
  }

  /** What is collected keeps every label. */
  lemma {:induction false} CollectedKeeps(groupMaps: map<string, DimMap>, global: DimMap, group: Option<string>,
                                          entries: seq<(string, Json)>, labels: Labels, k: string)
    requires Get(labels, k).Some?
    ensures Collected(groupMaps, global, group, entries, labels).Some? ==>
      Get(Collected(groupMaps, global, group, entries, labels).value, k).Some?
  {
    if entries != [] {
      var n := |entries| - 1;
      CollectedKeeps(groupMaps, global, group, entries[..n], labels, k);
      var acc := Collected(groupMaps, global, group, entries[..n], labels);
      var (key, child) := entries[n];
      if child.JStr? {
        var base := if acc.Some? then acc.value else labels;
        PutFacts(base, key, child.s);
      }
    }
  }

  /** The last mapped string attribute of a name is the label's value. */
  lemma {:induction false} CollectedHolds(groupMaps: map<string, DimMap>, global: DimMap, group: Option<string>, entries: seq<(string, Json)>, labels: Labels, i: nat)
    requires i < |entries| && entries[i].1.JStr? && |MappingsFor(groupMaps, global, group, entries[i].0)| > 0
    requires forall j :: i < j < |entries| ==> entries[j].0 != entries[i].0
    ensures Collected(groupMaps, global, group, entries, labels).Some?
    ensures Get(Collected(groupMaps, global, group, entries, labels).value, entries[i].0) == Some(entries[i].1.s)
  {
    var n := |entries| - 1;
    var acc := Collected(groupMaps, global, group, entries[..n], labels);
    var base := if acc.Some? then acc.value else labels;
    if entries[n].1.JStr? {
      PutFacts(base, entries[n].0, entries[n].1.s);
    }
    if i < n {
      assert entries[..n][i] == entries[i];
      CollectedHolds(groupMaps, global, group, entries[..n], labels, i);
    }
  }

  /**
   * An array element is skipped exactly when no string attribute is mapped
   * and `index` is unmapped; without mapped attributes the `index` label
   * holds the element's position.
   */
  lemma DistLabelsFacts(groupMaps: map<string, DimMap>, global: DimMap, group: Option<string>, entries: seq<(string, Json)>, labels: Labels, index: nat)
    ensures DistLabels(groupMaps, global, group, entries, labels, index).None? <==>
      (forall i :: 0 <= i < |entries| ==> !(entries[i].1.JStr? && |MappingsFor(groupMaps, global, group, entries[i].0)| > 0))
        && |MappingsFor(groupMaps, global, group, "index")| == 0
    ensures Collected(groupMaps, global, group, entries, labels).None? && DistLabels(groupMaps, global, group, entries, labels, index).Some? ==>
      Get(DistLabels(groupMaps, global, group, entries, labels, index).value, "index") == Some(NatToString(index))
  {
    CollectedNone(groupMaps, global, group, entries, labels);
    PutFacts(labels, "index", NatToString(index));
  }

  // ---------------------------------------------------------------- push_metric_dict

  /** A skipped array element emits nothing. */
  lemma SkippedElementSilent(m: Matcher, prefix: string, inst: Instance, w: Walk, d: seq<(string, Json)>,
                             labels: Labels, depth: nat, path: string, index: nat)
    requires DistLabels(inst.groupDims, inst.globalDims, w.group, d, labels, index).None?
    ensures DictEmissions(Sinks(m, prefix, inst, w), w.maxDepth, d, labels, depth, path, Some(index)) == []
  {
  }

  /** At the depth limit a nested dictionary emits nothing. */
  lemma DepthLimitSilent(s: Sinks, maxDepth: nat, key: string, child: Json, ext: Labels, depth: nat, path: string)
    requires child.JDict? && depth >= maxDepth
    ensures ChildEmissions(s, maxDepth, key, child, ext, depth, path) == []
  {
  }

  /** Numeric list items are silent when `index` has no rule. */
  lemma {:induction false} NumbersNeedIndex(m: Matcher, prefix: string, inst: Instance, w: Walk, key: string, items: seq<Json>,
                                            n: nat, ext: Labels, depth: nat, path: string)
    requires n <= |items| && |RulesOf(inst, w.group, "index")| == 0
    requires forall i :: 0 <= i < |items| ==> !items[i].JDict?
    ensures ListEmissions(Sinks(m, prefix, inst, w), w.maxDepth, key, items, n, ext, depth, path) == []
  {
    if n > 0 {
      NumbersNeedIndex(m, prefix, inst, w, key, items, n - 1, ext, depth, path);
    }
  }

  /** A flat dictionary (no nested dictionaries or lists) emits what pushing each numeric entry under the path emits, in entry order. */
  lemma {:induction false} FlatDictPushesEach(m: Matcher, prefix: string, inst: Instance, w: Walk, entries: seq<(string, Json)>,
                                              n: nat, ext: Labels, depth: nat, path: string)
    requires n <= |entries|
    requires forall i :: 0 <= i < |entries| ==> !entries[i].1.JDict? && !entries[i].1.JList?
    ensures EntriesEmissions(Sinks(m, prefix, inst, w), w.maxDepth, entries, n, ext, depth, path)
         == FlatEmissions(m, prefix, inst, w, entries, n, ext, path)
  {
    if n > 0 {
      FlatDictPushesEach(m, prefix, inst, w, entries, n - 1, ext, depth, path);
    }
  }

  /** The reference: one `push_metric` per numeric entry among the first `n`, named by the path and key. */
  function FlatEmissions(m: Matcher, prefix: string, inst: Instance, w: Walk, entries: seq<(string, Json)>, n: nat,
                         ext: Labels, path: string): seq<Emission>
    requires n <= |entries|
  {
    if n == 0 then []
    else
      var (k, v) := entries[n - 1];
      FlatEmissions(m, prefix, inst, w, entries, n - 1, ext, path)
        + (if IsNumber(v) then PushOutcome(m, prefix, inst, path + k, NumberValue(v), ext, w.group, w.timestamp, w.fixed, w.defaults).1 else [])
  }

  // ---------------------------------------------------------------- get_mapped_metrics

  /** A pattern is reported exactly when the global scope or some group's scope lists it. */
  lemma {:induction false} TablePatternsHas(table: seq<(string, Scope)>, p: string)
    ensures p in TablePatterns(table) <==> exists i :: 0 <= i < |table| && p in ScopePatterns(table[i].1)
  {
    if table != [] {
      var n := |table| - 1;
      var front := table[..n];
      TablePatternsHas(front, p);
      assert TablePatterns(table) == TablePatterns(front) + ScopePatterns(table[n].1);
      if p in TablePatterns(table) {
        if p in TablePatterns(front) {
          var i :| 0 <= i < n && p in ScopePatterns(front[i].1);
          assert front[i] == table[i];
        } else {
          assert p in ScopePatterns(table[n].1);
        }
      }
      if exists i :: 0 <= i < |table| && p in ScopePatterns(table[i].1) {
        var i :| 0 <= i < |table| && p in ScopePatterns(table[i].1);
        if i < n {
          assert front[i] == table[i];
        }
      }
    }
  }

  /** `get_mapped_metrics` reports the global patterns first, and with groups every declared group's patterns. */
  lemma MappedMetricsHas(mc: MappingConfig, g: string, p: string)
    ensures ScopePatterns(mc.global) <= MappedMetrics(mc)
    ensures g != DefaultGroup && Get(mc.groups, g).Some? && p in ScopePatterns(Get(mc.groups, g).value) ==> p in MappedMetrics(mc)
  {
    if g != DefaultGroup && Get(mc.groups, g).Some? && p in ScopePatterns(Get(mc.groups, g).value) {
      var t := GroupTable(mc);
      PutFacts(mc.groups, DefaultGroup, mc.global);
      GetFacts(t, g);
      var i :| 0 <= i < |t| && t[i] == (g, Get(t, g).value);
      TablePatternsHas(t, p);
    }
  }
}

=== FILE: influxdb.dfy ===
/**
 * Version gating of the InfluxDB detection plugin (`InfluxDB._compare_versions`
 * and the threshold in `_connection_test`): a version string has its dashes
 * read as dots and its trailing `.0`, `.00`, ... components removed, is split
 * on dots into integers, and two versions compare as Python 2's `cmp` compares
 * the integer lists. A server is supported from version 0.9.5 on.
 */
module InfluxVersion {
  import opened Wrappers
  import opened Text
  import opened ListOrder

  // ---------------------------------------------------------------- int()

  predicate IsDigit(c: char) { '0' <= c <= '9' }

  /** The value of a run of decimal digits, most significant first. */
  function DigitsValue(s: string): nat
    requires forall i :: 0 <= i < |s| ==> IsDigit(s[i])
  {
    if s == [] then 0
    else
      assert IsDigit(s[|s| - 1]);
      DigitsValue(s[..|s| - 1]) * 10 + (s[|s| - 1] as int - '0' as int)
  }

  /** A non-empty run of decimal digits, or nothing. */
  function ParseDigits(s: string): (r: Option<nat>)
    ensures r.Some? <==> s != [] && forall i :: 0 <= i < |s| ==> IsDigit(s[i])
  {
    if s != [] && forall i :: 0 <= i < |s| ==> IsDigit(s[i]) then Some(DigitsValue(s)) else None
  }

  /**
   * `int(x)` on a Python 2 `str`, in base ten: whitespace around the literal,
   * one leading sign and whitespace between the sign and the digits (the
   * conversion skips whitespace once more after reading the sign) are
   * accepted; anything else raises `ValueError`, here `None`.
   */
  function ParseInt(x: string): Option<int>
  {
    ParseLiteral(Strip(x))
  }

  /** The literal once its surrounding whitespace is gone. */
  function ParseLiteral(t: string): Option<int>
  {
    if t != [] && (t[0] == '+' || t[0] == '-') then
      match DigitsAfterBlanks(t[1..])
      case None => None
      case Some(n) => Some(if t[0] == '-' then -(n as int) else n as int)
    else
      match ParseDigits(t)
      case None => None
      case Some(n) => Some(n as int)
  }

  /** The digits that follow the blanks after a sign. */
  function DigitsAfterBlanks(u: string): Option<nat>
    decreases |u|
  {
    if u != [] && IsSpace(u[0]) then DigitsAfterBlanks(u[1..]) else ParseDigits(u)
  }

  /** Whitespace only (possibly nothing). */
  predicate Blank(s: string)
  {
    forall i :: 0 <= i < |s| ==> IsSpace(s[i])
  }

  /** A non-empty run of decimal digits. */
  predicate IsDigits(s: string)
  {
    s != [] && forall i :: 0 <= i < |s| ==> IsDigit(s[i])
  }

  /** The value a sign (`""`, `"+"` or `"-"`) gives a magnitude. */
  function Signed(sign: string, n: nat): int
  {
    if sign == "-" then -(n as int) else n as int
  }

  /** Blanks in front of a string that does not start with one are stripped. */
  lemma {:induction false} LStripBlank(a: string, m: string)
    requires Blank(a) && (m == [] || !IsSpace(m[0]))
    ensures LStrip(a + m) == m
    decreases |a|
  {
    if a != [] {
      assert (a + m)[1..] == a[1..] + m;
      LStripBlank(a[1..], m);
    } else {
      assert a + m == m;
    }
  }

  /** Blanks behind a string that does not end with one are stripped. */
  lemma {:induction false} RStripBlank(m: string, c: string)
    requires Blank(c) && (m == [] || !IsSpace(m[|m| - 1]))
    ensures RStrip(m + c) == m
    decreases |c|
  {
    if c != [] {
      assert (m + c)[..|m + c| - 1] == m + c[..|c| - 1];
      RStripBlank(m, c[..|c| - 1]);
    } else {
      assert m + c == m;
    }
  }

  /** What `lstrip` drops is blank. */
  lemma {:induction false} LStripSplit(s: string) returns (a: string)
    ensures Blank(a) && s == a + LStrip(s)
    decreases |s|
  {
    if s != [] && IsSpace(s[0]) {
      var t := s[1..];
      var a' := LStripSplit(t);
      var r := LStrip(t);
      assert LStrip(s) == r;
      a := [s[0]] + a';
      assert s == [s[0]] + t;
      ConsAssoc(s[0], a', r);
      forall i | 0 <= i < |a| ensures IsSpace(a[i]) {
        if i > 0 { assert a[i] == a'[i - 1]; }
      }
    } else {
      a := [];
    }
  }

  lemma ConsAssoc(c: char, a: string, r: string)
    ensures [c] + (a + r) == ([c] + a) + r
  {
  }

  /** What `rstrip` drops is blank. */
  lemma {:induction false} RStripSplit(s: string) returns (c: string)
    ensures Blank(c) && s == RStrip(s) + c
    decreases |s|
  {
    if s != [] && IsSpace(s[|s| - 1]) {
      var p := s[..|s| - 1];
      var c' := RStripSplit(p);
      c := c' + [s[|s| - 1]];
      assert s == p + [s[|s| - 1]];
      forall i | 0 <= i < |c| ensures IsSpace(c[i]) {
        if i < |c'| { assert c[i] == c'[i]; }
      }
    } else {
      c := [];
    }
  }

  /** Blanks in front of the digits are skipped. */
  lemma {:induction false} BlanksSkipped(b: string, d: string)
    requires Blank(b) && (d == [] || !IsSpace(d[0]))
    ensures DigitsAfterBlanks(b + d) == ParseDigits(d)
    decreases |b|
  {
    if b != [] {
      assert (b + d)[1..] == b[1..] + d;
      BlanksSkipped(b[1..], d);
    } else {
      assert b + d == d;
    }
  }

  /** What follows the sign, when it reads, is blanks and then digits. */
  lemma {:induction false} BlanksSplit(u: string) returns (b: string, d: string)
    requires DigitsAfterBlanks(u).Some?
    ensures Blank(b) && u == b + d && DigitsAfterBlanks(u) == ParseDigits(d)
    decreases |u|
  {
    if u != [] && IsSpace(u[0]) {
      var b', d' := BlanksSplit(u[1..]);
      b, d := [u[0]] + b', d';
      assert u == [u[0]] + u[1..];
      forall i | 0 <= i < |b| ensures IsSpace(b[i]) {
        if i > 0 { assert b[i] == b'[i - 1]; }
      }
    } else {
      b, d := [], u;
    }
  }

  lemma BlankConcat(a: string, b: string)
    requires Blank(a) && Blank(b)
    ensures Blank(a + b)
  {
    forall i | 0 <= i < |a + b| ensures IsSpace((a + b)[i]) {
      if i < |a| { assert (a + b)[i] == a[i]; } else { assert (a + b)[i] == b[i - |a|]; }
    }
  }

  /** Stripping removes exactly the blanks around a literal without edge blanks. */
  lemma StripAround(a: string, m: string, c: string)
    requires Blank(a) && Blank(c) && m != [] && !IsSpace(m[0]) && !IsSpace(m[|m| - 1])
    ensures Strip(a + m + c) == m
  {
    assert a + m + c == a + (m + c);
    assert (m + c)[0] == m[0];
    LStripBlank(a, m + c);
    RStripBlank(m, c);
  }

  /** A signed literal: the blanks after the sign are skipped. */
  lemma SignedLiteral(sign: string, b: string, d: string)
    requires Blank(b) && IsDigits(d) && (sign == "+" || sign == "-")
    ensures ParseLiteral(sign + b + d) == Some(Signed(sign, DigitsValue(d)))
  {
    var t := sign + b + d;
    assert t[0] == sign[0] && t[1..] == b + d;
    assert !IsSpace(d[0]);
    BlanksSkipped(b, d);
    var n := DigitsValue(d);
    assert ParseDigits(d) == Some(n);
    if sign == "-" {
      assert t[0] == '-';
    } else {
      assert t[0] == '+' && sign != "-";
    }
  }

  /** An unsigned literal is its digits. */
  lemma UnsignedLiteral(d: string)
    requires IsDigits(d)
    ensures ParseLiteral(d) == Some(DigitsValue(d) as int)
  {
    assert IsDigit(d[0]);
    assert ParseDigits(d) == Some(DigitsValue(d));
  }

  /**
   * `int` accepts a run of digits with an optional sign, whitespace around
   * the literal and whitespace between the sign and the digits (`int("+ 1")`
   * is 1), and its value is the signed value of the digits.
   */
  lemma ParseIntAccepts(a: string, sign: string, b: string, d: string, c: string)
    requires Blank(a) && Blank(b) && Blank(c) && IsDigits(d)
    requires sign == "" || sign == "+" || sign == "-"
    ensures ParseInt(a + sign + b + d + c) == Some(Signed(sign, DigitsValue(d)))
  {
    if sign == "" {
      UnsignedAccepts(a, b, d, c);
    } else {
      SignedAccepts(a, sign, b, d, c);
    }
  }

  lemma UnsignedAccepts(a: string, b: string, d: string, c: string)
    requires Blank(a) && Blank(b) && Blank(c) && IsDigits(d)
    ensures ParseInt(a + "" + b + d + c) == Some(DigitsValue(d) as int)
  {
    assert !IsSpace(d[0]) && !IsSpace(d[|d| - 1]);
    BlankConcat(a, b);
    assert a + "" + b + d + c == (a + b) + d + c;
    StripAround(a + b, d, c);
    UnsignedLiteral(d);
  }

  lemma SignedAccepts(a: string, sign: string, b: string, d: string, c: string)
    requires Blank(a) && Blank(b) && Blank(c) && IsDigits(d) && (sign == "+" || sign == "-")
    ensures ParseInt(a + sign + b + d + c) == Some(Signed(sign, DigitsValue(d)))
  {
    var m := sign + b + d;
    assert a + sign + b + d + c == a + m + c;
    assert m[0] == sign[0] && m[|m| - 1] == d[|d| - 1];
    assert !IsSpace(d[|d| - 1]);
    StripAround(a, m, c);
    SignedLiteral(sign, b, d);
  }

  /** A literal that parses is an optional sign, blanks and digits. */
  lemma LiteralShape(t: string) returns (sign: string, b: string, d: string)
    requires ParseLiteral(t).Some?
    ensures Blank(b) && IsDigits(d) && (sign == "" || sign == "+" || sign == "-")
    ensures t == sign + b + d
    ensures ParseLiteral(t) == Some(Signed(sign, DigitsValue(d)))
  {
    if t != [] && (t[0] == '+' || t[0] == '-') {
      sign, b, d := SignedShape(t);
    } else {
      sign, b, d := "", "", t;
      assert t == sign + b + d;
      assert ParseDigits(t) == Some(DigitsValue(t));
    }
  }

  lemma SignedShape(t: string) returns (sign: string, b: string, d: string)
    requires t != [] && (t[0] == '+' || t[0] == '-') && ParseLiteral(t).Some?
    ensures Blank(b) && IsDigits(d) && (sign == "+" || sign == "-")
    ensures t == sign + b + d
    ensures ParseLiteral(t) == Some(Signed(sign, DigitsValue(d)))
  {
    var u := t[1..];
    b, d := BlanksSplit(u);
    sign := if t[0] == '-' then "-" else "+";
    assert ParseDigits(d) == Some(DigitsValue(d));
    assert t == sign + u;
    SignAssoc(t, sign, b, d);
  }

  lemma SignAssoc(t: string, sign: string, b: string, d: string)
    requires t == sign + (b + d)
    ensures t == sign + b + d
  {
  }

  /**
   * `int` accepts nothing else: a string it reads is blanks, an optional
   * sign, blanks, digits and blanks, and its value is the signed digits.
   */
  lemma ParseIntOnlyAccepts(x: string) returns (a: string, sign: string, b: string, d: string, c: string)
    requires ParseInt(x).Some?
    ensures Blank(a) && Blank(b) && Blank(c) && IsDigits(d)
    ensures sign == "" || sign == "+" || sign == "-"
    ensures x == a + sign + b + d + c
    ensures ParseInt(x) == Some(Signed(sign, DigitsValue(d)))
  {
    var l := LStrip(x);
    var t := RStrip(l);
    a := LStripSplit(x);
    c := RStripSplit(l);
    sign, b, d := LiteralShape(t);
    assert x == a + l && l == t + c;
    SplitAround(x, a, t, c, sign, b, d);
  }

  lemma SplitAround(x: string, a: string, t: string, c: string, sign: string, b: string, d: string)
    requires x == a + (t + c) && t == sign + b + d
    ensures x == a + sign + b + d + c
  {
  }

  // ---------------------------------------------------------------- normalize

  /**
   * A (possibly empty) concatenation of blocks `.0`, `.00`, ...: exactly the
   * strings that `(\.0+)*` matches in full, read by a three-state automaton.
   */
  predicate ZeroBlocks(t: string)
  {
    t == [] || (t[0] == '.' && AfterDot(t[1..]))
  }

  /** What may follow a block's dot: at least one zero, then more zeros or blocks. */
  predicate AfterDot(u: string)
  {
    u != [] && u[0] == '0' && AfterZero(u[1..])
  }

  /** What may follow a zero: the end, more zeros, or another block. */
  predicate AfterZero(u: string)
  {
    u == [] || (u[0] == '0' && AfterZero(u[1..])) || (u[0] == '.' && AfterDot(u[1..]))
  }

  /** Number of `0` characters that end `s`. */
  function TrailingZeros(s: string): (n: nat)
    ensures n <= |s|
    ensures forall i :: |s| - n <= i < |s| ==> s[i] == '0'
    ensures n < |s| ==> s[|s| - n - 1] != '0'
  {
    if s == [] || s[|s| - 1] != '0' then 0 else TrailingZeros(s[..|s| - 1]) + 1
  }

  /**
   * `re.sub(r'(\.0+)*$', '', s)` on a string that does not end in a newline:
   * the matcher stops at the leftmost position from which the rest of the
   * string is a run of zero blocks, and that rest is removed.
   */
  function TrimZeroBlocks(s: string): (r: string)
    ensures r <= s && ZeroBlocks(s[|r|..])
    ensures forall j :: 0 <= j < |r| ==> !ZeroBlocks(s[j..])
    decreases |s|
  {
    var z := TrailingZeros(s);
    if 0 < z < |s| && s[|s| - z - 1] == '.' then
      var rest, block := s[..|s| - z - 1], s[|s| - z - 1..];
      var r := TrimZeroBlocks(rest);
      assert s == rest + block;
      LastBlockRemoved(rest, block, r);
      r
    else
      NoBlockStarts(s, z);
      s
  }

  /** The answer for a string without its last block is the answer for the string. */
  lemma LastBlockRemoved(rest: string, block: string, r: string)
    requires IsBlock(block)
    requires r <= rest && ZeroBlocks(rest[|r|..])
    requires forall j :: 0 <= j < |r| ==> !ZeroBlocks(rest[j..])
    ensures r <= rest + block && ZeroBlocks((rest + block)[|r|..])
    ensures forall j :: 0 <= j < |r| ==> !ZeroBlocks((rest + block)[j..])
  {
    var s := rest + block;
    BlockAppended(rest[|r|..], block);
    assert s[|r|..] == rest[|r|..] + block;
    forall j | 0 <= j < |r| ensures !ZeroBlocks(s[j..]) {
      assert s[j..] == rest[j..] + block;
      if ZeroBlocks(s[j..]) {
        BlockRemoved(rest[j..], block);
      }
    }
  }

  /** A string that does not end in a block has no run of blocks as a suffix. */
  lemma NoBlockStarts(s: string, z: nat)
    requires z == TrailingZeros(s) && !(0 < z < |s| && s[|s| - z - 1] == '.')
    ensures forall j :: 0 <= j < |s| ==> !ZeroBlocks(s[j..])
  {
    forall j | 0 <= j < |s| ensures !ZeroBlocks(s[j..]) {
      var t := s[j..];
      if ZeroBlocks(t) {
        ZeroBlocksShape(t);
      }
      if z == 0 {
        assert t[|t| - 1] == s[|s| - 1];
      } else if j >= |s| - z {
        assert t[0] == s[j];
      } else {
        assert t[|s| - z - 1 - j] == s[|s| - z - 1];
      }
    }
  }

  /** One block: a dot followed by at least one zero. */
  predicate IsBlock(b: string)
  {
    |b| >= 2 && b[0] == '.' && forall i :: 1 <= i < |b| ==> b[i] == '0'
  }

  lemma {:induction false} AllZeros(u: string)
    requires forall i :: 0 <= i < |u| ==> u[i] == '0'
    ensures AfterZero(u) && (u != [] ==> AfterDot(u))
    decreases |u|
  {
    if u != [] {
      AllZeros(u[1..]);
    }
  }

  lemma {:induction false} ZerosThenBlock(u: string, b: string)
    requires forall i :: 0 <= i < |u| ==> u[i] == '0'
    requires IsBlock(b)
    ensures AfterZero(u + b) && (u != [] ==> AfterDot(u + b))
    decreases |u|
  {
    if u == [] {
      AllZeros(b[1..]);
      assert [] + b == b;
    } else {
      assert (u + b)[1..] == u[1..] + b;
      ZerosThenBlock(u[1..], b);
    }
  }

  lemma {:induction false} AfterZeroAppended(u: string, b: string)
    requires AfterZero(u) && IsBlock(b)
    ensures AfterZero(u + b)
    decreases |u|
  {
    if u == [] {
      ZerosThenBlock([], b);
      assert [] + b == b;
    } else {
      assert (u + b)[1..] == u[1..] + b;
      if u[0] == '0' && AfterZero(u[1..]) {
        AfterZeroAppended(u[1..], b);
      } else {
        AfterDotAppended(u[1..], b);
      }
    }
  }

  lemma {:induction false} AfterDotAppended(u: string, b: string)
    requires AfterDot(u) && IsBlock(b)
    ensures AfterDot(u + b)
    decreases |u|
  {
    assert (u + b)[1..] == u[1..] + b;
    AfterZeroAppended(u[1..], b);
  }

  /** A block appended to a run of blocks makes a run of blocks. */
  lemma BlockAppended(x: string, b: string)
    requires ZeroBlocks(x) && IsBlock(b)
    ensures ZeroBlocks(x + b)
  {
    if x == [] {
      assert [] + b == b;
      AllZeros(b[1..]);
    } else {
      assert (x + b)[1..] == x[1..] + b;
      AfterDotAppended(x[1..], b);
    }
  }

  lemma {:induction false} AfterZeroRemoved(u: string, b: string)
    requires IsBlock(b) && AfterZero(u + b)
    ensures AfterZero(u)
    decreases |u|
  {
    if u != [] {
      assert (u + b)[1..] == u[1..] + b;
      if u[0] == '0' {
        AfterZeroRemoved(u[1..], b);
      } else {
        AfterDotRemoved(u[1..], b);
      }
    }
  }

  lemma {:induction false} AfterDotRemoved(u: string, b: string)
    requires IsBlock(b) && AfterDot(u + b)
    ensures AfterDot(u)
    decreases |u|
  {
    assert u != [] by { assert (u + b)[0] == '0'; }
    assert (u + b)[1..] == u[1..] + b;
    AfterZeroRemoved(u[1..], b);
  }

  /** A run of blocks without its last block is still a run of blocks. */
  lemma BlockRemoved(x: string, b: string)
    requires x != [] && IsBlock(b) && ZeroBlocks(x + b)
    ensures ZeroBlocks(x)
  {
    assert (x + b)[1..] == x[1..] + b;
    AfterDotRemoved(x[1..], b);
  }

  lemma {:induction false} AfterZeroShape(u: string)
    requires AfterZero(u)
    ensures forall i :: 0 <= i < |u| ==> u[i] == '.' || u[i] == '0'
    ensures u != [] ==> u[|u| - 1] == '0'
    decreases |u|
  {
    if u != [] {
      if u[0] == '0' && AfterZero(u[1..]) {
        AfterZeroShape(u[1..]);
      } else {
        AfterZeroShape(u[2..]);
        assert u[1..][1..] == u[2..];
      }
      forall i | 1 <= i < |u| ensures u[i] == '.' || u[i] == '0' {
        if u[0] == '0' && AfterZero(u[1..]) { assert u[i] == u[1..][i - 1]; } else if i >= 2 { assert u[i] == u[2..][i - 2]; }
      }
    }
  }

  /** A non-empty run of blocks holds only dots and zeros and ends in a zero. */
  lemma ZeroBlocksShape(t: string)
    requires ZeroBlocks(t) && t != []
    ensures forall i :: 0 <= i < |t| ==> t[i] == '.' || t[i] == '0'
    ensures t[|t| - 1] == '0'
  {
    AfterZeroShape(t[2..]);
    assert t[1..][1..] == t[2..];
    forall i | 0 <= i < |t| ensures t[i] == '.' || t[i] == '0' {
      if i >= 2 { assert t[i] == t[2..][i - 2]; }
    }
  }

  /**
   * `re.sub(r'(\.0+)*$', '', s)`: Python's `$` also matches just before a
   * final newline, so the blocks in front of one are removed too.
   */
  function StripZeroSuffix(s: string): string
  {
    if s != [] && s[|s| - 1] == '\n' then TrimZeroBlocks(s[..|s| - 1]) + "\n" else TrimZeroBlocks(s)
  }

  /** `re.sub(r'-', '.', v)` */
  function DashesToDots(v: string): (r: string)
    ensures |r| == |v|
    ensures forall i :: 0 <= i < |v| ==> r[i] == if v[i] == '-' then '.' else v[i]
  {
    MapChars(v, {'-'}, '.')
  }

  /** The integers of every part, or `None` as soon as one part is not an integer. */
  function ParseAll(parts: seq<string>): (r: Option<seq<int>>)
    ensures r.Some? <==> forall i :: 0 <= i < |parts| ==> ParseInt(parts[i]).Some?
    ensures r.Some? ==> |r.value| == |parts| && forall i :: 0 <= i < |parts| ==> r.value[i] == ParseInt(parts[i]).value
  {
    if parts == [] then Some([])
    else
      match ParseInt(parts[0])
      case None => None
      case Some(n) =>
        match ParseAll(parts[1..])
        case None => None
        case Some(ns) => Some([n] + ns)
  }

  /** `normalize(v)`; `None` when `int` raises `ValueError` on some component. */
  function Normalize(v: string): Option<seq<int>>
  {
    ParseAll(SplitOn(StripZeroSuffix(DashesToDots(v)), '.'))
  }

  // ---------------------------------------------------------------- _compare_versions

  /** Why a comparison could not be made: `int` raised on a component. */
  datatype VersionError = ValueError

  /** `_compare_versions(v1, v2)` */
  function CompareVersions(v1: string, v2: string): (r: Result<int, VersionError>)
    ensures r.Success? <==> Normalize(v1).Some? && Normalize(v2).Some?
    ensures r.Success? ==> (r.value == 0 <==> Normalize(v1) == Normalize(v2))
  {
    match (Normalize(v1), Normalize(v2))
    case (Some(a), Some(b)) => Success(Cmp(a, b))
    case _ => Failure(ValueError)
  }

  /** The oldest supported server version. */
  const MinSupported := "0.9.5"

  /**
   * `_connection_test` once the request has answered: the value of the
   * `x-influxdb-version` header, if any, decides; an absent or empty header,
   * or one that `_compare_versions` raises on, means unsupported.
   */
  function Supported(header: Option<string>): bool
  {
    header.Some? && header.value != "" &&
    match CompareVersions(header.value, MinSupported)
    case Success(c) => c >= 0
    case Failure(_) => false
  }

  // ---------------------------------------------------------------- properties

  lemma DigitValue(d: nat)
    requires d < 10
    ensures Digit(d) as int - '0' as int == d
  {
    if d == 0 {} else if d == 1 {} else if d == 2 {} else if d == 3 {} else if d == 4 {}
    else if d == 5 {} else if d == 6 {} else if d == 7 {} else if d == 8 {} else {}
  }

  /** `int(str(n)) == n` */
  lemma {:induction false} DigitsRoundTrip(n: nat)
    ensures DigitsValue(NatToString(n)) == n
  {
    var s := NatToString(n);
    DigitValue(n % 10);
    if n >= 10 {
      DigitsRoundTrip(n / 10);
      assert s[..|s| - 1] == NatToString(n / 10);
    }
  }

  /** `int` reads back what `str` writes for a natural number. */
  lemma ParseIntRoundTrip(n: nat)
    ensures ParseInt(NatToString(n)) == Some(n)
  {
    var s := NatToString(n);
    assert LStrip(s) == s by { assert !IsSpace(s[0]); }
    assert RStrip(s) == s by { assert !IsSpace(s[|s| - 1]); }
    assert s[0] != '+' && s[0] != '-';
    DigitsRoundTrip(n);
  }

  /** A dash separates components exactly as a dot does. */
  lemma DashIsDot(a: string, b: string)
    ensures Normalize(a + "-" + b) == Normalize(a + "." + b)
  {
    var x, y := a + "-" + b, a + "." + b;
    assert DashesToDots(x) == DashesToDots(y) by {
      forall i | 0 <= i < |x| ensures DashesToDots(x)[i] == DashesToDots(y)[i] {
        if i < |a| { assert x[i] == y[i]; }
        else if i > |a| { assert x[i] == y[i]; }
      }
    }
  }

  /** `n` zeros. */
  function Zeros(n: nat): (z: string)
    ensures |z| == n && forall i :: 0 <= i < n ==> z[i] == '0'
  {
    if n == 0 then "" else Zeros(n - 1) + "0"
  }

  /** A block of `n` zeros ends in exactly `n` zeros. */
  lemma {:induction false} BlockTrailingZeros(s: string, n: nat)
    ensures TrailingZeros(s + "." + Zeros(n)) == n
  {
    if n > 0 {
      BlockTrailingZeros(s, n - 1);
      assert (s + "." + Zeros(n))[..|s| + n] == s + "." + Zeros(n - 1);
    }
  }

  /** Removing the zero blocks is unaffected by one more block at the end. */
  lemma TrimBlockAppended(s: string, n: nat)
    requires n >= 1
    ensures TrimZeroBlocks(s + "." + Zeros(n)) == TrimZeroBlocks(s)
  {
    var t := s + "." + Zeros(n);
    BlockTrailingZeros(s, n);
    assert t[|t| - n - 1] == '.';
    assert t[..|t| - n - 1] == s;
  }

  /**
   * A trailing `.0`, `.00`, ... component is dropped, so `"1.0.0"` and `"1"`
   * normalise alike; `v` must not end in a newline, before which Python's `$`
   * would also stop.
   */
  lemma TrailingZeroComponentDropped(v: string, n: nat)
    requires n >= 1 && (v == [] || v[|v| - 1] != '\n')
    ensures Normalize(v + "." + Zeros(n)) == Normalize(v)
  {
    var w := DashesToDots(v);
    DashesToDotsBlock(v, n);
    assert w == [] || w[|w| - 1] != '\n';
    TrimBlockAppended(w, n);
  }

  /** Replacing dashes leaves an appended block of zeros alone. */
  lemma DashesToDotsBlock(v: string, n: nat)
    ensures DashesToDots(v + "." + Zeros(n)) == DashesToDots(v) + "." + Zeros(n)
  {
    var t := v + "." + Zeros(n);
    forall i | 0 <= i < |t| ensures DashesToDots(t)[i] == (DashesToDots(v) + "." + Zeros(n))[i] {
      if i < |v| { assert t[i] == v[i]; }
    }
  }

  /** The decimal forms of `ns`. */
  function Decimals(ns: seq<nat>): (parts: seq<string>)
    ensures |parts| == |ns| && forall i :: 0 <= i < |ns| ==> parts[i] == NatToString(ns[i])
  {
    if ns == [] then [] else [NatToString(ns[0])] + Decimals(ns[1..])
  }

  /** The version string `"a.b.c"` with the components `ns`. */
  function Dotted(ns: seq<nat>): string
  {
    Join(Decimals(ns), ".")
  }

  /** The first `c` of `a + b` is the first of `b` when `a` has none. */
  lemma {:induction false} IndexAfter(a: string, b: string, c: char)
    requires c !in a && b != [] && b[0] == c
    ensures IndexOf(a + b, c) == |a|
  {
    if a != [] {
      assert (a + b)[1..] == a[1..] + b;
      IndexAfter(a[1..], b, c);
    }
  }

  /** Splitting on a separator that no part contains undoes joining. */
  lemma {:induction false} SplitJoin(parts: seq<string>, sep: char)
    requires parts != [] && forall i :: 0 <= i < |parts| ==> sep !in parts[i]
    ensures SplitOn(Join(parts, [sep]), sep) == parts
  {
    var s := Join(parts, [sep]);
    if |parts| > 1 {
      var head, tail := parts[0], Join(parts[1..], [sep]);
      assert s == head + ([sep] + tail);
      assert sep in s by { assert s[|head|] == sep; }
      IndexAfter(head, [sep] + tail, sep);
      assert s[..|head|] == head && s[|head| + 1..] == tail;
      assert SplitOn(s, sep) == [head] + SplitOn(tail, sep);
      SplitJoin(parts[1..], sep);
      assert parts == [head] + parts[1..];
    }
  }

  /** The digits and dots of a dotted version. */
  lemma {:induction false} DottedChars(ns: seq<nat>)
    ensures forall i :: 0 <= i < |Dotted(ns)| ==> IsDigit(Dotted(ns)[i]) || Dotted(ns)[i] == '.'
  {
    if |ns| > 1 {
      DottedChars(ns[1..]);
      var head, tail := NatToString(ns[0]), Dotted(ns[1..]);
      assert Decimals(ns)[1..] == Decimals(ns[1..]);
      assert Dotted(ns) == head + "." + tail;
      forall i | 0 <= i < |Dotted(ns)| ensures IsDigit(Dotted(ns)[i]) || Dotted(ns)[i] == '.' {
        if i > |head| { assert Dotted(ns)[i] == tail[i - |head| - 1]; }
      }
    }
  }

  /** A dotted version ends in its last component. */
  lemma {:induction false} DottedEnds(ns: seq<nat>) returns (p: string)
    requires ns != []
    ensures Dotted(ns) == p + NatToString(ns[|ns| - 1])
  {
    if |ns| > 1 {
      var q := DottedEnds(ns[1..]);
      assert Decimals(ns)[1..] == Decimals(ns[1..]);
      p := NatToString(ns[0]) + "." + q;
    } else {
      p := [];
    }
  }

  /** Only zero is written with zeros alone. */
  lemma {:induction false} ZeroDigits(s: string)
    requires forall i :: 0 <= i < |s| ==> IsDigit(s[i])
    ensures TrailingZeros(s) == |s| ==> DigitsValue(s) == 0
  {
    if s != [] && TrailingZeros(s) == |s| {
      ZeroDigits(s[..|s| - 1]);
    }
  }

  /** Trailing zeros that stop inside `d` are those of `p + d`. */
  lemma {:induction false} TrailingZerosWithin(p: string, d: string)
    requires TrailingZeros(d) < |d|
    ensures TrailingZeros(p + d) == TrailingZeros(d)
  {
    if d[|d| - 1] == '0' {
      assert (p + d)[..|p + d| - 1] == p + d[..|d| - 1];
      TrailingZerosWithin(p, d[..|d| - 1]);
    }
  }

  /** A version whose last component is not zero has no zero blocks to remove. */
  lemma NothingTrimmed(p: string, m: nat)
    requires m != 0
    ensures TrimZeroBlocks(p + NatToString(m)) == p + NatToString(m)
  {
    NoFinalBlock(p, m);
  }

  /** A non-zero last component is not a block: its trailing zeros follow a digit. */
  lemma NoFinalBlock(p: string, m: nat)
    requires m != 0
    ensures var v := p + NatToString(m); var z := TrailingZeros(v);
      z < |v| && v[|v| - z - 1] != '.'
  {
    var v, d := p + NatToString(m), NatToString(m);
    var z := TrailingZeros(d);
    assert z < |d| by {
      DigitsRoundTrip(m);
      ZeroDigits(d);
    }
    TrailingZerosWithin(p, d);
    assert v[|v| - z - 1] == d[|d| - z - 1];
    assert IsDigit(d[|d| - z - 1]);
  }

  /** The components of a dotted version are its decimal parts. */
  lemma SplitDotted(ns: seq<nat>)
    requires ns != []
    ensures SplitOn(Dotted(ns), '.') == Decimals(ns)
  {
    forall i | 0 <= i < |ns| ensures '.' !in Decimals(ns)[i] {
      assert Decimals(ns)[i] == NatToString(ns[i]);
    }
    SplitJoin(Decimals(ns), '.');
  }

  /** Every decimal part parses back to its number. */
  lemma ParseDecimals(ns: seq<nat>)
    ensures ParseAll(Decimals(ns)) == Some(ns)
  {
    var parts := Decimals(ns);
    forall i | 0 <= i < |ns| ensures ParseInt(parts[i]) == Some(ns[i] as int) {
      ParseIntRoundTrip(ns[i]);
    }
    var r := ParseAll(parts);
    assert r.value == ns;
  }

  /**
   * A version written from components whose last one is not zero normalises
   * back to those components.
   */
  lemma NormalizeDotted(ns: seq<nat>)
    requires ns != [] && ns[|ns| - 1] != 0
    ensures Normalize(Dotted(ns)) == Some(ns)
  {
    var v := Dotted(ns);
    DottedChars(ns);
    assert DashesToDots(v) == v;
    var p := DottedEnds(ns);
    NothingTrimmed(p, ns[|ns| - 1]);
    assert StripZeroSuffix(v) == v;
    SplitDotted(ns);
    ParseDecimals(ns);
  }

  /** `"1.0.0"` and `"1"` compare equal. */
  lemma OnePointZeroPointZero(v: string, w: string)
    requires v == "1.0.0" && w == "1"
    ensures CompareVersions(v, w) == Success(0)
  {
    assert w == Dotted([1]);
    assert v == (w + "." + Zeros(1)) + "." + Zeros(1);
    TrailingZeroComponentDropped(w + "." + Zeros(1), 1);
    TrailingZeroComponentDropped(w, 1);
    NormalizeDotted([1]);
  }

  /**
   * A component may have blanks after its sign: `"a.+ b"` normalises as
   * `"a.b"` does (so `"1.+ 1"` and `"1.1"` compare equal), as `int` skips
   * the blanks.
   */
  lemma BlankAfterSignCompares(a: string, b: string)
    requires IsDigits(a) && IsDigits(b) && b[|b| - 1] != '0'
    ensures Normalize(a + ".+ " + b) == Some([DigitsValue(a), DigitsValue(b)])
    ensures CompareVersions(a + ".+ " + b, a + "." + b) == Success(0)
  {
    SignedVersion(a, b);
    PlainVersion(a, b);
  }

  lemma SignedVersion(a: string, b: string)
    requires IsDigits(a) && IsDigits(b) && b[|b| - 1] != '0'
    ensures Normalize(a + ".+ " + b) == Some([DigitsValue(a), DigitsValue(b)])
  {
    var x := SignedPart(b);
    assert a + ".+ " + b == a + "." + x;
    assert x[|x| - 1] == b[|b| - 1];
    DigitsPart(a);
    NormalizeTwo(a, x, DigitsValue(a), DigitsValue(b));
  }

  lemma PlainVersion(a: string, b: string)
    requires IsDigits(a) && IsDigits(b) && b[|b| - 1] != '0'
    ensures Normalize(a + "." + b) == Some([DigitsValue(a), DigitsValue(b)])
  {
    DigitsPart(a);
    DigitsPart(b);
    NormalizeTwo(a, b, DigitsValue(a), DigitsValue(b));
  }

  /** Two parts joined by a dot normalise to what the parts read as. */
  lemma NormalizeTwo(p: string, q: string, m: int, n: int)
    requires '.' !in p && '.' !in q && '-' !in p && '-' !in q
    requires q != [] && q[|q| - 1] != '0' && q[|q| - 1] != '\n'
    requires ParseInt(p) == Some(m) && ParseInt(q) == Some(n)
    ensures Normalize(p + "." + q) == Some([m, n])
  {
    SplitTwo(p, q);
    ParseTwo(p, q, m, n);
  }

  /** Two parts joined by a dot split back into those parts. */
  lemma SplitTwo(p: string, q: string)
    requires '.' !in p && '.' !in q && '-' !in p && '-' !in q
    requires q != [] && q[|q| - 1] != '0' && q[|q| - 1] != '\n'
    ensures SplitOn(StripZeroSuffix(DashesToDots(p + "." + q)), '.') == [p, q]
  {
    var v := p + "." + q;
    NoDashesJoined(p, q);
    assert v[|v| - 1] == q[|q| - 1];
    NoZeroEnd(v);
    assert v == Join([p, q], ".");
    SplitJoin([p, q], '.');
  }

  /** A version that does not end in a zero or a newline has nothing to strip. */
  lemma NoZeroEnd(v: string)
    requires v != [] && v[|v| - 1] != '0' && v[|v| - 1] != '\n'
    ensures StripZeroSuffix(v) == v
  {
    assert TrailingZeros(v) == 0;
  }

  /** Digits read as their value and hold no dot or dash. */
  lemma DigitsPart(a: string)
    requires IsDigits(a)
    ensures '.' !in a && '-' !in a && ParseInt(a) == Some(DigitsValue(a))
  {
    Absent(a, '.');
    Absent(a, '-');
    assert a == [] + [] + [] + a + [];
    UnsignedAccepts([], [], a, []);
  }

  /** `"+ " + b` for digits `b`: no dot or dash, and it reads as the digits. */
  lemma SignedPart(b: string) returns (x: string)
    requires IsDigits(b)
    ensures x == "+ " + b && '.' !in x && '-' !in x
    ensures ParseInt(x) == Some(DigitsValue(b))
  {
    x := "+ " + b;
    forall i | 0 <= i < |x| ensures x[i] != '.' && x[i] != '-' {
      if i >= 2 { assert x[i] == b[i - 2]; } else if i == 1 { assert x[i] == ' '; } else { assert x[i] == '+'; }
    }
    Absent(x, '.');
    Absent(x, '-');
    assert x == [] + "+" + " " + b + [];
    SignedAccepts([], "+", " ", b, []);
  }

  lemma Absent(s: string, c: char)
    requires forall i :: 0 <= i < |s| ==> s[i] != c
    ensures c !in s
  {
  }

  /** Two parts without dashes joined by a dot have no dash. */
  lemma NoDashesJoined(a: string, x: string)
    requires '-' !in a && '-' !in x
    ensures DashesToDots(a + "." + x) == a + "." + x
  {
    var v := a + "." + x;
    forall i | 0 <= i < |v| ensures v[i] != '-' {
      if i < |a| { assert v[i] == a[i]; } else if i > |a| { assert v[i] == x[i - |a| - 1]; }
    }
  }

  /** Two parts that parse make a two-component version. */
  lemma ParseTwo(p: string, q: string, m: int, n: int)
    requires ParseInt(p) == Some(m) && ParseInt(q) == Some(n)
    ensures ParseAll([p, q]) == Some([m, n])
  {
    var parts := [p, q];
    assert ParseInt(parts[0]).Some? && ParseInt(parts[1]).Some?;
    var r := ParseAll(parts);
    assert r.Some? && |r.value| == 2 && r.value[0] == m && r.value[1] == n;
    assert r.value == [m, n];
  }

  /** The threshold normalises to its three components. */
  lemma MinSupportedComponents()
    ensures Normalize(MinSupported) == Some([0, 9, 5])
  {
    assert MinSupported == Dotted([0, 9, 5]);
    NormalizeDotted([0, 9, 5]);
  }

  /**
   * `_connection_test` accepts a version exactly when its components are not
   * lexicographically smaller than those of 0.9.5.
   */
  lemma SupportedIff(v: string)
    ensures Supported(Some(v)) <==> v != "" && Normalize(v).Some? && !LexLess(Normalize(v).value, [0, 9, 5])
  {
    MinSupportedComponents();
    var n := Normalize(v);
    if n.Some? {
      CmpLexicographic(n.value, [0, 9, 5]);
      assert CompareVersions(v, MinSupported) == Success(Cmp(n.value, [0, 9, 5]));
    }
  }

  /** 0.10.0 is newer than 0.9.5: components compare as numbers, not as text. */
  lemma TenIsNewerThanNine(v: string)
    requires v == "0.10.0"
    ensures Supported(Some(v))
  {
    ZeroTenComponents(v);
    SupportedIff(v);
    TenAfterNine();
  }

  lemma TenAfterNine()
    ensures !LexLess([0, 10], [0, 9, 5])
  {
    var a, b := [0, 10], [0, 9, 5];
    assert a != b[..|a|] by { assert a[1] != b[..|a|][1]; }
    forall i | 0 <= i < |a| && i < |b| ensures !(a[..i] == b[..i] && a[i] < b[i]) {
      assert a[i] >= b[i];
    }
  }

  lemma ZeroTenComponents(v: string)
    requires v == "0.10.0"
    ensures Normalize(v) == Some([0, 10])
  {
    var ten := Dotted([0, 10]);
    assert v == ten + "." + Zeros(1);
    TrailingZeroComponentDropped(ten, 1);
    NormalizeDotted([0, 10]);
  }
}

=== FILE: json.dfy ===
/**
 * Decoded JSON documents, as the checks receive them. A `JStr` is a Python 2
 * byte `str`; the `unicode` strings that `json.loads` yields are not modelled.
 */
module Json {
  datatype Json =
    | JNum(n: real)
    | JBool(b: bool)
    | JStr(s: string)
    | JDict(entries: seq<(string, Json)>)
    | JList(items: seq<Json>)
    | JNull

  /** `isinstance(x, Number)`: Python's booleans are numbers too. */
  predicate IsNumber(j: Json)
  {
    j.JNum? || j.JBool?
  }

  /** `float(x)` of a number. */
  function NumberValue(j: Json): real
    requires IsNumber(j)
  {
    match j
    case JNum(n) => n
    case JBool(b) => if b then 1.0 else 0.0
  }
}

=== FILE: list_order.dfy ===
/**
 * Python's ordering of lists of integers, which both the InfluxDB plugin
 * (`cmp` of two version lists) and the Elasticsearch check (`version >=
 * [1, 0, 0]` and the like) rely on.
 */
module ListOrder {
  /** Python 2's `cmp(a, b)` on two lists of integers. */
  function Cmp(a: seq<int>, b: seq<int>): (r: int)
    ensures -1 <= r <= 1
    ensures r == 0 <==> a == b
  {
    if a == [] && b == [] then 0
    else if a == [] then -1
    else if b == [] then 1
    else if a[0] < b[0] then -1
    else if a[0] > b[0] then 1
    else
      var r := Cmp(a[1..], b[1..]);
      assert a == [a[0]] + a[1..] && b == [b[0]] + b[1..];
      r
  }

  /** Lexicographic order: a proper prefix is smaller, otherwise the first difference decides. */
  predicate LexLess(a: seq<int>, b: seq<int>)
  {
    (|a| < |b| && a == b[..|a|]) ||
    (exists i :: 0 <= i < |a| && i < |b| && a[..i] == b[..i] && a[i] < b[i])
  }

  /** `cmp` of two lists is negative exactly when the first is lexicographically smaller. */
  lemma {:induction false} CmpLexicographic(a: seq<int>, b: seq<int>)
    ensures Cmp(a, b) < 0 <==> LexLess(a, b)
  {
    if a == [] || b == [] {
    } else if a[0] < b[0] {
      assert a[..0] == b[..0];
    } else if a[0] > b[0] {
      if |a| < |b| {
        assert b[..|a|][0] == b[0];
      }
      forall i | 0 <= i < |a| && i < |b| ensures !(a[..i] == b[..i] && a[i] < b[i]) {
        if i > 0 {
          assert a[..i][0] != b[..i][0];
        }
      }
    } else {
      CmpLexicographic(a[1..], b[1..]);
      LexLessTail(a, b);
    }
  }

  /** Two lists with the same head are ordered as their tails are. */
  lemma LexLessTail(a: seq<int>, b: seq<int>)
    requires a != [] && b != [] && a[0] == b[0]
    ensures LexLess(a, b) <==> LexLess(a[1..], b[1..])
  {
    if LexLess(a, b) {
      LexLessDropHead(a, b);
    }
    if LexLess(a[1..], b[1..]) {
      LexLessAddHead(a, b);
    }
  }

  lemma LexLessDropHead(a: seq<int>, b: seq<int>)
    requires a != [] && b != [] && a[0] == b[0] && LexLess(a, b)
    ensures LexLess(a[1..], b[1..])
  {
    var a', b' := a[1..], b[1..];
    if |a| < |b| && a == b[..|a|] {
      assert a' == b'[..|a'|];
    } else {
      var i :| 0 <= i < |a| && i < |b| && a[..i] == b[..i] && a[i] < b[i];
      assert i > 0;
      assert a'[..i - 1] == a[..i][1..] && b'[..i - 1] == b[..i][1..];
      assert a'[i - 1] == a[i] && b'[i - 1] == b[i];
    }
  }

  lemma LexLessAddHead(a: seq<int>, b: seq<int>)
    requires a != [] && b != [] && a[0] == b[0] && LexLess(a[1..], b[1..])
    ensures LexLess(a, b)
  {
    var a', b' := a[1..], b[1..];
    if |a'| < |b'| && a' == b'[..|a'|] {
      assert a == [a[0]] + a' && b[..|a|] == [b[0]] + b'[..|a'|];
    } else {
      var i :| 0 <= i < |a'| && i < |b'| && a'[..i] == b'[..i] && a'[i] < b'[i];
      assert a[..i + 1] == [a[0]] + a'[..i] && b[..i + 1] == [b[0]] + b'[..i];
      assert a[i + 1] == a'[i] && b[i + 1] == b'[i];
    }
  }

  /** Swapping the arguments of `cmp` negates the answer. */
  lemma {:induction false} CmpAntisymmetric(a: seq<int>, b: seq<int>)
    ensures Cmp(b, a) == -Cmp(a, b)
  {
    if a != [] && b != [] && a[0] == b[0] {
      CmpAntisymmetric(a[1..], b[1..]);
    }
  }

  /** `a < b` on lists */
  predicate Below(a: seq<int>, b: seq<int>)
  {
    Cmp(a, b) < 0
  }

  /** `a >= b` on lists */
  predicate AtLeast(a: seq<int>, b: seq<int>)
  {
    Cmp(a, b) >= 0
  }

  /** `a <= b` on lists */
  predicate AtMost(a: seq<int>, b: seq<int>)
  {
    Cmp(a, b) <= 0
  }

  /** The order is transitive. */
  lemma {:induction false} CmpTransitive(a: seq<int>, b: seq<int>, c: seq<int>)
    requires Cmp(a, b) <= 0 && Cmp(b, c) <= 0
    ensures Cmp(a, c) <= 0
  {
    if a != [] && b != [] && c != [] && a[0] == b[0] && b[0] == c[0] {
      CmpTransitive(a[1..], b[1..], c[1..]);
    }
  }
}

=== FILE: metric_name.dfy ===
/**
 * Canonical metric names (`DynamicCheckHelper._normalize_metricname`): the
 * capture groups of the matching pattern, joined by '_', replace the input
 * name; then dots become '_', CamelCase becomes snake_case, the result is
 * lower-cased, special characters become '_', runs of '_' collapse and one
 * leading and one trailing '_' are dropped.
 */
module MetricName {
  import opened Wrappers
  import opened Text

  /** `[,\+\*\-/()\[\]{}]` */
  const SpecialChars: set<char> := {',', '+', '*', '-', '/', '(', ')', '[', ']', '{', '}'}

  /** `re.sub('(?!^)([A-Z]+)', r'_\1', s)`: '_' before every run of capitals that does not start the string. */
  function SnakeCase(s: string): string
  {
    if s == [] then [] else [s[0]] + SnakeTail(s[1..], false)
  }

  /** `inRun`: the character before `s` is a capital that already received its '_'. */
  function SnakeTail(s: string, inRun: bool): string
  {
    if s == [] then []
    else if IsUpper(s[0]) then (if inRun then [s[0]] else ['_', s[0]]) + SnakeTail(s[1..], true)
    else [s[0]] + SnakeTail(s[1..], false)
  }

  /** `re.sub(r"__+", "_", s)` */
  function Collapse(s: string): string
    decreases |s|
  {
    if s == [] then []
    else if |s| >= 2 && s[0] == '_' && s[1] == '_' then Collapse(s[1..])
    else [s[0]] + Collapse(s[1..])
  }

  /** `re.sub(r"^_", "", s)` */
  function StripLeading(s: string): string
  {
    if s != [] && s[0] == '_' then s[1..] else s
  }

  /**
   * `re.sub(r"_$", "", s)`: Python's `$` also matches just before a newline
   * that ends the string, so a '_' there is removed as well.
   */
  function StripTrailing(s: string): string
  {
    if s != [] && s[|s| - 1] == '_' then s[..|s| - 1]
    else if |s| >= 2 && s[|s| - 2] == '_' && s[|s| - 1] == '\n' then s[..|s| - 2] + "\n"
    else s
  }

  /** Dots to '_', then snake_case, "__" to '_' and lower case (utils.py line 665). */
  function Prepare(s: string): string
  {
    Lower(Replace(SnakeCase(MapChars(s, {'.'}, '_')), "__", "_"))
  }

  /** Special characters to '_', runs of '_' collapsed, one '_' dropped at each end (lines 666-671). */
  function Cleanup(s: string): string
  {
    StripTrailing(StripLeading(Collapse(MapChars(s, SpecialChars, '_'))))
  }

  /** `re.sub(r"\._", ".", s)` then `re.sub(r"_\.", ".", s)` (lines 673-674). */
  function DropDotUnderscore(s: string): string
  {
    Replace(Replace(s, "._", "."), "_.", ".")
  }

  /** The substitution pipeline of `_normalize_metricname`, applied to the chosen name. */
  function Canonical(s: string): string
  {
    DropDotUnderscore(Cleanup(Prepare(s)))
  }

  /** The name the pipeline starts from: the joined capture groups when there are any, else the input name. */
  function SourceName(metric: string, groups: Option<seq<string>>): string
  {
    if groups.Some? && |groups.value| > 0 then Join(groups.value, "_") else metric
  }

  /** `_normalize_metricname(metric, match_groups)` */
  function NormalizeMetricName(metric: string, groups: Option<seq<string>>): (r: string)
    ensures IsCanonical(r)
  {
    CanonicalIsCanonical(SourceName(metric, groups));
    Canonical(SourceName(metric, groups))
  }

  // ---------------------------------------------------------------- properties

  predicate GoodChar(c: char)
  {
    !IsUpper(c) && c != '.' && c !in SpecialChars
  }

  predicate NoDoubleUnderscore(s: string)
  {
    forall i :: 0 <= i < |s| - 1 ==> !(s[i] == '_' && s[i + 1] == '_')
  }

  /** Lower-case, no '.', no special character, no "__", no '_' at either end. */
  predicate IsCanonical(s: string)
  {
    && (forall i :: 0 <= i < |s| ==> GoodChar(s[i]))
    && NoDoubleUnderscore(s)
    && (s == [] || (s[0] != '_' && s[|s| - 1] != '_'))
  }

  /** Every character of `r` is '_' or occurs in `s`. */
  ghost predicate CharsFrom(r: string, s: string)
  {
    forall i :: 0 <= i < |r| ==> r[i] == '_' || r[i] in s
  }

  lemma {:induction false} SnakeTailChars(s: string, inRun: bool)
    ensures CharsFrom(SnakeTail(s, inRun), s)
  {
    if s != [] {
      SnakeTailChars(s[1..], IsUpper(s[0]));
      var r := SnakeTail(s, inRun);
      var tail := SnakeTail(s[1..], IsUpper(s[0]));
      forall i | 0 <= i < |r| ensures r[i] == '_' || r[i] in s {
        var head: string := if IsUpper(s[0]) then (if inRun then [s[0]] else ['_', s[0]]) else [s[0]];
        assert r == head + tail;
        if i >= |head| {
          assert r[i] == tail[i - |head|];
          assert tail[i - |head|] == '_' || tail[i - |head|] in s[1..];
        }
      }
    }
  }

  lemma SnakeCaseChars(s: string)
    ensures CharsFrom(SnakeCase(s), s)
  {
    if s != [] {
      SnakeTailChars(s[1..], false);
      var r := SnakeCase(s);
      var tail := SnakeTail(s[1..], false);
      forall i | 0 <= i < |r| ensures r[i] == '_' || r[i] in s {
        if i >= 1 {
          assert r[i] == tail[i - 1];
          assert tail[i - 1] == '_' || tail[i - 1] in s[1..];
        }
      }
    }
  }

  lemma {:induction false} ReplaceDoubleChars(s: string)
    ensures CharsFrom(Replace(s, "__", "_"), s)
    decreases |s|
  {
    if s != [] {
      var r := Replace(s, "__", "_");
      if "__" <= s {
        ReplaceDoubleChars(s[2..]);
        var tail := Replace(s[2..], "__", "_");
        forall i | 0 <= i < |r| ensures r[i] == '_' || r[i] in s {
          if i >= 1 {
            assert r[i] == tail[i - 1];
            assert tail[i - 1] == '_' || tail[i - 1] in s[2..];
          }
        }
      } else {
        ReplaceDoubleChars(s[1..]);
        var tail := Replace(s[1..], "__", "_");
        forall i | 0 <= i < |r| ensures r[i] == '_' || r[i] in s {
          if i >= 1 {
            assert r[i] == tail[i - 1];
            assert tail[i - 1] == '_' || tail[i - 1] in s[1..];
          }
        }
      }
    }
  }

  /** `Collapse` only drops underscores: it keeps the first character and leaves no "__". */
  lemma {:induction false} CollapseFacts(s: string)
    ensures var r := Collapse(s);
      && (forall i :: 0 <= i < |r| ==> r[i] in s)
      && (s != [] ==> r != [] && r[0] == s[0])
      && NoDoubleUnderscore(r)
    decreases |s|
  {
    if s != [] {
      CollapseFacts(s[1..]);
      var r := Collapse(s);
      var tail := Collapse(s[1..]);
      if !(|s| >= 2 && s[0] == '_' && s[1] == '_') {
        assert r == [s[0]] + tail;
        forall i | 0 <= i < |r| ensures r[i] in s {
          if i >= 1 { assert r[i] == tail[i - 1]; assert tail[i - 1] in s[1..]; }
        }
        forall i | 0 <= i < |r| - 1 ensures !(r[i] == '_' && r[i + 1] == '_') {
          if i >= 1 { assert r[i] == tail[i - 1] && r[i + 1] == tail[i]; }
        }
      } else {
        forall i | 0 <= i < |r| ensures r[i] in s {
          assert r[i] in s[1..];
        }
      }
    }
  }

  /** What the last two steps do to a string with no "__" that does not start with '_'. */
  lemma StripTrailingFacts(s: string)
    requires NoDoubleUnderscore(s) && (s == [] || s[0] != '_')
    ensures var r := StripTrailing(s);
      && (forall i :: 0 <= i < |r| ==> r[i] in s)
      && NoDoubleUnderscore(r)
      && (r == [] || (r[0] != '_' && r[|r| - 1] != '_'))
  {
    var r := StripTrailing(s);
    if s != [] && s[|s| - 1] == '_' {
      assert |s| >= 2 ==> s[|s| - 2] != '_';
    } else if |s| >= 2 && s[|s| - 2] == '_' && s[|s| - 1] == '\n' {
      assert r == s[..|s| - 2] + "\n";
      forall i | 0 <= i < |r| ensures r[i] in s {
        if i < |s| - 2 { assert r[i] == s[i]; } else { assert r[i] == s[|s| - 1]; }
      }
      forall i | 0 <= i < |r| - 1 ensures !(r[i] == '_' && r[i + 1] == '_') {
        if i + 1 < |s| - 2 { assert r[i] == s[i] && r[i + 1] == s[i + 1]; } else { assert r[i + 1] == '\n'; }
      }
      assert |s| - 2 > 0;
      assert r[0] == s[0];
    }
  }

  predicate AllGood(s: string)
  {
    forall i :: 0 <= i < |s| ==> GoodChar(s[i])
  }

  /** Snake-casing and the "__" substitution bring no '.' back. */
  lemma SnakeKeepsDotless(s: string)
    requires '.' !in s
    ensures '.' !in Replace(SnakeCase(s), "__", "_")
  {
    var snake := SnakeCase(s);
    SnakeCaseChars(s);
    assert '.' !in snake;
    ReplaceDoubleChars(snake);
  }

  /** Lower-casing and the special-character substitution leave only good characters. */
  lemma LowerSpecialGood(s: string)
    requires '.' !in s
    ensures AllGood(MapChars(Lower(s), SpecialChars, '_'))
  {
    var lowered := Lower(s);
    forall i | 0 <= i < |lowered| ensures lowered[i] != '.' && !IsUpper(lowered[i]) {
      assert lowered[i] == LowerChar(s[i]);
      assert s[i] != '.';
    }
  }

  /** The three underscore steps keep only good characters and leave a canonical string. */
  lemma CleanupCanonical(s: string)
    requires AllGood(s)
    ensures IsCanonical(StripTrailing(StripLeading(Collapse(s))))
  {
    var collapsed := Collapse(s);
    CollapseFacts(s);
    assert AllGood(collapsed) by {
      forall i | 0 <= i < |collapsed| ensures GoodChar(collapsed[i]) {
        var k :| 0 <= k < |s| && s[k] == collapsed[i];
      }
    }
    var leading := StripLeading(collapsed);
    assert AllGood(leading);
    assert NoDoubleUnderscore(leading);
    StripTrailingFacts(leading);
    var cleaned := StripTrailing(leading);
    forall i | 0 <= i < |cleaned| ensures GoodChar(cleaned[i]) {
      var j :| 0 <= j < |leading| && leading[j] == cleaned[i];
    }
  }

  /** Every result of the pipeline is canonical. */
  lemma CanonicalIsCanonical(s: string)
    ensures IsCanonical(Canonical(s))
  {
    var dotless := MapChars(s, {'.'}, '_');
    var single := Replace(SnakeCase(dotless), "__", "_");
    SnakeKeepsDotless(dotless);
    LowerSpecialGood(single);
    var cleaned := Cleanup(Prepare(s));
    CleanupCanonical(MapChars(Lower(single), SpecialChars, '_'));
    assert '.' !in cleaned by {
      forall i | 0 <= i < |cleaned| ensures cleaned[i] != '.' { assert GoodChar(cleaned[i]); }
    }
    DropDotUnderscoreAbsent(cleaned);
  }

  lemma DropDotUnderscoreAbsent(s: string)
    requires '.' !in s
    ensures DropDotUnderscore(s) == s
  {
    ReplaceAbsent(s, "._", ".");
    ReplaceNoDotAbsent(s);
  }

  /** Without any '.', the substitution of "_." does nothing. */
  lemma {:induction false} ReplaceNoDotAbsent(s: string)
    requires '.' !in s
    ensures Replace(s, "_.", ".") == s
    decreases |s|
  {
    if s != [] {
      assert !("_." <= s) by { if |s| >= 2 { assert s[1] != '.'; } }
      ReplaceNoDotAbsent(s[1..]);
    }
  }

  // ---------------------------------------------------------------- idempotence

  lemma {:induction false} SnakeTailNoUpper(s: string)
    requires forall i :: 0 <= i < |s| ==> !IsUpper(s[i])
    ensures SnakeTail(s, false) == s
  {
    if s != [] {
      SnakeTailNoUpper(s[1..]);
    }
  }

  lemma {:induction false} ReplaceDoubleAbsent(s: string)
    requires NoDoubleUnderscore(s)
    ensures Replace(s, "__", "_") == s
    decreases |s|
  {
    if s != [] {
      assert !("__" <= s) by { if |s| >= 2 { assert !(s[0] == '_' && s[1] == '_'); } }
      ReplaceDoubleAbsent(s[1..]);
    }
  }

  lemma {:induction false} CollapseAbsent(s: string)
    requires NoDoubleUnderscore(s)
    ensures Collapse(s) == s
    decreases |s|
  {
    if s != [] {
      CollapseAbsent(s[1..]);
    }
  }

  /**
   * A canonical name passes through the pipeline unchanged, unless it ends
   * in '_' followed by a newline (see `TrailingNewlineNotIdempotent`).
   */
  lemma CanonicalFixesCanonical(s: string)
    requires IsCanonical(s)
    requires !(|s| >= 2 && s[|s| - 2] == '_' && s[|s| - 1] == '\n')
    ensures Canonical(s) == s
  {
    PrepareFixes(s);
    CleanupFixes(s);
    DropDotUnderscoreAbsent(s);
  }

  lemma PrepareFixes(s: string)
    requires AllGood(s) && NoDoubleUnderscore(s)
    ensures Prepare(s) == s
  {
    MapCharsAbsent(s, {'.'}, '_');
    if s != [] {
      SnakeTailNoUpper(s[1..]);
    }
    assert SnakeCase(s) == s;
    ReplaceDoubleAbsent(s);
    assert Lower(s) == s;
  }

  lemma CleanupFixes(s: string)
    requires IsCanonical(s)
    requires !(|s| >= 2 && s[|s| - 2] == '_' && s[|s| - 1] == '\n')
    ensures Cleanup(s) == s
  {
    MapCharsAbsent(s, SpecialChars, '_');
    CollapseAbsent(s);
  }

  /** Normalising an already normalised name changes nothing, for names without a newline before a final '_'. */
  lemma NormalizeIdempotent(metric: string, groups: Option<seq<string>>)
    requires var r := NormalizeMetricName(metric, groups); !(|r| >= 2 && r[|r| - 2] == '_' && r[|r| - 1] == '\n')
    ensures NormalizeMetricName(NormalizeMetricName(metric, groups), None) == NormalizeMetricName(metric, groups)
  {
    CanonicalFixesCanonical(NormalizeMetricName(metric, groups));
  }

  /** With capture groups, their '_'-join replaces the input name, which then plays no part. */
  lemma GroupsReplaceName(metric: string, groups: seq<string>)
    requires groups != []
    ensures NormalizeMetricName(metric, Some(groups)) == Canonical(Join(groups, "_"))
  {
  }

  /** Capture groups whose '_'-join is already canonical are reported as that join. */
  lemma CanonicalGroupsKept(metric: string, groups: seq<string>, j: string)
    requires groups != [] && j == Join(groups, "_")
    requires IsCanonical(j) && !(|j| >= 2 && j[|j| - 2] == '_' && j[|j| - 1] == '\n')
    ensures NormalizeMetricName(metric, Some(groups)) == j
  {
    GroupsReplaceName(metric, groups);
    CanonicalFixesCanonical(j);
  }

  /**
   * `_$` also strips a '_' that stands before a final newline: "a_\n_" loses its
   * last '_' and yields "a_\n", which a second pass turns into "a\n".
   */
  lemma TrailingNewlineNotIdempotent()
    ensures Canonical("a_\n_") == "a_\n"
    ensures Canonical("a_\n") == "a\n"
  {
    NewlineFirstPass();
    NewlineSecondPass();
  }

  lemma NewlineFirstPass()
    ensures Canonical("a_\n_") == "a_\n"
  {
    var s := "a_\n_";
    assert |s| == 4 && s[0] == 'a' && s[1] == '_' && s[2] == '\n' && s[3] == '_';
    assert AllGood(s);
    assert NoDoubleUnderscore(s);
    PrepareFixes(s);
    MapCharsAbsent(s, SpecialChars, '_');
    CollapseAbsent(s);
    assert StripTrailing(s) == s[..3];
    assert s[..3] == "a_\n";
    DropDotUnderscoreAbsent("a_\n");
  }

  lemma NewlineSecondPass()
    ensures Canonical("a_\n") == "a\n"
  {
    var s := "a_\n";
    assert |s| == 3 && s[0] == 'a' && s[1] == '_' && s[2] == '\n';
    assert AllGood(s);
    assert NoDoubleUnderscore(s);
    PrepareFixes(s);
    MapCharsAbsent(s, SpecialChars, '_');
    CollapseAbsent(s);
    assert StripTrailing(s) == s[..1] + "\n";
    assert s[..1] + "\n" == "a\n";
    DropDotUnderscoreAbsent("a\n");
  }

  // ---------------------------------------------------------------- documented examples

  /** A canonical string with no trailing newline is a fixed point of the steps after `Prepare`. */
  lemma AfterPrepareFixes(s: string)
    requires IsCanonical(s) && (s == [] || s[|s| - 1] != '\n')
    ensures DropDotUnderscore(Cleanup(s)) == s
  {
    CleanupFixes(s);
    assert '.' !in s by {
      forall i | 0 <= i < |s| ensures s[i] != '.' { assert GoodChar(s[i]); }
    }
    DropDotUnderscoreAbsent(s);
  }

  predicate LowerWord(s: string)
  {
    s != [] && forall i :: 0 <= i < |s| ==> 'a' <= s[i] <= 'z'
  }

  lemma {:induction false} SnakeTailLowerWord(a: string, b: string, inRun: bool)
    requires LowerWord(a)
    ensures SnakeTail(a + b, inRun) == a + SnakeTail(b, false)
    decreases |a|
  {
    assert (a + b)[0] == a[0];
    assert (a + b)[1..] == a[1..] + b;
    if |a| > 1 {
      SnakeTailLowerWord(a[1..], b, false);
    }
  }

  /** Two lower-case words joined by '_' form a canonical name. */
  lemma JoinedWordsCanonical(a: string, b: string)
    requires LowerWord(a) && LowerWord(b)
    ensures IsCanonical(a + "_" + b)
    ensures var s := a + "_" + b; s[|s| - 1] != '\n'
  {
    var s := a + "_" + b;
    forall i | 0 <= i < |s| ensures GoodChar(s[i]) && (s[i] == '_' <==> i == |a|) {
      if i < |a| { assert s[i] == a[i]; }
      else if i > |a| { assert s[i] == b[i - |a| - 1]; }
    }
    assert s[|s| - 1] == b[|b| - 1];
  }

  lemma TwoWordsSnake(u1: char, w1: string, u2: char, w2: string)
    requires IsUpper(u1) && IsUpper(u2) && LowerWord(w1) && LowerWord(w2)
    ensures SnakeCase([u1] + w1 + [u2] + w2) == [u1] + w1 + "_" + [u2] + w2
  {
    var s := [u1] + w1 + [u2] + w2;
    assert s[0] == u1;
    assert s[1..] == w1 + ([u2] + w2);
    SnakeTailLowerWord(w1, [u2] + w2, false);
    var rest := [u2] + w2;
    assert rest[0] == u2 && rest[1..] == w2;
    assert SnakeTail(rest, false) == ['_', u2] + SnakeTail(w2, true);
    SnakeTailLowerWord(w2, [], true);
    assert w2 + [] == w2;
    assert SnakeTail(w2, true) == w2;
  }

  lemma TwoWordsNoDouble(u1: char, w1: string, u2: char, w2: string)
    requires IsUpper(u1) && IsUpper(u2) && LowerWord(w1) && LowerWord(w2)
    ensures NoDoubleUnderscore([u1] + w1 + "_" + [u2] + w2)
  {
    var snake := [u1] + w1 + "_" + [u2] + w2;
    forall i | 0 <= i < |snake| ensures snake[i] == '_' <==> i == |w1| + 1 {
      if 0 < i <= |w1| { assert snake[i] == w1[i - 1]; }
      else if i > |w1| + 2 { assert snake[i] == w2[i - |w1| - 3]; }
    }
  }

  lemma TwoWordsLower(u1: char, w1: string, u2: char, w2: string)
    requires IsUpper(u1) && IsUpper(u2) && LowerWord(w1) && LowerWord(w2)
    ensures Lower([u1] + w1 + "_" + [u2] + w2) == [LowerChar(u1)] + w1 + "_" + [LowerChar(u2)] + w2
  {
    var s := [u1] + w1 + "_" + [u2] + w2;
    var t := [LowerChar(u1)] + w1 + "_" + [LowerChar(u2)] + w2;
    var r := Lower(s);
    forall i | 0 <= i < |s| ensures r[i] == t[i] {
      if 0 < i <= |w1| { assert s[i] == w1[i - 1] && t[i] == w1[i - 1]; }
      else if i > |w1| + 2 { assert s[i] == w2[i - |w1| - 3] && t[i] == w2[i - |w1| - 3]; }
    }
  }

  /**
   * The snake_case split of a name made of an upper-case letter, a lower-case
   * word, another upper-case letter and a lower-case word, such as `FilesystemUsage`.
   */
  lemma TwoWordsPrepare(u1: char, w1: string, u2: char, w2: string)
    requires IsUpper(u1) && IsUpper(u2) && LowerWord(w1) && LowerWord(w2)
    ensures Prepare([u1] + w1 + [u2] + w2) == [LowerChar(u1)] + w1 + "_" + [LowerChar(u2)] + w2
  {
    var s := [u1] + w1 + [u2] + w2;
    assert forall i :: 0 <= i < |s| ==> s[i] != '.' by {
      forall i | 0 <= i < |s| ensures s[i] != '.' {
        if 0 < i <= |w1| { assert s[i] == w1[i - 1]; }
        else if i > |w1| + 1 { assert s[i] == w2[i - |w1| - 2]; }
      }
    }
    MapCharsAbsent(s, {'.'}, '_');
    TwoWordsSnake(u1, w1, u2, w2);
    TwoWordsNoDouble(u1, w1, u2, w2);
    ReplaceDoubleAbsent([u1] + w1 + "_" + [u2] + w2);
    TwoWordsLower(u1, w1, u2, w2);
  }

  /** A capital lowered in front of a lower-case word makes a lower-case word. */
  lemma LoweredWord(u: char, w: string)
    requires IsUpper(u) && LowerWord(w)
    ensures LowerWord([LowerChar(u)] + w)
  {
    var a := [LowerChar(u)] + w;
    forall i | 0 <= i < |a| ensures 'a' <= a[i] <= 'z' {
      if i > 0 { assert a[i] == w[i - 1]; }
    }
  }

  /** Two capitalised lower-case words, lowered and joined by '_', form a canonical name. */
  lemma TwoWordsCanonical(u1: char, w1: string, u2: char, w2: string)
    requires IsUpper(u1) && IsUpper(u2) && LowerWord(w1) && LowerWord(w2)
    ensures var r := [LowerChar(u1)] + w1 + "_" + [LowerChar(u2)] + w2;
      IsCanonical(r) && r[|r| - 1] != '\n'
  {
    var a, b := [LowerChar(u1)] + w1, [LowerChar(u2)] + w2;
    LoweredWord(u1, w1);
    LoweredWord(u2, w2);
    JoinedWordsCanonical(a, b);
    assert a + "_" + b == [LowerChar(u1)] + w1 + "_" + [LowerChar(u2)] + w2;
  }

  /** Two capitalised lower-case words normalise to the two lower-case words joined by '_'. */
  lemma TwoWordsNormalize(u1: char, w1: string, u2: char, w2: string)
    requires IsUpper(u1) && IsUpper(u2) && LowerWord(w1) && LowerWord(w2)
    ensures NormalizeMetricName([u1] + w1 + [u2] + w2, None) == [LowerChar(u1)] + w1 + "_" + [LowerChar(u2)] + w2
  {
    TwoWordsPrepare(u1, w1, u2, w2);
    TwoWordsCanonical(u1, w1, u2, w2);
    NormalizePrepared([u1] + w1 + [u2] + w2, [LowerChar(u1)] + w1 + "_" + [LowerChar(u2)] + w2);
  }

  /** `rates: ['FilesystemUsage']` reports the metric as `filesystem_usage`. */
  lemma FilesystemUsageExample()
    ensures NormalizeMetricName("FilesystemUsage", None) == "filesystem_usage"
  {
    FilesystemUsageWords();
    TwoWordsNormalize('F', "ilesystem", 'U', "sage");
    FilesystemUsageJoined();
  }

  lemma FilesystemUsageWords()
    ensures "FilesystemUsage" == ['F'] + "ilesystem" + ['U'] + "sage"
    ensures LowerWord("ilesystem") && LowerWord("sage")
  {
  }

  lemma FilesystemUsageJoined()
    ensures [LowerChar('F')] + "ilesystem" + "_" + [LowerChar('U')] + "sage" == "filesystem_usage"
  {
    assert LowerChar('F') == 'f' && LowerChar('U') == 'u';
  }

  /** A '_' and a lower-case word appended to a canonical name keep it canonical. */
  lemma CanonicalThenWord(x: string, w: string)
    requires IsCanonical(x) && x != [] && LowerWord(w)
    ensures IsCanonical(x + "_" + w)
    ensures var s := x + "_" + w; s[|s| - 1] != '\n'
  {
    var s := x + "_" + w;
    forall i | 0 <= i < |s| ensures GoodChar(s[i]) {
      if i < |x| { assert s[i] == x[i]; }
      else if i > |x| { assert s[i] == w[i - |x| - 1]; }
    }
    forall i | 0 <= i < |s| - 1 ensures !(s[i] == '_' && s[i + 1] == '_') {
      if i + 1 < |x| { assert s[i] == x[i] && s[i + 1] == x[i + 1]; }
      else if i + 1 == |x| { assert s[i] == x[|x| - 1]; }
      else { assert s[i + 1] == w[i - |x|]; }
    }
    assert s[|s| - 1] == w[|w| - 1];
  }

  /** Snake-casing leaves a tail without capitals as it is, whatever comes before it. */
  lemma {:induction false} SnakeTailAppend(x: string, t: string, inRun: bool)
    requires forall i :: 0 <= i < |t| ==> !IsUpper(t[i])
    ensures SnakeTail(x + t, inRun) == SnakeTail(x, inRun) + t
    decreases |x|
  {
    if x == [] {
      assert x + t == t;
      if t != [] {
        SnakeTailNoUpper(t[1..]);
        SnakeTailNoUpper(t);
      }
    } else {
      assert (x + t)[0] == x[0];
      assert (x + t)[1..] == x[1..] + t;
      SnakeTailAppend(x[1..], t, IsUpper(x[0]));
    }
  }

  /** No "__" in either part, and the first does not end in '_': none in the concatenation. */
  lemma NoDoubleConcat(a: string, b: string)
    requires NoDoubleUnderscore(a) && NoDoubleUnderscore(b) && a != [] && a[|a| - 1] != '_'
    ensures NoDoubleUnderscore(a + b)
  {
    var s := a + b;
    forall i | 0 <= i < |s| - 1 ensures !(s[i] == '_' && s[i + 1] == '_') {
      if i + 1 < |a| { assert s[i] == a[i] && s[i + 1] == a[i + 1]; }
      else if i + 1 == |a| { assert s[i] == a[|a| - 1]; }
      else { assert s[i] == b[i - |a|] && s[i + 1] == b[i + 1 - |a|]; }
    }
  }

  /** '_' followed by a lower-case word: no capital, no '.', and lower-casing keeps it. */
  lemma UnderscoreWordFacts(w: string)
    requires LowerWord(w)
    ensures var t := "_" + w; forall i :: 0 <= i < |t| ==> !IsUpper(t[i]) && t[i] != '.' && LowerChar(t[i]) == t[i]
    ensures NoDoubleUnderscore("_" + w)
  {
    var t := "_" + w;
    forall i | 0 <= i < |t| ensures 'a' <= t[i] <= 'z' || (i == 0 && t[i] == '_') {
      if i > 0 { assert t[i] == w[i - 1]; }
    }
  }

  /** Lower-casing a string whose tail is already lower case lower-cases only the head. */
  lemma LowerAppend(x: string, t: string)
    requires forall i :: 0 <= i < |t| ==> LowerChar(t[i]) == t[i]
    ensures Lower(x + t) == Lower(x) + t
  {
    var lowered := Lower(x + t);
    forall i | 0 <= i < |lowered| ensures lowered[i] == (Lower(x) + t)[i] {
      if i >= |x| { assert (x + t)[i] == t[i - |x|]; }
      else { assert (x + t)[i] == x[i]; }
    }
  }

  /** Two capitalised lower-case words hold no '.'. */
  lemma TwoWordsDotless(u1: char, w1: string, u2: char, w2: string)
    requires IsUpper(u1) && IsUpper(u2) && LowerWord(w1) && LowerWord(w2)
    ensures var p := [u1] + w1 + [u2] + w2; forall i :: 0 <= i < |p| ==> p[i] != '.'
  {
    var p := [u1] + w1 + [u2] + w2;
    forall i | 0 <= i < |p| ensures p[i] != '.' {
      if 0 < i <= |w1| { assert p[i] == w1[i - 1]; }
      else if i > |w1| + 1 { assert p[i] == w2[i - |w1| - 2]; }
    }
  }

  /** Snake-casing a name followed by '_' and a lower-case word snake-cases only the name. */
  lemma SnakeAppendWord(p: string, w: string)
    requires p != [] && LowerWord(w)
    ensures SnakeCase(p + ("_" + w)) == SnakeCase(p) + ("_" + w)
  {
    var t := "_" + w;
    UnderscoreWordFacts(w);
    assert (p + t)[0] == p[0];
    assert (p + t)[1..] == p[1..] + t;
    SnakeTailAppend(p[1..], t, false);
  }

  /**
   * `Prepare` on a name followed by '_' and a lower-case word prepares only
   * the name, when the name has no '.' and snake-cases to a string without
   * "__" that does not end in '_'.
   */
  lemma PrepareAppendWord(p: string, w: string)
    requires p != [] && (forall i :: 0 <= i < |p| ==> p[i] != '.') && LowerWord(w)
    requires var snake := SnakeCase(p); NoDoubleUnderscore(snake) && snake != [] && snake[|snake| - 1] != '_'
    ensures Prepare(p + ("_" + w)) == Prepare(p) + ("_" + w)
  {
    var t := "_" + w;
    UnderscoreWordFacts(w);
    forall i | 0 <= i < |p + t| ensures (p + t)[i] != '.' {
      if i < |p| { assert (p + t)[i] == p[i]; } else { assert (p + t)[i] == t[i - |p|]; }
    }
    MapCharsAbsent(p + t, {'.'}, '_');
    MapCharsAbsent(p, {'.'}, '_');
    SnakeAppendWord(p, w);
    var snake := SnakeCase(p);
    NoDoubleConcat(snake, t);
    ReplaceDoubleAbsent(snake + t);
    ReplaceDoubleAbsent(snake);
    LowerAppend(snake, t);
  }

  /** `Prepare` on two capitalised words followed by '_' and a lower-case word, such as `DiskUsage_total`. */
  lemma TwoWordsSuffixPrepare(u1: char, w1: string, u2: char, w2: string, w3: string)
    requires IsUpper(u1) && IsUpper(u2) && LowerWord(w1) && LowerWord(w2) && LowerWord(w3)
    ensures Prepare(([u1] + w1 + [u2] + w2) + ("_" + w3)) == ([LowerChar(u1)] + w1 + "_" + [LowerChar(u2)] + w2) + ("_" + w3)
  {
    TwoWordsDotless(u1, w1, u2, w2);
    TwoWordsSnake(u1, w1, u2, w2);
    TwoWordsNoDouble(u1, w1, u2, w2);
    TwoWordsPrepare(u1, w1, u2, w2);
    var snake := [u1] + w1 + "_" + [u2] + w2;
    assert snake[|snake| - 1] == w2[|w2| - 1];
    PrepareAppendWord([u1] + w1 + [u2] + w2, w3);
  }

  /** A name that `Prepare` turns into a canonical string not ending in a newline normalises to that string. */
  lemma NormalizePrepared(s: string, r: string)
    requires Prepare(s) == r && IsCanonical(r) && (r == [] || r[|r| - 1] != '\n')
    ensures NormalizeMetricName(s, None) == r
  {
    AfterPrepareFixes(r);
  }

  /** A capital and a lower-case word, a second such pair and a lower-case word, lowered and joined by '_', form a canonical name. */
  lemma ThreeWordsCanonical(u1: char, w1: string, u2: char, w2: string, w3: string)
    requires IsUpper(u1) && IsUpper(u2) && LowerWord(w1) && LowerWord(w2) && LowerWord(w3)
    ensures var r := ([LowerChar(u1)] + w1 + "_" + [LowerChar(u2)] + w2) + ("_" + w3);
      IsCanonical(r) && r[|r| - 1] != '\n'
  {
    var x := [LowerChar(u1)] + w1 + "_" + [LowerChar(u2)] + w2;
    TwoWordsCanonical(u1, w1, u2, w2);
    CanonicalThenWord(x, w3);
    assert x + "_" + w3 == x + ("_" + w3);
  }

  /** Two capitalised words followed by '_' and a lower-case word normalise to three lower-case words joined by '_'. */
  lemma TwoWordsSuffixNormalize(u1: char, w1: string, u2: char, w2: string, w3: string)
    requires IsUpper(u1) && IsUpper(u2) && LowerWord(w1) && LowerWord(w2) && LowerWord(w3)
    ensures NormalizeMetricName(([u1] + w1 + [u2] + w2) + ("_" + w3), None) ==
            ([LowerChar(u1)] + w1 + "_" + [LowerChar(u2)] + w2) + ("_" + w3)
  {
    TwoWordsSuffixPrepare(u1, w1, u2, w2, w3);
    ThreeWordsCanonical(u1, w1, u2, w2, w3);
    NormalizePrepared(([u1] + w1 + [u2] + w2) + ("_" + w3), ([LowerChar(u1)] + w1 + "_" + [LowerChar(u2)] + w2) + ("_" + w3));
  }

  /** A pattern whose capture groups match `DiskUsage` and `total` reports the metric as `disk_usage_total`. */
  lemma DiskUsageTotalExample(metric: string)
    ensures NormalizeMetricName(metric, Some(["DiskUsage", "total"])) == "disk_usage_total"
  {
    DiskUsageTotalWords();
    GroupsReplaceName(metric, ["DiskUsage", "total"]);
    TwoWordsSuffixNormalize('D', "isk", 'U', "sage", "total");
    DiskUsageTotalJoined();
  }

  lemma DiskUsageTotalWords()
    ensures Join(["DiskUsage", "total"], "_") == (['D'] + "isk" + ['U'] + "sage") + ("_" + "total")
    ensures LowerWord("isk") && LowerWord("sage") && LowerWord("total")
  {
    assert ["DiskUsage", "total"][1..] == ["total"];
  }

  lemma DiskUsageTotalJoined()
    ensures ([LowerChar('D')] + "isk" + "_" + [LowerChar('U')] + "sage") + ("_" + "total") == "disk_usage_total"
  {
    assert LowerChar('D') == 'd' && LowerChar('U') == 'u';
  }
}

=== FILE: metric_spec.dfy ===
/**
 * Classification of input metric names (`DynamicCheckHelper.MetricSpec` and
 * `_lookup_metric`): the gauge patterns are tried first, then the rate
 * patterns, in order; the first pattern that matches decides the kind and,
 * through its capture groups, the reported name. A name that nothing
 * matches is SKIP. Every result is memoised in a cache.
 */
module MetricSpecs {
  import opened Wrappers
  import opened Config
  import opened MetricName

  datatype MetricKind = Gauge | Rate | Skip

  /** How an input metric is reported: its kind and its normalised name. */
  datatype MetricSpec = MetricSpec(kind: MetricKind, name: string)

  /** The position and capture groups of the first pattern that matches `metric`. */
  function FirstMatch(m: Matcher, patterns: seq<string>, metric: string): (r: Option<(nat, seq<string>)>)
    ensures r.Some? ==> r.value.0 < |patterns| && m(patterns[r.value.0], metric) == Some(r.value.1)
    ensures r.Some? ==> forall j :: 0 <= j < r.value.0 ==> m(patterns[j], metric).None?
    ensures r.None? <==> forall j :: 0 <= j < |patterns| ==> m(patterns[j], metric).None?
  {
    if patterns == [] then None
    else match m(patterns[0], metric)
      case Some(groups) => Some((0, groups))
      case None =>
        match FirstMatch(m, patterns[1..], metric)
        case None => None
        case Some(hit) => Some((hit.0 + 1, hit.1))
  }

  /** The kind the first matching pattern gives, with its capture groups; SKIP without groups when nothing matches. */
  function Verdict(m: Matcher, scope: Scope, metric: string): (MetricKind, Option<seq<string>>)
  {
    match FirstMatch(m, scope.gauges, metric)
    case Some(hit) => (Gauge, Some(hit.1))
    case None =>
      match FirstMatch(m, scope.rates, metric)
      case Some(hit) => (Rate, Some(hit.1))
      case None => (Skip, None)
  }

  /** What `_lookup_metric` computes for a metric that is not cached yet. */
  function Classify(m: Matcher, scope: Scope, metric: string): MetricSpec
  {
    var (kind, groups) := Verdict(m, scope, metric);
    MetricSpec(kind, NormalizeMetricName(metric, groups))
  }

  /** A cache holds only what `Classify` computes for its keys. */
  predicate CacheAgrees(m: Matcher, scope: Scope, cache: map<string, MetricSpec>)
  {
    forall k {:trigger Classify(m, scope, k)} :: k in cache ==> cache[k] == Classify(m, scope, k)
  }

  /**
   * `_lookup_metric(metric, metric_cache, metric_map)`: a cached entry is
   * returned as it is and the cache is left alone; otherwise the gauge and
   * rate patterns are matched in order and the result, SKIP included, is
   * stored under `metric`.
   */
  method LookupMetric(m: Matcher, metric: string, cache: map<string, MetricSpec>, scope: Scope)
    returns (entry: MetricSpec, cache': map<string, MetricSpec>)
    ensures metric in cache ==> entry == cache[metric] && cache' == cache
    ensures metric !in cache ==> entry == Classify(m, scope, metric) && cache' == cache[metric := entry]
  {
    if metric in cache {
      return cache[metric], cache;
    }
    var i := 0;
    while i < |scope.gauges|
      invariant i <= |scope.gauges|
      invariant forall j :: 0 <= j < i ==> m(scope.gauges[j], metric).None?
    {
      var groups := m(scope.gauges[i], metric);
      if groups.Some? {
        entry := MetricSpec(Gauge, NormalizeMetricName(metric, groups));
        GaugeFirst(m, scope, metric, i);
        return entry, cache[metric := entry];
      }
      i := i + 1;
    }
    i := 0;
    while i < |scope.rates|
      invariant i <= |scope.rates|
      invariant forall j :: 0 <= j < i ==> m(scope.rates[j], metric).None?
    {
      var groups := m(scope.rates[i], metric);
      if groups.Some? {
        entry := MetricSpec(Rate, NormalizeMetricName(metric, groups));
        RateWhenNoGauge(m, scope, metric, i);
        return entry, cache[metric := entry];
      }
      i := i + 1;
    }
    entry := MetricSpec(Skip, NormalizeMetricName(metric, None));
    SkipIffNoMatch(m, scope, metric);
    return entry, cache[metric := entry];
  }

  // ---------------------------------------------------------------- properties

  /** A lookup through a cache that agrees with the configuration is `Classify`, and the cache keeps agreeing. */
  lemma LookupAgrees(m: Matcher, scope: Scope, cache: map<string, MetricSpec>, metric: string, entry: MetricSpec)
    requires CacheAgrees(m, scope, cache)
    requires metric in cache ==> entry == cache[metric]
    requires metric !in cache ==> entry == Classify(m, scope, metric)
    ensures entry == Classify(m, scope, metric)
    ensures CacheAgrees(m, scope, cache[metric := entry])
  {
  }

  /** A metric is SKIP exactly when no gauge pattern and no rate pattern matches it. */
  lemma SkipIffNoMatch(m: Matcher, scope: Scope, metric: string)
    ensures Classify(m, scope, metric).kind == Skip <==>
      (forall j :: 0 <= j < |scope.gauges| ==> m(scope.gauges[j], metric).None?) &&
      (forall j :: 0 <= j < |scope.rates| ==> m(scope.rates[j], metric).None?)
  {
    var _ := FirstMatch(m, scope.gauges, metric);
    var _ := FirstMatch(m, scope.rates, metric);
  }

  /**
   * Gauge patterns take precedence: a metric that some gauge pattern matches is
   * a gauge, named from the capture groups of the first such pattern, whatever
   * the rate patterns say.
   */
  lemma GaugeFirst(m: Matcher, scope: Scope, metric: string, i: nat)
    requires i < |scope.gauges| && m(scope.gauges[i], metric).Some?
    requires forall j :: 0 <= j < i ==> m(scope.gauges[j], metric).None?
    ensures Classify(m, scope, metric) == MetricSpec(Gauge, NormalizeMetricName(metric, m(scope.gauges[i], metric)))
  {
    var hit := FirstMatch(m, scope.gauges, metric);
    assert hit.Some?;
    assert hit.value.0 == i;
  }

  /** A metric that no gauge pattern matches is a rate when the first matching rate pattern is at `i`. */
  lemma RateWhenNoGauge(m: Matcher, scope: Scope, metric: string, i: nat)
    requires forall j :: 0 <= j < |scope.gauges| ==> m(scope.gauges[j], metric).None?
    requires i < |scope.rates| && m(scope.rates[i], metric).Some?
    requires forall j :: 0 <= j < i ==> m(scope.rates[j], metric).None?
    ensures Classify(m, scope, metric) == MetricSpec(Rate, NormalizeMetricName(metric, m(scope.rates[i], metric)))
  {
    var g := FirstMatch(m, scope.gauges, metric);
    var hit := FirstMatch(m, scope.rates, metric);
    assert hit.Some?;
    assert hit.value.0 == i;
  }

  /** A second lookup of the same metric answers from the cache: same entry, cache unchanged. */
  method LookupTwice(m: Matcher, metric: string, cache: map<string, MetricSpec>, scope: Scope)
    returns (first: MetricSpec, second: MetricSpec, cache'': map<string, MetricSpec>)
    ensures first == second
    ensures metric in cache''
    ensures metric !in cache ==> first == Classify(m, scope, metric) && cache'' == cache[metric := first]
  {
    var cache';
    first, cache' := LookupMetric(m, metric, cache, scope);
    second, cache'' := LookupMetric(m, metric, cache', scope);
  }
}

=== FILE: network_connections.dfy ===
/**
 * Connection counting of the `network_connections` check
 * (`NetworkConnections._collect_metrics`): every line of the `ss -nuta4` or
 * `ss -nuta6` listing is classified by its first word, and UDP sockets and
 * TCP sockets in a known state are counted into six gauges per IP version.
 * The listing itself is an input; running `ss` is not part of this model.
 */
module NetworkConnections {
  import opened Wrappers
  import opened Text

  /** The six gauges of `GAUGES`, before they are formatted with the IP version. */
  datatype Gauge = UdpConnections | TcpEstablished | TcpOpening | TcpClosing | TcpListening | TcpTimeWait

  /** `GAUGES`, in declaration order. */
  const GaugeOrder: seq<Gauge> := [UdpConnections, TcpEstablished, TcpOpening, TcpClosing, TcpListening, TcpTimeWait]

  function Proto(g: Gauge): string
  {
    if g == UdpConnections then "udp" else "tcp"
  }

  /** The last part of a gauge's name; for TCP gauges, the value `TCP_STATES` gives. */
  function What(g: Gauge): string
  {
    match g
    case UdpConnections => "connections"
    case TcpEstablished => "established"
    case TcpOpening => "opening"
    case TcpClosing => "closing"
    case TcpListening => "listening"
    case TcpTimeWait => "time_wait"
  }

  /** `'net.<proto>{0}.<what>'.format(ip_version)` */
  function GaugeName(version: nat, g: Gauge): string
  {
    "net." + Proto(g) + NatToString(version) + "." + What(g)
  }

  /** The TCP gauge whose name ends in `what`, if any. */
  function TcpGauge(what: string): (r: Option<Gauge>)
    ensures r.Some? ==> Proto(r.value) == "tcp" && What(r.value) == what
  {
    if what == "established" then Some(TcpEstablished)
    else if what == "opening" then Some(TcpOpening)
    else if what == "closing" then Some(TcpClosing)
    else if what == "listening" then Some(TcpListening)
    else if what == "time_wait" then Some(TcpTimeWait)
    else None
  }

  /** `TCP_STATES`: the `ss` state names that are counted, and the gauge each one counts in. */
  const TcpStates: map<string, string> := map[
    "ESTAB" := "established",
    "SYN-SENT" := "opening",
    "SYN-RECV" := "opening",
    "FIN-WAIT-1" := "closing",
    "FIN-WAIT-2" := "closing",
    "TIME-WAIT" := "time_wait",
    "UNCONN" := "closing",
    "CLOSE-WAIT" := "closing",
    "LAST-ACK" := "closing",
    "LISTEN" := "listening",
    "CLOSING" := "closing"
  ]

  /** `_collect_metrics` raises `IndexError` on a blank line and on a `tcp` line without a state. */
  datatype CollectError = IndexError

  /** What `_collect_metrics` reports: every gauge name with its count, and `len(metrics)`. */
  datatype Report = Report(gauges: map<string, nat>, count: nat)

  /** The counters, one per gauge. */
  datatype Counters = Counters(udp: nat, established: nat, opening: nat, closing: nat, listening: nat, timeWait: nat)
  {
    /** `metrics[<name of g>]` */
    function Get(g: Gauge): nat
    {
      match g
      case UdpConnections => udp
      case TcpEstablished => established
      case TcpOpening => opening
      case TcpClosing => closing
      case TcpListening => listening
      case TcpTimeWait => timeWait
    }

    /** `metrics[<name of g>] += 1` */
    function Bump(g: Gauge): (r: Counters)
      ensures r.Get(g) == Get(g) + 1
      ensures forall h :: h != g ==> r.Get(h) == Get(h)
    {
      match g
      case UdpConnections => this.(udp := udp + 1)
      case TcpEstablished => this.(established := established + 1)
      case TcpOpening => this.(opening := opening + 1)
      case TcpClosing => this.(closing := closing + 1)
      case TcpListening => this.(listening := listening + 1)
      case TcpTimeWait => this.(timeWait := timeWait + 1)
    }
  }

  /** `dict.fromkeys(gauges, 0)` */
  function Initial(): (m: Counters)
    ensures forall g :: m.Get(g) == 0
  {
    Counters(0, 0, 0, 0, 0, 0)
  }

  /**
   * The counter one line adds to: `net.udp{v}.connections` for a `udp` line,
   * the mapped `net.tcp{v}.<state>` for a `tcp` line in a known state, none
   * for anything else (the header line); an error where the source indexes
   * past the words of the line.
   */
  function CounterOf(line: string): Result<Option<Gauge>, CollectError>
  {
    var words := Words(line);
    if |words| == 0 then Failure(IndexError)
    else if words[0] == "udp" then Success(Some(UdpConnections))
    else if words[0] != "tcp" then Success(None)
    else if |words| < 2 then Failure(IndexError)
    else if words[1] in TcpStates then
      TcpStatesNameGauges(words[1]);
      Success(TcpGauge(TcpStates[words[1]]))
    else Success(None)
  }

  /** The counters after one more line: the line's counter, if any, goes up by one. */
  function Step(metrics: Counters, line: string): (r: Result<Counters, CollectError>)
    ensures r.Success? <==> CounterOf(line).Success?
    ensures r.Success? ==> forall g :: r.value.Get(g) == metrics.Get(g) + (if CounterOf(line).value == Some(g) then 1 else 0)
  {
    match CounterOf(line)
    case Failure(e) => Failure(e)
    case Success(None) => Success(metrics)
    case Success(Some(g)) => Success(metrics.Bump(g))
  }

  /** The counters after the given lines, in order; the first failing line stops the count. */
  function Counts(lines: seq<string>): Result<Counters, CollectError>
  {
    if lines == [] then Success(Initial())
    else
      match Counts(lines[..|lines| - 1])
      case Failure(e) => Failure(e)
      case Success(metrics) => Step(metrics, lines[|lines| - 1])
  }

  /** `stdout.strip().split("\n")` */
  function Lines(stdout: string): seq<string>
  {
    SplitOn(Strip(stdout), '\n')
  }

  /** The reported gauges: every counter under its formatted name. */
  function Named(version: nat, metrics: Counters): map<string, nat>
  {
    map[GaugeName(version, UdpConnections) := metrics.udp,
        GaugeName(version, TcpEstablished) := metrics.established,
        GaugeName(version, TcpOpening) := metrics.opening,
        GaugeName(version, TcpClosing) := metrics.closing,
        GaugeName(version, TcpListening) := metrics.listening,
        GaugeName(version, TcpTimeWait) := metrics.timeWait]
  }

  /**
   * `_collect_metrics(ip_version, dimensions)` on the given `ss` output: the
   * counters start at zero, every line adds to at most one of them, and
   * every counter is reported under its name; the answer is the number of
   * counters.
   */
  method CollectMetrics(version: nat, stdout: string) returns (r: Result<Report, CollectError>)
    ensures r.Failure? <==> Counts(Lines(stdout)).Failure?
    ensures r.Success? ==> r.value.gauges == Named(version, Counts(Lines(stdout)).value)
    ensures r.Success? ==> r.value.count == 6
  {
    var counted := CountLines(Lines(stdout));
    if counted.Failure? {
      return Failure(counted.error);
    }
    var named := Named(version, counted.value);
    NamedCount(version, counted.value);
    return Success(Report(named, |named|));
  }

  /** The loop of `_collect_metrics` over the lines, from counters at zero; the first failing line ends it. */
  method CountLines(lines: seq<string>) returns (r: Result<Counters, CollectError>)
    ensures r == Counts(lines)
  {
    var metrics := Initial();
    for i := 0 to |lines|
      invariant Counts(lines[..i]) == Success(metrics)
    {
      assert lines[..i + 1][..i] == lines[..i];
      var next := CountLine(metrics, lines[i]);
      if next.Failure? {
        FailureStays(lines, i + 1);
        return next;
      }
      metrics := next.value;
    }
    assert lines[..|lines|] == lines;
    return Success(metrics);
  }

  /** The body of the loop over the lines: classify one line by its words and count it. */
  method CountLine(metrics: Counters, line: string) returns (r: Result<Counters, CollectError>)
    ensures r == Step(metrics, line)
  {
    var words := Words(line);
    if |words| == 0 {
      return Failure(IndexError);
    }
    if words[0] == "udp" {
      return Success(metrics.Bump(UdpConnections));
    } else if words[0] == "tcp" {
      if |words| < 2 {
        return Failure(IndexError);
      }
      if words[1] in TcpStates {
        TcpStatesNameGauges(words[1]);
        var g := TcpGauge(TcpStates[words[1]]).value;
        return Success(metrics.Bump(g));
      }
    }
    return Success(metrics);
  }

  // ---------------------------------------------------------------- properties

  /** Once a line has failed, the whole listing fails with the same error. */
  lemma {:induction false} FailureStays(lines: seq<string>, i: nat)
    requires i <= |lines| && Counts(lines[..i]).Failure?
    ensures Counts(lines) == Counts(lines[..i])
    decreases |lines| - i
  {
    if i < |lines| {
      assert lines[..i + 1][..i] == lines[..i];
      FailureStays(lines, i + 1);
    } else {
      assert lines[..i] == lines;
    }
  }

  /** Every value of `TCP_STATES` is the last part of a TCP gauge's name. */
  lemma TcpStatesNameGauges(state: string)
    requires state in TcpStates
    ensures TcpGauge(TcpStates[state]).Some?
  {
    var what := TcpStates[state];
    assert what in {"established", "opening", "closing", "listening", "time_wait"};
  }

  /** Different gauges have different names. */
  lemma NamesDiffer(version: nat, g1: Gauge, g2: Gauge)
    requires g1 != g2
    ensures GaugeName(version, g1) != GaugeName(version, g2)
  {
    var n1, n2 := GaugeName(version, g1), GaugeName(version, g2);
    if Proto(g1) != Proto(g2) {
      assert n1[4] == Proto(g1)[0] && n2[4] == Proto(g2)[0];
    } else {
      var k := |"net." + Proto(g1) + NatToString(version) + "."|;
      assert n1[k] == What(g1)[0] && n2[k] == What(g2)[0];
    }
  }

  /** The six gauges are reported under six different names, so `len(metrics)` is 6. */
  lemma NamedCount(version: nat, metrics: Counters)
    ensures |Named(version, metrics)| == 6
  {
    var names := [GaugeName(version, UdpConnections), GaugeName(version, TcpEstablished),
                  GaugeName(version, TcpOpening), GaugeName(version, TcpClosing),
                  GaugeName(version, TcpListening), GaugeName(version, TcpTimeWait)];
    forall i, j | 0 <= i < j < 6 ensures names[i] != names[j] {
      assert names[i] == GaugeName(version, GaugeOrder[i]) && names[j] == GaugeName(version, GaugeOrder[j]);
      NamesDiffer(version, GaugeOrder[i], GaugeOrder[j]);
    }
    assert Named(version, metrics).Keys == set x | x in names;
    DistinctCard(names);
  }

  /** A sequence without repetitions has as many elements as its set. */
  lemma {:induction false} DistinctCard<T>(s: seq<T>)
    requires forall i, j :: 0 <= i < j < |s| ==> s[i] != s[j]
    ensures |set x | x in s| == |s|
  {
    if s != [] {
      var init := s[..|s| - 1];
      DistinctCard(init);
      assert (set x | x in s) == (set x | x in init) + {s[|s| - 1]};
      assert s[|s| - 1] !in init by {
        forall i | 0 <= i < |init| ensures init[i] != s[|s| - 1] { assert init[i] == s[i]; }
      }
    }
  }

  /** A `udp` line adds exactly one to `net.udp{v}.connections` and nothing elsewhere. */
  lemma UdpLineCounted(metrics: Counters, line: string)
    requires Words(line) != [] && Words(line)[0] == "udp"
    ensures Step(metrics, line) == Success(metrics.Bump(UdpConnections))
  {
  }

  /** A `tcp` line in a known state adds exactly one to the gauge whose name ends in the state's value. */
  lemma TcpLineCounted(version: nat, metrics: Counters, line: string)
    requires |Words(line)| >= 2 && Words(line)[0] == "tcp" && Words(line)[1] in TcpStates
    ensures var g := TcpGauge(TcpStates[Words(line)[1]]);
      && g.Some?
      && GaugeName(version, g.value) == "net.tcp" + NatToString(version) + "." + TcpStates[Words(line)[1]]
      && Step(metrics, line) == Success(metrics.Bump(g.value))
  {
    var what := TcpStates[Words(line)[1]];
    TcpStatesNameGauges(Words(line)[1]);
    TcpGaugeName(version, what);
  }

  /** A TCP gauge's name is `net.tcp<version>.<state name>`. */
  lemma TcpGaugeName(version: nat, what: string)
    requires TcpGauge(what).Some?
    ensures GaugeName(version, TcpGauge(what).value) == "net.tcp" + NatToString(version) + "." + what
  {
    var g := TcpGauge(what).value;
    assert Proto(g) == "tcp" && What(g) == what;
    assert "net." + "tcp" == "net.tcp";
  }

  /** The header line and `tcp` lines in states outside `TCP_STATES` leave every counter alone. */
  lemma OtherLinesIgnored(metrics: Counters, line: string)
    requires Words(line) != [] && Words(line)[0] != "udp"
    requires Words(line)[0] == "tcp" ==> |Words(line)| >= 2 && Words(line)[1] !in TcpStates
    ensures Step(metrics, line) == Success(metrics)
  {
  }

  /** The sum of the counters. */
  function Total(metrics: Counters): nat
  {
    metrics.udp + metrics.established + metrics.opening + metrics.closing + metrics.listening + metrics.timeWait
  }

  /** The number of `udp` lines and `tcp` lines in a known state. */
  function Counted(lines: seq<string>): nat
  {
    if lines == [] then 0
    else
      var words := Words(lines[|lines| - 1]);
      Counted(lines[..|lines| - 1]) +
      (if |words| > 0 && (words[0] == "udp" || (words[0] == "tcp" && |words| > 1 && words[1] in TcpStates)) then 1 else 0)
  }

  /** The counters add up to the number of counted lines: every counted line is counted once. */
  lemma {:induction false} TotalIsCounted(lines: seq<string>)
    requires Counts(lines).Success?
    ensures Total(Counts(lines).value) == Counted(lines)
  {
    if lines != [] {
      var init, last := lines[..|lines| - 1], lines[|lines| - 1];
      TotalIsCounted(init);
      var words := Words(last);
      if |words| > 0 && words[0] == "tcp" && |words| > 1 && words[1] in TcpStates {
        TcpStatesNameGauges(words[1]);
      }
    }
  }
}

=== FILE: swift_dispersion.dfy ===
/**
 * The `swift_dispersion` check: the output of `swift-dispersion-report -j`
 * loses its leading non-JSON lines, and the eight dispersion gauges are read
 * from the decoded report, `copies_missing` being computed from the expected
 * and found copies of the same section. Running the report and decoding its
 * JSON are not part of this model: the output and the decoded document are
 * inputs.
 */
module SwiftDispersion {
  import opened Wrappers
  import opened Text
  import opened Json
  import Config

  // ------------------------------------------------- leading-line stripping

  /** `out.lstrip().startswith('{')` */
  predicate StartsJson(out: string)
  {
    var t := LStrip(out);
    t != [] && t[0] == '{'
  }

  /** The condition that ends the loop: no newline is left, or the output starts with a JSON object. */
  predicate Done(out: string)
  {
    '\n' !in out || StartsJson(out)
  }

  /** `out.split("\n", 1).pop()`: everything after the first newline. */
  function AfterFirstLine(out: string): (r: string)
    requires '\n' in out
    ensures |r| < |out| && r == out[|out| - |r|..] && out[|out| - |r| - 1] == '\n'
  {
    out[IndexOf(out, '\n') + 1..]
  }

  /** Position `j` of `s` begins a line. */
  predicate LineStart(s: string, j: nat)
    requires j <= |s|
  {
    j == 0 || s[j - 1] == '\n'
  }

  /**
   * The output once its leading lines have been dropped, one at a time,
   * until it starts with a JSON object or has no newline left: a suffix of
   * the output that begins a line.
   */
  function SkipToJson(out: string): (r: string)
    ensures |r| <= |out| && r == out[|out| - |r|..]
    ensures LineStart(out, |out| - |r|)
    ensures Done(r)
    decreases |out|
  {
    if Done(out) then out else SkipToJson(AfterFirstLine(out))
  }

  /** The loop of `swift_dispersion()` that drops the lines before the JSON report. */
  method StripLeadingLines(output: string) returns (out: string)
    ensures out == SkipToJson(output)
  {
    out := output;
    while '\n' in out && !StartsJson(out)
      invariant SkipToJson(out) == SkipToJson(output)
      decreases |out|
    {
      out := AfterFirstLine(out);
    }
  }

  /** The first newline of `s` comes no later than any other. */
  lemma {:induction false} IndexOfFirst(s: string, c: char, i: nat)
    requires i < |s| && s[i] == c
    ensures IndexOf(s, c) <= i
  {
    if s[0] != c {
      IndexOfFirst(s[1..], c, i - 1);
    }
  }

  /** Only lines that neither start the JSON report nor are the last line are dropped. */
  lemma {:induction false} OnlyLeadingLinesDropped(out: string, j: nat)
    requires j < |out| - |SkipToJson(out)| && LineStart(out, j)
    ensures !Done(out[j..])
    decreases |out|
  {
    if !Done(out) && j > 0 {
      var j' := LaterLineStart(out, j);
      OnlyLeadingLinesDropped(AfterFirstLine(out), j');
    }
  }

  /** A line start after the first one is a line start of what follows the first line. */
  lemma LaterLineStart(out: string, j: nat) returns (j': nat)
    requires '\n' in out && 0 < j <= |out| && out[j - 1] == '\n'
    ensures j' <= |AfterFirstLine(out)| && j' == j - (|out| - |AfterFirstLine(out)|)
    ensures LineStart(AfterFirstLine(out), j') && AfterFirstLine(out)[j'..] == out[j..]
  {
    var k := IndexOf(out, '\n');
    var rest := AfterFirstLine(out);
    assert rest == out[k + 1..];
    IndexOfFirst(out, '\n', j - 1);
    j' := j - (k + 1);
    assert j' == 0 || rest[j' - 1] == out[j - 1];
    assert rest[j'..] == out[j..];
  }

  /** `s.lstrip()` of text whose first part is not all blank only strips that first part. */
  lemma {:induction false} LStripAppend(h: string, t: string)
    requires LStrip(h) != []
    ensures LStrip(h + t) == LStrip(h) + t
  {
    if IsSpace(h[0]) {
      assert (h + t)[1..] == h[1..] + t;
      LStripAppend(h[1..], t);
    }
  }

  /** A header line such as "Using storage policy: default" before the report is dropped, and nothing more. */
  lemma HeaderLineDropped(header: string, report: string)
    requires '\n' !in header && LStrip(header) != [] && LStrip(header)[0] != '{'
    requires StartsJson(report)
    ensures SkipToJson(header + "\n" + report) == report
  {
    var out := header + "\n" + report;
    assert out == header + ("\n" + report);
    LStripAppend(header, "\n" + report);
    assert !StartsJson(out);
    FirstLineSplit(header, report);
  }

  /** The first line of `line + "\n" + rest` is `line`, when `line` has no newline. */
  lemma FirstLineSplit(line: string, rest: string)
    requires '\n' !in line
    ensures '\n' in line + "\n" + rest && AfterFirstLine(line + "\n" + rest) == rest
  {
    var out := line + "\n" + rest;
    assert out[|line|] == '\n';
    IndexOfFirst(out, '\n', |line|);
    assert out[..|line|] == line;
    assert IndexOf(out, '\n') == |line|;
  }

  // --------------------------------------------------------- gauge values

  /** The exceptions `check` can raise on a report. */
  datatype SwiftError = AssertionError | IndexError | KeyError | TypeError

  /** `GAUGES`, in declaration order. */
  const Gauges: seq<string> := [
    "object.copies_expected",
    "object.copies_found",
    "object.copies_missing",
    "object.overlapping",
    "container.copies_expected",
    "container.copies_found",
    "container.copies_missing",
    "container.overlapping"
  ]

  /** `metric.split('.', 1)` */
  function SplitFirst(metric: string): (parts: seq<string>)
    ensures 1 <= |parts| <= 2
  {
    if '.' in metric then
      var k := IndexOf(metric, '.');
      [metric[..k], metric[k + 1..]]
    else [metric]
  }

  /** `doc[key]` on a decoded JSON value: a lookup in an object, an error on anything else. */
  function Index(doc: Json, key: string): (r: Result<Json, SwiftError>)
    ensures r.Success? <==> doc.JDict? && Config.Get(doc.entries, key).Some?
    ensures r.Failure? ==> r.error == (if doc.JDict? then KeyError else TypeError)
  {
    if !doc.JDict? then Failure(TypeError)
    else match Config.Get(doc.entries, key)
      case None => Failure(KeyError)
      case Some(v) => Success(v)
  }

  /** `a - b` on decoded JSON values: numbers (and booleans, which Python counts as integers) only. */
  function Minus(a: Json, b: Json): (r: Result<real, SwiftError>)
    ensures r.Success? <==> IsNumber(a) && IsNumber(b)
    ensures r.Success? ==> r.value == NumberValue(a) - NumberValue(b)
  {
    if IsNumber(a) && IsNumber(b) then Success(NumberValue(a) - NumberValue(b)) else Failure(TypeError)
  }

  /** `dispersion[section][field]` */
  function Field(dispersion: Json, section: string, field: string): Result<Json, SwiftError>
  {
    match Index(dispersion, section)
    case Failure(e) => Failure(e)
    case Success(s) => Index(s, field)
  }

  /**
   * The value `check` sends for one entry of `GAUGES`: `copies_expected -
   * copies_found` of the entry's section for `copies_missing`, the entry's
   * own field otherwise, which must then be a number (`int`, `long` or
   * `float`; a boolean fails the type assertion).
   */
  function GaugeValue(dispersion: Json, metric: string): Result<real, SwiftError>
  {
    var parts := SplitFirst(metric);
    if |parts| < 2 then Failure(IndexError)
    else if parts[1] == "copies_missing" then
      match Field(dispersion, parts[0], "copies_expected")
      case Failure(e) => Failure(e)
      case Success(expected) =>
        match Field(dispersion, parts[0], "copies_found")
        case Failure(e) => Failure(e)
        case Success(found) => Minus(expected, found)
    else
      match Field(dispersion, parts[0], parts[1])
      case Failure(e) => Failure(e)
      case Success(v) => if v.JNum? then Success(v.n) else Failure(AssertionError)
  }

  /** A gauge as sent: its name and value. */
  datatype Sent = Sent(name: string, value: real)

  /** The value of every entry, as `check` computes it. */
  function Values(dispersion: Json, metrics: seq<string>): seq<Result<real, SwiftError>>
  {
    seq(|metrics|, i requires 0 <= i < |metrics| => GaugeValue(dispersion, metrics[i]))
  }

  /** The gauges sent for the given names and values, in order; the first failing value stops the check. */
  function Gather(names: seq<string>, values: seq<Result<real, SwiftError>>): Result<seq<Sent>, SwiftError>
    requires |names| == |values|
  {
    if names == [] then Success([])
    else
      var n := |names| - 1;
      match Gather(names[..n], values[..n])
      case Failure(e) => Failure(e)
      case Success(sent) =>
        match values[n]
        case Failure(e) => Failure(e)
        case Success(v) => Success(sent + [Sent(Lower(names[n]), v)])
  }

  /** The gauges `check` sends for the given entries of `GAUGES`. */
  function Emitted(dispersion: Json, metrics: seq<string>): Result<seq<Sent>, SwiftError>
  {
    Gather(metrics, Values(dispersion, metrics))
  }

  /**
   * `check(instance)` given the command's raw output and the decoding of
   * what `swift_dispersion()` returns: the leading lines are dropped, an
   * empty result fails the assertion, and otherwise one gauge is sent per
   * entry of `GAUGES`, in order.
   */
  method Check(raw: string, dispersion: Json) returns (r: Result<seq<Sent>, SwiftError>)
    ensures SkipToJson(raw) == [] ==> r == Failure(AssertionError)
    ensures SkipToJson(raw) != [] ==> r == Emitted(dispersion, Gauges)
  {
    var output := StripLeadingLines(raw);
    if output == [] {
      return Failure(AssertionError);
    }
    r := SendAll(dispersion, Gauges);
  }

  /** The loop of `check` over the entries: look up each value and send it, stopping at the first exception. */
  method SendAll(dispersion: Json, metrics: seq<string>) returns (r: Result<seq<Sent>, SwiftError>)
    ensures r == Emitted(dispersion, metrics)
  {
    ghost var values := Values(dispersion, metrics);
    var sent: seq<Sent> := [];
    for i := 0 to |metrics|
      invariant Gather(metrics[..i], values[..i]) == Success(sent)
    {
      var v := GaugeValue(dispersion, metrics[i]);
      assert values[i] == v;
      GatherStep(metrics, values, i);
      if v.Failure? {
        FailureStays(metrics, values, i + 1);
        return Failure(v.error);
      }
      sent := sent + [Sent(Lower(metrics[i]), v.value)];
    }
    assert metrics[..|metrics|] == metrics && values[..|values|] == values;
    return Success(sent);
  }

  /** One more value: its exception stops the gathering, or its gauge is sent after the others. */
  lemma GatherStep(names: seq<string>, values: seq<Result<real, SwiftError>>, i: nat)
    requires |names| == |values| && i < |names| && Gather(names[..i], values[..i]).Success?
    ensures Gather(names[..i + 1], values[..i + 1]) ==
      match values[i]
      case Failure(e) => Failure(e)
      case Success(v) => Success(Gather(names[..i], values[..i]).value + [Sent(Lower(names[i]), v)])
  {
    assert names[..i + 1][..i] == names[..i] && values[..i + 1][..i] == values[..i];
  }

  /** Gathering succeeds exactly when every value does. */
  lemma {:induction false} GatherSucceeds(names: seq<string>, values: seq<Result<real, SwiftError>>)
    requires |names| == |values|
    ensures Gather(names, values).Success? <==> forall i :: 0 <= i < |values| ==> values[i].Success?
  {
    if names != [] {
      var n := |names| - 1;
      GatherSucceeds(names[..n], values[..n]);
      if Gather(names, values).Success? {
        forall i | 0 <= i < |values| ensures values[i].Success? {
          if i < n { assert values[..n][i] == values[i]; }
        }
      } else if Gather(names[..n], values[..n]).Failure? {
        var k :| 0 <= k < n && values[..n][k].Failure?;
        assert values[..n][k] == values[k];
      }
    }
  }

  /** A successful gathering holds one gauge per name, in order, with that name's value. */
  lemma {:induction false} GatherSent(names: seq<string>, values: seq<Result<real, SwiftError>>, i: nat)
    requires |names| == |values| && Gather(names, values).Success? && i < |names|
    ensures |Gather(names, values).value| == |names|
    ensures values[i].Success? && Gather(names, values).value[i] == Sent(Lower(names[i]), values[i].value)
  {
    var n := |names| - 1;
    if i < n {
      GatherSent(names[..n], values[..n], i);
      assert names[..n][i] == names[i] && values[..n][i] == values[i];
    } else if n > 0 {
      GatherSent(names[..n], values[..n], 0);
    }
  }

  /** Once a value has failed, the whole gathering fails with the same exception. */
  lemma {:induction false} FailureStays(names: seq<string>, values: seq<Result<real, SwiftError>>, i: nat)
    requires |names| == |values| && i <= |names| && Gather(names[..i], values[..i]).Failure?
    ensures Gather(names, values) == Gather(names[..i], values[..i])
  {
    var n := |names| - 1;
    if i <= n {
      assert names[..n][..i] == names[..i] && values[..n][..i] == values[..i];
      FailureStays(names[..n], values[..n], i);
    } else {
      assert names[..i] == names && values[..i] == values;
    }
  }

  /** The check sends its gauges exactly when every entry has a value. */
  lemma EmittedSucceeds(dispersion: Json, metrics: seq<string>)
    ensures Emitted(dispersion, metrics).Success? <==>
      forall i :: 0 <= i < |metrics| ==> GaugeValue(dispersion, metrics[i]).Success?
  {
    var values := Values(dispersion, metrics);
    GatherSucceeds(metrics, values);
    assert forall i :: 0 <= i < |metrics| ==> values[i] == GaugeValue(dispersion, metrics[i]);
  }

  /** On success, one gauge per entry, in order: the entry's lower-cased name and its value. */
  lemma EmittedSent(dispersion: Json, metrics: seq<string>, i: nat)
    requires Emitted(dispersion, metrics).Success? && i < |metrics|
    ensures |Emitted(dispersion, metrics).value| == |metrics|
    ensures GaugeValue(dispersion, metrics[i]).Success?
    ensures Emitted(dispersion, metrics).value[i] == Sent(Lower(metrics[i]), GaugeValue(dispersion, metrics[i]).value)
  {
    var values := Values(dispersion, metrics);
    GatherSent(metrics, values, i);
    assert values[i] == GaugeValue(dispersion, metrics[i]);
  }

  /** `copies_missing` of a section is its expected copies minus its found copies. */
  lemma MissingIsDifference(dispersion: Json, section: string)
    requires '.' !in section
    ensures var expected, found := Field(dispersion, section, "copies_expected"), Field(dispersion, section, "copies_found");
      && (GaugeValue(dispersion, section + ".copies_missing").Success? <==>
            expected.Success? && found.Success? && IsNumber(expected.value) && IsNumber(found.value))
      && (GaugeValue(dispersion, section + ".copies_missing").Success? ==>
            GaugeValue(dispersion, section + ".copies_missing").value == NumberValue(expected.value) - NumberValue(found.value))
  {
    SplitsAtDot(section, "copies_missing");
    assert section + "." + "copies_missing" == section + ".copies_missing";
  }

  /** Every other field is read as it is, and only a number is sent. */
  lemma OtherFieldsRead(dispersion: Json, section: string, field: string)
    requires '.' !in section && field != "copies_missing"
    ensures GaugeValue(dispersion, section + "." + field).Success? <==>
      Field(dispersion, section, field).Success? && Field(dispersion, section, field).value.JNum?
    ensures GaugeValue(dispersion, section + "." + field).Success? ==>
      GaugeValue(dispersion, section + "." + field).value == Field(dispersion, section, field).value.n
  {
    SplitsAtDot(section, field);
  }

  /** A name splits at its first dot. */
  lemma SplitsAtDot(section: string, field: string)
    requires '.' !in section
    ensures SplitFirst(section + "." + field) == [section, field]
  {
    var metric := section + "." + field;
    assert metric[|section|] == '.';
    IndexOfFirst(metric, '.', |section|);
    var k := IndexOf(metric, '.');
    assert metric[..k] == section[..k];
    assert k == |section|;
    assert metric[..k] == section && metric[k + 1..] == field;
  }
}

=== FILE: text.dfy ===
/** String helpers with the meaning of the Python built-ins the source uses. */
module Text {

  /** `sep.join(parts)` */
  function Join(parts: seq<string>, sep: string): string
  {
    if parts == [] then ""
    else if |parts| == 1 then parts[0]
    else parts[0] + sep + Join(parts[1..], sep)
  }

  /** `s.replace(pat, rep)`: non-overlapping occurrences, scanned left to right. */
  function Replace(s: string, pat: string, rep: string): string
    requires pat != []
    decreases |s|
  {
    if s == [] then []
    else if pat <= s then rep + Replace(s[|pat|..], pat, rep)
    else [s[0]] + Replace(s[1..], pat, rep)
  }

  /** A string in which `pat` never starts is left unchanged by `Replace`. */
  lemma {:induction false} ReplaceAbsent(s: string, pat: string, rep: string)
    requires pat != [] && pat[0] !in s
    ensures Replace(s, pat, rep) == s
    decreases |s|
  {
    if s != [] {
      assert !(pat <= s) by { assert s[0] != pat[0]; }
      ReplaceAbsent(s[1..], pat, rep);
    }
  }

  lemma MapCharsAbsent(s: string, cs: set<char>, sub: char)
    requires forall i :: 0 <= i < |s| ==> s[i] !in cs
    ensures MapChars(s, cs, sub) == s
  {
  }

  /** Every character of `s` that is in `cs` becomes `sub` (a regex character class substituted by one character). */
  function MapChars(s: string, cs: set<char>, sub: char): (r: string)
    ensures |r| == |s|
    ensures forall i :: 0 <= i < |s| ==> r[i] == if s[i] in cs then sub else s[i]
  {
    if s == [] then [] else [if s[0] in cs then sub else s[0]] + MapChars(s[1..], cs, sub)
  }

  predicate IsUpper(c: char) { 'A' <= c <= 'Z' }

  /** ASCII lower-casing of one character. */
  function LowerChar(c: char): char
  {
    if IsUpper(c) then (c as int + 32) as char else c
  }

  /** `s.lower()` on ASCII text. */
  function Lower(s: string): (r: string)
    ensures |r| == |s|
    ensures forall i :: 0 <= i < |s| ==> r[i] == LowerChar(s[i])
  {
    if s == [] then [] else [LowerChar(s[0])] + Lower(s[1..])
  }

  /** The whitespace characters of Python's `str.split()` and `str.strip()`. */
  predicate IsSpace(c: char)
  {
    c == ' ' || c == '\t' || c == '\n' || c == '\r' || c == '\U{0b}' || c == '\U{0c}'
  }

  /** `s.lstrip()` */
  function LStrip(s: string): (r: string)
    ensures |r| <= |s| && r == s[|s| - |r|..]
    ensures r == [] || !IsSpace(r[0])
  {
    if s == [] then [] else if IsSpace(s[0]) then LStrip(s[1..]) else s
  }

  /** `s.rstrip()` */
  function RStrip(s: string): (r: string)
    ensures |r| <= |s| && r == s[..|r|]
    ensures r == [] || !IsSpace(r[|r| - 1])
  {
    if s == [] then [] else if IsSpace(s[|s| - 1]) then RStrip(s[..|s| - 1]) else s
  }

  /** `s.strip()` */
  function Strip(s: string): string
  {
    RStrip(LStrip(s))
  }

  /** `s.split(sep)` for a one-character separator: always at least one part. */
  function SplitOn(s: string, sep: char): (parts: seq<string>)
    ensures |parts| >= 1
    ensures forall i :: 0 <= i < |parts| ==> sep !in parts[i]
    decreases |s|
  {
    if sep !in s then [s]
    else
      var k := IndexOf(s, sep);
      [s[..k]] + SplitOn(s[k + 1..], sep)
  }

  /** Position of the first `c` in `s`. */
  function IndexOf(s: string, c: char): (k: nat)
    requires c in s
    ensures k < |s| && s[k] == c && c !in s[..k]
  {
    if s[0] == c then 0 else 1 + IndexOf(s[1..], c)
  }

  /** `s.split()`: the maximal runs of non-whitespace characters. */
  function Words(s: string): seq<string>
    decreases |s|
  {
    var t := LStrip(s);
    if t == [] then []
    else
      var n := WordLength(t);
      [t[..n]] + Words(t[n..])
  }

  /** Length of the run of non-whitespace characters at the start of `s`. */
  function WordLength(s: string): (n: nat)
    ensures n <= |s|
    ensures s != [] && !IsSpace(s[0]) ==> n > 0
  {
    if s == [] || IsSpace(s[0]) then 0 else 1 + WordLength(s[1..])
  }

  /** `str(n)` for a natural number. */
  function NatToString(n: nat): (r: string)
    ensures r != []
    ensures forall i :: 0 <= i < |r| ==> '0' <= r[i] <= '9'
  {
    if n < 10 then [Digit(n)] else NatToString(n / 10) + [Digit(n % 10)]
  }

  function Digit(d: nat): (c: char)
    requires d < 10
    ensures '0' <= c <= '9'
  {
    "0123456789"[d]
  }
}

=== FILE: wrappers.dfy ===
/** Option and Result datatypes shared by every module of the model. */
module Wrappers {

  datatype Option<+T> = None | Some(value: T)

  /** The outcome of an operation that the source can abort by raising an exception. */
  datatype Result<+T, +E> = Success(value: T) | Failure(error: E)
}
